=== FILE: README.md ===
# PNCP procurement-notice collector, modelled in Dafny

The system collects public procurement notices ("editais") and contracts
("contratos") from the PNCP public API, keeps them in JSON files, merges
fresh batches into the stored ones, collects the items of each edital or
contrato, serves them through a small web API to a React front end, and
ships a handful of maintenance scripts over the stored files.

This project models the core of that system as pure Dafny functions and
methods over an immutable JSON value (`Values.Json`; a record is a
`map<string, Json>`), and proves properties of the model. Every place where
the Python code raises (a `.get` on something that is not a dict, comparing
an integer with a string, `int()` of a non-number) is an `Option.None`
result rather than a precondition. The network, the clock, the random
identifiers and date parsing are parameters: a request is the scripted
list of responses its attempts receive, `now` is an integer, `uuid(i)` is
the identifier drawn for the `i`-th edital, and date parsers are functions
passed in.

Modules, following the program's structure:

- `Values`, `Text`, `Lists`, `Dicts`, `Opt`: JSON values with Python
  truthiness and `str()`, JavaScript truthiness and `String()`, string
  helpers (`split` and `strip` on the Unicode whitespace set, ASCII
  `lower` and `int()`), filters, and Python dicts
  as insertion-ordered entry lists.
- `Keys`: the composite keys `cnpj_ano_numero` and `cnpj_ano_sequencial`
  and the lookups by key.
- `Http`: `_make_request` and the item endpoints of the PNCP client.
- `Paginators`: the sequential paginators of the three clients and the
  checkpoint file; `BatchedEditais`: the batched editais paginator of the
  backend client.
- `Sync`: the incremental merge `sync_editais`; `Items`: month extraction,
  the publication-date filter, the item fetch per edital and the
  de-duplicating collection over many editais; `Services`: the contratos
  services.
- `ManualFetch`, `Maintenance`, `Checks`: the fetch and data scripts.
- `Web`: the password and email rules, user creation (web view and command
  line) and the edital routes; `Settings`: environment lookup and the SQLite
  URL normalisation; `Export`: the control-character cleaning of the export.
- `Frontend`: the CNPJ mask, URL building, the edital key and the search
  filter of the React pages.

Where the code and its documentation disagree, the model follows the code:
for instance the backend editais paginator resumes AT the checkpoint page
(`max(2, checkpoint)`), not one page before it as the root client does, and
`sync_editais` compares against the record the key map was built from, not
against a record replaced earlier in the same batch.

## Model

| member | source | states |
|---|---|---|
| Http.MakeRequest | backend/api_client/pncp_client.py:51-66 | At most three attempts; the first decodable 2xx response is returned, a 404 or an empty body counts as a failed attempt, and after three failures the exception propagates |
| Http.ItemsPageDecided | backend/api_client/pncp_client.py:137-170 | The paginated item request is decided by its first attempt that is neither a failure nor an empty body: a 404 gives an empty page at once, a body is normalised (list as is, dict by `data`/`itens`/`items`), and exhaustion gives an empty page |
| Http.ItemsCountDecided | backend/api_client/pncp_client.py:115-135 | The item count is decided by the first non-failed attempt: 404 or an empty body give 0 without retrying, a body goes through `int()`, and three failures give 0 |
| Http.ItemsOfEdital | backend/api_client/pncp_client.py:101-113 | The non-paginated item endpoint gives an empty list when the request raised or the body is not a dict; a dict body gives its `itens` list, else its `items` list, else nothing |
| Http.ItemsOfContrato | backend/api_client/pncp_client.py:91-99 | A truthy body is returned as it came; anything else, and a request that raised, gives an empty list |
| Paginators.PageData | backend/api_client/pncp_client.py:218-229 | A page result that is neither a list nor a dict stops the loop; a list is its own data; a dict gives its `data` list, else its `contratos` (contract loops) or `contratacoes` (editais loops) list, and nothing when that value is not a list |
| Paginators.StepAt | backend/api_client/pncp_client.py:202-252 | One loop iteration: a failed page bumps the consecutive-error count and stops at the third; a page that moves on reset the count, was full and lay below `totalPaginas` |
| Paginators.RequestedConsecutive | backend/api_client/pncp_client.py:195-255 | The pages requested are consecutive from the start page |
| Paginators.RecordsAreHarvest | backend/api_client/pncp_client.py:239-241 | The collection is the concatenation of the requested pages' records in page order: nothing dropped, reordered or duplicated |
| Paginators.GiveUpOnFailure | backend/api_client/pncp_client.py:206-214 | A run ends on a failed page exactly when it stops for too many errors |
| Paginators.GiveUpStreak | api_client/pncp_client.py:264-274 | A run gives up only after three consecutive failed pages |
| Paginators.NoEarlyGiveUp | backend/api_client/pncp_client.py:206-216 | No streak of failures before the last requested page reaches three: a successful page resets the counter |
| Paginators.StopReason | Asset-Manager/api_client/pncp_client.py:101-122 | The last page explains the stop: an unexpected type, an empty page, a short page, `totalPaginas` reached, or a crash on a non-numeric `totalPaginas`; the Asset-Manager editais loop stops only on errors, a bad type or an empty page |
| Paginators.NonFinalPages | backend/api_client/pncp_client.py:217-252 | Every page before the last failed or was a proper page: full where a short page stops the loop, non-empty otherwise, and below `totalPaginas` for contratos |
| Paginators.RootCheckpoints | api_client/pncp_client.py:296-307 | The root editais paginator saves a checkpoint at every tenth page that added records and nowhere else |
| Paginators.CheckpointsSaved | api_client/pncp_client.py:290-307 | At every checkpoint the callback is handed the whole collection so far: the records of every page from the start page through the checkpoint page |
| Paginators.RootGetAllEditais | api_client/pncp_client.py:246-248 | The root editais paginator raises exactly when the stored checkpoint is not a number |
| Paginators.RootCheckpointCallbacks | api_client/pncp_client.py:246-307 | In the root `get_all_editais`, each checkpoint callback is handed the records of every page from the resume page through the checkpoint page |
| Paginators.GetAllContratos | backend/api_client/pncp_client.py:195-255 | The backend contract paginator requests pages 1, 2, ... in turn, returns their records in page order, and its last page explains the stop |
| Paginators.AssetGetAllContratos | Asset-Manager/api_client/pncp_client.py:79-128 | The Asset-Manager contract paginator requests pages 1, 2, ... in turn, returns their records in page order, and its last page explains the stop |
| Paginators.AssetGetAllEditais | Asset-Manager/api_client/pncp_client.py:130-175 | The Asset-Manager editais paginator requests pages 1, 2, ... in turn, returns their records in page order, and stops only on three failures, an unexpected type or an empty page |
| Paginators.LastCheckpointPage | backend/api_client/pncp_client.py:31-40 | A missing, unreadable or non-dict checkpoint file, or one without the key, gives page 1; otherwise the stored value, whatever its type |
| Paginators.CheckpointRoundTrip | backend/api_client/pncp_client.py:42-49 | Reading back a saved checkpoint gives the page saved |
| Paginators.RootStartPage | api_client/pncp_client.py:246-248 | The root editais paginator resumes one page before the checkpoint and never below page 1; a non-numeric checkpoint raises |
| BatchedEditais.FetchPage | backend/api_client/pncp_client.py:298-309 | A failed or oddly typed page contributes nothing; a list is its own data |
| BatchedEditais.BackendStartPage | backend/api_client/pncp_client.py:290-292 | The backend resumes at the checkpoint page itself when it is 2 or more, and at page 2 otherwise |
| BatchedEditais.BatchInterrupted | backend/api_client/pncp_client.py:324-356 | The batch loop stops early exactly when the interrupt arrives before the last page |
| BatchedEditais.BatchRecords | backend/api_client/pncp_client.py:324-340 | The batch loop collects exactly the pages up to the interrupt, or all pages, in page order after what came before |
| BatchedEditais.BatchInterruptWrite | backend/api_client/pncp_client.py:377-386 | On interruption the page `pages_fetched + start_page` is checkpointed, and only when something was collected |
| BatchedEditais.BatchWrites | backend/api_client/pncp_client.py:358-366 | The loop only appends checkpoint writes, independently of the records collected |
| BatchedEditais.LaterWritesOrder | backend/api_client/pncp_client.py:358-361 | Checkpoint pages are written in increasing order and lie among the pages not yet fetched |
| BatchedEditais.LaterWritesLast | backend/api_client/pncp_client.py:358-361 | Without an interrupt the last checkpoint written is the last page |
| BatchedEditais.LaterWritesAt | backend/api_client/pncp_client.py:358-361 | A checkpoint is written after exactly the batches that are reached and whose page count is a multiple of 50 or the total |
| BatchedEditais.BackendGetAllEditais | backend/api_client/pncp_client.py:272-292 | A failed first page gives an empty collection; a first page that is not a dict, or a non-numeric `totalPaginas`, raises; one page in total gives the first page's data with no checkpoint; with more pages it raises exactly when the stored checkpoint is not a number |
| BatchedEditais.BatchSaved | backend/api_client/pncp_client.py:358-366 | Each checkpoint callback after a batch is handed the whole collection so far: the first data and every page through the page written |
| BatchedEditais.BackendCheckpointCallbacks | backend/api_client/pncp_client.py:358-366 | In `get_all_editais`, the callback at each checkpoint page is handed the first page's data followed by the pages from the start page through that page |
| BatchedEditais.BackendLastCallbackIsResult | backend/api_client/pncp_client.py:358-389 | Without an interrupt, the last checkpoint callback is handed exactly the collection `get_all_editais` returns |
| BatchedEditais.BackendEditaisCollects | backend/api_client/pncp_client.py:257-389 | The collection is the first page's data followed by the pages from the start page to `totalPaginas` or the interrupt; without an interrupt the last checkpoint is `totalPaginas` |
| Keys.CnpjPart | backend/services/editais_service.py:406 | The CNPJ lookup raises exactly when `orgaoEntidade` holds something other than a dict |
| Keys.RecordKey | backend/services/editais_service.py:404-409 | A key exists exactly when the record and its `orgaoEntidade` (if present) are dicts |
| Keys.KeyParts | backend/services/contratos_service.py:39-44 | The key joins CNPJ, year and number (or sequence) with '_': the organisation's truthy CNPJ first, `cnpjOrgao` as fallback, empty strings for missing parts |
| Keys.KeyRoundTrip | backend/services/editais_service.py:404-409 | A key whose parts hold no '_' splits back into its three parts |
| Keys.KeyExamples | backend/services/editais_service.py:406-409 | The organisation's CNPJ wins over `cnpjOrgao`; `cnpjOrgao` is used without an organisation |
| Keys.AllKeys | backend/services/editais_service.py:476-478 | The keys of all records in order, failing exactly when one record's key raises |
| Keys.FindByKey | backend/services/editais_service.py:385-392 | The lookup returns the first record with the key, nothing when no record has it, and raises when an earlier key raises |
| Keys.FindByKeyFirst | Asset-Manager/services/editais_service.py:21-27 | The lookup returns the record at the first matching position when the keys before it can be computed |
| Sync.ToTs | backend/services/editais_service.py:486-504 | A falsy value has no timestamp, a non-zero number is its own, `True` is 1, a non-empty string goes to the parser, and a non-empty list or dict has none (both `split` and `float` raise on it) |
| Sync.NewerZero | backend/services/editais_service.py:514 | A zero timestamp never wins; any non-zero one beats a missing or zero stored one; otherwise strictly greater wins; a record is never newer than itself |
| Sync.IndexOf | backend/services/editais_service.py:475-478 | The key map holds exactly the stored keys, each at the last index holding it |
| Sync.MergeStep | backend/services/editais_service.py:506-526 | One remote edital fails exactly when its key raises; otherwise the merge grows by exactly the number of editais added |
| Sync.MergeAllFails | services/editais_service.py:320-340 | The merge fails exactly when some fetched edital's key raises |
| Sync.MergeAllOutcome | backend/services/editais_service.py:506-526 | The merged list is the stored list with each record replaced by its last newer remote edital, followed by every remote edital with an unknown key, in order; the counters count replacements and appends |
| Sync.SyncEditais | backend/services/editais_service.py:469-544 | An empty batch changes nothing; the file is saved exactly when something was added or updated; items are fetched for exactly the added editais |
| Sync.SyncOutcome | backend/services/editais_service.py:469-544 | The sync raises exactly when a stored or fetched record has no key; otherwise it appends the unknown editais, fetches items for those and counts the replacements |
| Sync.SyncKeepsKeys | backend/services/editais_service.py:510-517 | No stored record is lost: each position keeps its record or holds a remote edital with the same key |
| Sync.SyncUnchanged | backend/services/editais_service.py:510-520 | Re-syncing records already stored adds, replaces and saves nothing |
| Sync.SyncAppendsDuplicates | backend/services/editais_service.py:521-526 | As written, a batch holding the same new edital twice appends it twice and counts two additions |
| Sync.KeyedStep | backend/services/editais_service.py:506-526 | With appended keys entered in the map, the map keeps holding every key of the list at a position with that key; a step either keeps the keys or appends one key the map did not hold, and fails exactly where the key raises |
| Sync.SyncEditaisKeyed | backend/services/editais_service.py:469-544 | The corrected merge keeps the save rule: saved exactly when something was added or updated |
| Sync.SyncKeyedDistinct | backend/services/editais_service.py:506-526 | With appended keys entered in the map, a stored list whose keys are distinct is saved with distinct keys, whatever the batch repeats |
| Sync.KeyedAllDistinct | backend/services/editais_service.py:506-526 | With appended keys entered in the map, the loop over the fetched batch keeps distinct keys distinct |
| Sync.SyncKeyedRepeatedStore | backend/services/editais_service.py:475-517 | A stored list holding a key twice is merged, not refused: a newer fetched edital under that key replaces the later copy, the one `local_map` keeps |
| Sync.SyncKeyedAppendsOnce | backend/services/editais_service.py:521-526 | With appended keys entered in the map, a repeated new edital is added once |
| Items.ExtractMonthMeaning | backend/services/editais_service.py:58-78 | An integer `mesCompra`/`mes` wins; otherwise the month of the first date field that yields one; otherwise none |
| Items.MonthOfIsoDate | backend/services/editais_service.py:70-75 | An ISO date `YYYY-MM-DD` yields its month digits |
| Items.MonthOfIsoTimestamp | backend/services/editais_service.py:73 | The time part of an ISO timestamp is ignored |
| Items.PublicationMonth | backend/services/editais_service.py:67-75 | Without a month field, an ISO `dataPublicacao` gives the month |
| Items.PublicationMonthExample | services/editais_service.py:36-56 | A publication date of 2026-12-31 gives month 12 |
| Items.PublicationKept | backend/services/editais_service.py:136-172 | An edital is kept exactly when it has no publication date, its date does not parse, or it is not before the cutoff |
| Items.PublicationOrder | backend/services/editais_service.py:143-166 | The filter keeps relative order: filtering a concatenation concatenates the filtered parts |
| Items.PublicationDropsStale | backend/services/editais_service.py:151-172 | An edital published before the cutoff is dropped and one without a date is kept |
| Items.PagedItems | backend/services/editais_service.py:355-364 | The page loop stops at the first empty page and returns the concatenation of the pages before it |
| Items.AnnotateAll | backend/services/editais_service.py:367-370 | Every item gets the edital's identifiers and keeps its other fields; a non-dict item raises |
| Items.FetchSingle | backend/services/editais_service.py:324-379 | Items are returned only for an edital with complete identifiers, and each carries them |
| Items.FetchSingleEndpoints | backend/services/editais_service.py:337-364 | Without a month only the non-paginated endpoint is used; with one, only the count and page endpoints |
| Items.CountZeroNoPages | backend/services/editais_service.py:346-351 | A count of 0 requests no page |
| Items.FetchSinglePaged | backend/services/editais_service.py:344-370 | With a month and a non-zero count the result is the annotated concatenation of the pages before the first empty one |
| Items.MissingIdsGiveNothing | backend/services/editais_service.py:333-335 | An edital with a missing identifier yields no items |
| Items.SkipStored | backend/services/editais_service.py:225-241 | Skipping keeps, in order, the editais whose key has no stored items; it raises exactly when a key cannot be computed |
| Items.FetchItemsForAll | backend/services/editais_service.py:185-322 | No editais gives nothing; otherwise the stored items followed by each fetched item whose key is new, once, and a save; with all editais skipped the stored items come back unsaved |
| Items.SkippedEditais | backend/services/editais_service.py:228-237 | An edital is skipped exactly when its key is among those of the stored items |
| Items.FetchedItemsFound | backend/services/editais_service.py:394-402 | Items fetched for an edital are all found again by that edital's identifiers |
| Items.ItemsByEditalExample | services/editais_service.py:226-233 | Of three items only the one matching cnpj, year and number is returned |
| Services.ContratoItems | backend/services/itens_service.py:26-38 | A contrato contributes items only with complete identifiers; each item is a response item with the contrato's identifiers added |
| Services.ItemsForAllContratos | backend/services/itens_service.py:21-44 | The items are the contributions of the contratos in order, failing exactly when one contrato raises |
| Services.ContratoItemsAnnotated | backend/services/itens_service.py:31-38 | Every collected item carries the identifiers of a contrato with complete identifiers |
| Services.ContratoItemsFound | backend/services/itens_service.py:50-58 | Items collected for a contrato are all found again by its identifiers |
| Services.Update | backend/services/contratos_service.py:51-56 | The fetched list is returned; the store is replaced only by a non-empty list |
| Services.UpdateKeepsData | Asset-Manager/services/editais_service.py:39-43 | An empty fetch never empties the store, and repeating an update changes nothing more |
| ManualFetch.PadronizaEdital | backend/scripts/fetch/manual_fetch_editais.py:36-45 | Standardising fails exactly on a non-dict edital or organisation; the result has string `cnpj`/`ano`/`numero` and a matching `_edital_id`, and nothing else changes |
| ManualFetch.PadronizaEditalFields | backend/scripts/fetch/manual_fetch_editais.py:37-44 | The fallbacks: a falsy `anoCompra` gives way to `ano`, and only a missing `ano` gives the empty string; likewise for CNPJ and number |
| ManualFetch.PadronizaEditalIdempotent | backend/scripts/fetch/manual_fetch_editais.py:36-45 | Standardising a standardised edital changes nothing |
| ManualFetch.PadronizaItem | backend/scripts/fetch/manual_fetch_editais.py:47-56 | A dict item gets string link fields and the matching `_edital_id`, nothing else changes |
| ManualFetch.PadronizaItemIdempotent | backend/scripts/fetch/manual_fetch_editais.py:47-56 | Standardising a standardised item changes nothing |
| ManualFetch.ItemLinksToEdital | backend/scripts/fetch/manual_fetch_editais.py:33-34 | An item's identifier equals an edital's exactly when the three parts agree, given parts without '_' |
| ManualFetch.IdCollision | backend/scripts/fetch/manual_fetch_editais.py:33-34 | Different parts can join to the same identifier when they hold '_' |
| ManualFetch.ManualFetch | backend/scripts/fetch/manual_fetch_editais.py:92-133 | The saved editais are the stored ones by identifier followed by the new standardised ones; items, when requested, are the stored ones followed by new items by `(_edital_id, itemSequencial)` |
| ManualFetch.SavedEditaisIds | backend/scripts/fetch/manual_fetch_editais.py:95-101 | The saved editais have distinct identifiers, namely those of the stored and fetched editais; the new ones were not stored |
| ManualFetch.StoredCollapse | backend/scripts/fetch/manual_fetch_editais.py:95 | Stored editais sharing an identifier collapse to the last of them, kept at the place of the first |
| ManualFetch.StoredTrueAndOne | backend/scripts/fetch/manual_fetch_editais.py:95 | Stored identifiers `True` and `1` are one dict key, so the later edital replaces the earlier |
| ManualFetch.RawStoreExample | backend/scripts/fetch/manual_fetch_editais.py:95-101 | Over a store of raw records without `_edital_id`, the stored records collapse to the last one and every standardised edital with a fresh identifier is new and appended after it |
| Maintenance.RemoveExpired | backend/scripts/data/remove_expired_editais.py:28-67 | The kept editais and the items linked to a kept edital's key, in order; failing exactly where the script raises |
| Maintenance.RemoveExpiredKeepsEditais | backend/scripts/data/remove_expired_editais.py:36-64 | An edital is kept exactly when its closing date is falsy, unparsable, or a naive time not before now |
| Maintenance.RemoveExpiredKeepsItens | backend/scripts/data/remove_expired_editais.py:67 | An item is kept exactly when its key is that of a kept edital |
| Maintenance.RemoveExpiredIdempotent | backend/scripts/data/remove_expired_editais.py:28-74 | Running the script on its own output removes nothing more |
| Maintenance.GenerateIds | backend/scripts/data/generate_edital_unique_ids_absolute.py:19-45 | Every edital gets its own `ID_C_PNCP` and every item an `edital_ID_C_PNCP`, nothing else changes |
| Maintenance.GeneratedLink | backend/scripts/data/generate_edital_unique_ids_absolute.py:28-42 | An item's link is the identifier of the first edital with its key, and null exactly when no edital has that key |
| Maintenance.IdFirstShape | backend/scripts/data/fix_edital_ids.py:16-24 | The rewritten record has `_edital_id` first, keeping its own value when it had one, then the other entries in order |
| Maintenance.IdFirstKeys | backend/scripts/data/fix_edital_ids.py:21-23 | The rewritten record has distinct keys: the original ones and `_edital_id` |
| Maintenance.IdFirstFields | backend/scripts/data/fix_edital_ids.py:22-23 | As a dict the rewritten record differs from the original at most in `_edital_id` |
| Maintenance.FixEditalIds | backend/scripts/data/fix_edital_ids.py:36-45 | Every edital and item is rewritten in order, failing exactly where a stored record is not a dict or an edital's key raises |
| Maintenance.FixEditalIdsRejects | backend/scripts/data/fix_edital_ids.py:16-34 | A stored value that is not a dict, among the editais or the items, makes the script raise |
| Maintenance.FixEditalIdsShape | backend/scripts/data/fix_edital_ids.py:41 | Each rewritten edital starts with `_edital_id`, own value first, computed key otherwise |
| Maintenance.RemoveCampos | backend/scripts/data/remove_edital_ids.py:15-19 | None of the identifier fields is left and every other field is unchanged |
| Maintenance.PyDict | backend/scripts/data/remove_edital_ids.py:26-27 | `dict(v)` copies a dict, makes `{}` of an empty string, builds a list's pairs into a dict, and raises on numbers, booleans, `null` and non-empty strings |
| Maintenance.PairsDict | backend/scripts/data/remove_edital_ids.py:26-27 | `dict` of a list raises exactly when an element is not a pair, and otherwise has exactly the pairs' keys |
| Maintenance.PairsDictOfEntries | backend/scripts/data/remove_edital_ids.py:26-27 | `dict` of a list of key-value pairs is the dict those entries stand for, a later pair for a key winning |
| Maintenance.RemoveEditalIds | backend/scripts/data/remove_edital_ids.py:21-30 | Every record becomes `dict(record)` without its identifier fields, failing exactly where `dict` raises on a record |
| Maintenance.RemoveEditalIdsAcceptsPairs | backend/scripts/data/remove_edital_ids.py:26-27 | An empty list, an empty string and a list of pairs are stored back as dicts |
| Maintenance.RemoveEditalIdsRejects | backend/scripts/data/remove_edital_ids.py:26-27 | A number, or a list holding a three-character string, makes the script raise |
| Maintenance.RemoveEditalIdsIdempotent | backend/scripts/data/remove_edital_ids.py:26-27 | Removing the fields twice is removing them once |
| Maintenance.RemoveUndoesGenerate | backend/scripts/data/remove_edital_ids.py:13-27 | Removing the identifier fields undoes identifier generation |
| Maintenance.RemoveUndoesIdFirst | backend/scripts/data/remove_edital_ids.py:13-19 | Removing the identifier fields undoes the `_edital_id`-first rewrite |
| Checks.FixItemRaises | backend/scripts/data/fix_itens_keys.py:29-33 | The inner loop raises exactly on a list holding one of the link-field names, a string containing one, or a number, boolean or `None` |
| Checks.FixItemEffect | backend/scripts/data/fix_itens_keys.py:29-33 | Each present link field of a dict becomes its `str()`, nothing else changes, and the item counts as changed exactly when one was not a string |
| Checks.FixItemStable | backend/scripts/data/fix_itens_keys.py:29-33 | An unchanged item is left as it was, and a fixed item needs no further fixing |
| Checks.FixItensKeys | backend/scripts/data/fix_itens_keys.py:28-40 | The items after the loop and the changed flag, set exactly when some item needed fixing; failing exactly where the loop raises |
| Checks.EditalIds | backend/scripts/data/check_edital_item_link_consistency.py:17 | The set holds exactly the truthy edital identifiers, failing exactly on a non-dict edital or an unhashable identifier |
| Checks.ScanItems | backend/scripts/data/check_edital_item_link_consistency.py:24-33 | The counts and first five examples of the items without a link and of those whose link names no edital |
| Checks.LinkReport | backend/scripts/data/check_edital_item_link_consistency.py:12-33 | The script's report, in which no item is counted twice |
| Checks.GeneratedLinksResolve | backend/scripts/data/check_edital_item_link_consistency.py:24-33 | After identifier generation no link names a missing edital, and the unlinked items are exactly those whose key matches no edital |
| Checks.NormIsPyEq | backend/scripts/data/check_edital_id_duplicates.py:19 | For hashable values, sharing a counter key is Python equality (`True == 1`) |
| Checks.CounterKeys | backend/scripts/data/check_edital_id_duplicates.py:19 | The counter's keys are distinct and are the keys of the values counted |
| Checks.CounterCounts | backend/scripts/data/check_edital_id_duplicates.py:19 | Every counter entry counts exactly the values filed under its key |
| Checks.CounterTotal | backend/scripts/data/check_edital_id_duplicates.py:19 | The counts add up to the number of values counted |
| Checks.DuplicatesMeaning | backend/scripts/data/check_edital_id_duplicates.py:15-21 | The entries returned are exactly the keys held by more than one value, with their counts |
| Checks.DuplicatesBound | backend/scripts/data/check_edital_id_duplicates.py:18-20 | The duplicate counts add up to at most the number of values |
| Checks.NoDuplicatesWhenDistinct | backend/scripts/data/check_edital_id_duplicates.py:20 | Without repeated values nothing is reported |
| Web.ValidatePassword | backend/scripts/create_user.py:30-42 | A password passes exactly when it is strong (six characters, an upper, a lower, a digit, a special); each message is returned exactly when its rule is the first to fail |
| Web.ValidatePasswordPolicy | backend/web/app.py:79-93 | Mismatching confirmation comes first; the policy passes exactly when both agree and the password is strong |
| Web.PolicyMessages | backend/web/app.py:81-92 | Every error is one of the six non-empty messages |
| Web.PasswordExamples | backend/scripts/create_user.py:54 | The documented password passes; without a special character or too short it fails with the matching message |
| Web.MatchesEmailIsShape | backend/scripts/create_user.py:45-48 | The index-based matcher accepts exactly the strings of the email pattern's shape |
| Web.ValidateEmail | backend/scripts/create_user.py:45-48 | An email is valid exactly when it matches the pattern, including a single trailing newline |
| Web.EmailOneAt | backend/web/app.py:309 | A valid email holds exactly one '@' |
| Web.NormalizedEmailPattern | backend/web/app.py:294 | After stripping and lower-casing, validity is exactly the pattern's shape |
| Web.EmailAccepted | backend/scripts/create_user.py:54 | The documented email is accepted |
| Web.EmailShortTld | backend/web/app.py:309 | A one-letter top-level domain is rejected |
| Web.CreateUserView | backend/web/app.py:291-325 | A user is created exactly when the form is admissible and the passwords agree, with the form's fields; refusals are 400 exactly for invalid forms and 409 for taken username or email |
| Web.EmailBeforePassword | backend/web/app.py:308-316 | An invalid email is reported before a password problem |
| Web.CreateUserCli | backend/scripts/create_user.py:51-98 | Too few arguments give the usage message; a user is created exactly when the arguments are admissible, with those fields |
| Web.CliAgreesWithView | backend/scripts/create_user.py:51-98 | The command line accepts exactly what the web view accepts for the same fields with a matching confirmation, and creates the same user |
| Web.RouteParts | backend/web/app.py:155-157 | A key passes the route check exactly when it holds two '_', and its parts join back to it |
| Web.RoutePartsOfKey | backend/web/app.py:155-157 | A key built from parts without '_' passes the check and gives its parts back |
| Web.EditalDetail | backend/web/app.py:152-161 | A detail answer is a stored, non-empty edital with that key; a key without three parts is not found |
| Web.DetailServesStored | backend/web/app.py:154-161 | Every stored non-empty edital is served under its own key, given key parts without '_' and no earlier record with that key |
| Web.EditalItens | backend/web/app.py:164-172 | A key without exactly three parts gives 404; otherwise the route returns the stored items of the edital the parts name, in stored order, with their count, and raises exactly where that lookup does |
| Settings.GetEnv | backend/config/settings.py:15-19 | A required variable that is missing or empty raises; otherwise the value or the default |
| Settings.JoinPath | backend/config/settings.py:98 | The joined path ends with the relative path and is absolute when the base is |
| Settings.NormalizeSqliteUrl | backend/config/settings.py:90-100 | Non-SQLite URLs and absolute or drive paths are unchanged; a relative path is resolved under the base, keeping the prefix |
| Settings.NormalizeIdempotent | backend/config/settings.py:90-102 | Normalising a normalised URL changes nothing when the base is absolute |
| Settings.NormalizeRelative | backend/config/settings.py:94-100 | A relative SQLite path becomes the base joined with it |
| Settings.DatabaseUrl | backend/config/settings.py:88-102 | The database URL is the required variable, normalised |
| Export.RemoveControl | backend/export/exporter.py:55-59 | The cleaned string holds only printable characters, the same ones otherwise, in order |
| Export.RemoveControlNoOp | backend/export/exporter.py:58-59 | Cleaning changes a string exactly when it holds a control character |
| Export.RemoveControlAppend | backend/export/exporter.py:59 | Cleaning distributes over concatenation |
| Export.CleanStrIdempotent | backend/export/exporter.py:55-59 | Cleaning twice is cleaning once |
| Export.AggressiveCleanIdempotent | backend/export/exporter.py:90-95 | Cleaning the rendered string again changes nothing |
| Frontend.MaskDigits | frontend/react/src/App.jsx:4-6 | The digits of a masked CNPJ are the digits masked |
| Frontend.FormatCnpj | frontend/react/src/App.jsx:2-7 | A falsy value gives a dash, a value without 14 digits is returned as is, and 14 digits give an 18-character mask with separators in place and the same digits |
| Frontend.FormatCnpjIdempotent | frontend/react/src/App.jsx:2-7 | Formatting a formatted CNPJ changes nothing |
| Frontend.BuildUrl | frontend/react/src/App.jsx:44-50 | The URL ends with the path; absolute paths and an empty base leave it unchanged |
| Frontend.BuildUrlTrailingSlash | frontend/react/src/App.jsx:44 | A base with or without a trailing slash gives the same URL |
| Frontend.EditalKey | frontend/react/src/App.jsx:70-79 | A falsy edital gives the empty key; one with a truthy CNPJ and a year and number that are truthy or 0 gives `cnpj_ano_numero`; otherwise `chave` when truthy, else `id` when truthy, else the empty key |
| Frontend.EditalKeyIsBackendKey | frontend/react/src/App.jsx:70-79 | For a record with plain parts, the front-end key is the backend's key |
| Frontend.FilteredEditais | frontend/react/src/pages/EditaisPage.jsx:45-61 | An empty search keeps everything; otherwise exactly the editais some field of which contains the lower-cased term, failing where a field access throws |
| Frontend.SearchNarrows | frontend/react/src/pages/EditaisPage.jsx:45-61 | Extending the search term only narrows the result |
| Frontend.RowOf | frontend/react/src/pages/EditaisPage.jsx:117-145 | A row links to `/edital/<key>` exactly when the edital's key is truthy and is then keyed by it; otherwise it is keyed by `numero` when truthy, else by its index; a null edital throws |
| Frontend.RowLinkAccepted | frontend/react/src/pages/EditaisPage.jsx:132-139 | The link of a keyed row names the backend key and passes the detail route's check |

## Left out

- Threads, sleeps, logging, file I/O and HTTP are not modelled: the thread pools run their tasks in submission order, a request is a scripted response list, files are values passed in and returned.
- Floating-point values (JSON numbers with a fraction, `float()` timestamps) are not modelled; JSON numbers are integers.
- Dates and clocks: `datetime.now`, `fromisoformat`, `strptime` and `fromtimestamp` are parameters (`parse`, `cutoff`, `now`); calendar arithmetic is not modelled.
- Items.PublicationKept: the parser is assumed to give comparable instants; the `TypeError` of comparing an offset-aware parsed date with the naive cutoff is not modelled.
- Python regular expressions, `str.lower()` and `int()` are ASCII-only in the model: Unicode decimal digits for `\d` and for `int()` (which Text.ParseInt rejects) and non-ASCII case mapping are not modelled; likewise JavaScript `toLowerCase`.
- Python `str()` of lists and dicts is a placeholder string, and JavaScript `String()` of objects is `[object Object]` with arrays joined; nested formatting is not modelled.
- Dict keys: `True == 1` and `False == 0` are one key (Values.Norm) in the duplicate counter of Checks and in the dicts of ManualFetch; other identities (for instance `1 == 1.0`) and the `TypeError` of an unhashable key are not modelled.
- `json.load` failures and a top-level JSON value that is not a list are not modelled; the stored files are lists.
- backend/scripts/data/fix_itens_keys.py does not parse as Python (its first lines are an unterminated docstring); the model describes the loop the file evidently intends.
- BatchedEditais.BatchInterruptWrite: the modelled interrupt is a `KeyboardInterrupt` reaching one of the two handlers of the batched paginator (backend/api_client/pncp_client.py:346-353, 372-375), which set `cancelled`, so the final checkpoint is written (backend/api_client/pncp_client.py:377-386). A cancellation through the flag alone ends the loop at backend/api_client/pncp_client.py:324, 333 or 355-356 with `cancelled` still false, so no final checkpoint is written; the scripts' `SIGINT` handlers take that path, calling `request_cancel()` and then `sys.exit(0)` (backend/scripts/fetch/manual_fetch_editais.py:145-151, backend/scripts/fetch/fetch_recent_editais.py:172-181). Flag-only cancellation and `SystemExit` are not modelled. Timeouts of `as_completed` and exceptions inside futures are not modelled. The `KeyboardInterrupt` handler of `fetch_itens_for_all_editais` (backend/services/editais_service.py:290-303), which saves the items collected so far and re-raises, is not modelled.
- The item checkpoint saves every `ITEMS_FETCH_CHECKPOINT` editais are not modelled, only the final save.
- Web views: form values are strings (non-string JSON request values are not modelled); the user database is a parameter (`Accounts`) and user creation itself is not modelled; password hashing is out of scope.
- Settings: only POSIX paths (`os.sep == '/'`); Windows path joining is not modelled, though drive-letter paths are recognised as the code does.
- Export: `pandas`, CSV and XLSX writing are not modelled; the `except` branch of `aggressive_clean` cannot be reached in the model since `str()` is total.
- Frontend: `formatDateBR`, `formatCurrencyBRL`, React rendering and fetching are not modelled; JavaScript `-0` and `NaN` are not modelled.
- Paginators.Paginate: its own contract states only where the last request falls; the page sequence, what is collected and why it stops are stated by the lemmas about it.
- Maintenance.PyDict: a list element that is a pair whose key is not a string (Python then builds a dict with a non-string key) and a two-key dict used as a pair (its keys taken in insertion order) are treated as raising.
- Sync.SyncEditais: the stored editais are a parameter. In the source, `fetch_all_editais` passes a checkpoint callback that saves each collection it is handed over the stored editais (backend/services/editais_service.py:32-40), and `sync_editais` then loads the stored editais (backend/services/editais_service.py:462-474), so it loads what the last checkpoint saved; BatchedEditais.BackendLastCallbackIsResult shows that, without an interrupt, this is the fetched collection itself. The model does not compose the two steps through the store.
- ManualFetch.ManualFetch: the stored editais are a parameter. In the source, `main` calls `fetch_all_editais` (backend/scripts/fetch/manual_fetch_editais.py:80-85), whose checkpoint callback saves the collection it is handed over editais.json (backend/services/editais_service.py:32-34, 411-413; backend/storage/data_manager.py:50-58); BatchedEditais.BackendLastCallbackIsResult shows that when `totalPaginas > 1` and there is no interrupt, the last callback is handed the whole fetched collection. Line 95 then loads those raw records, which carry no `_edital_id`: they collapse to one record filed under `None` (ManualFetch.StoredCollapse), every standardised edital counts as new, and one raw record stays in the saved file (ManualFetch.RawStoreExample). The model does not compose the fetch and the load through the store.
- Sync.ToTs: the string case is delegated to the parser parameter, which stands for `fromisoformat` with the `float()` fallback.
- Sync.SyncEditaisKeyed: its own contract states the save rule only; the distinct-key, append-once and repeated-store properties are stated by the lemmas about it.

## Findings

| source | as written | input that shows it | evidently intended | confidence | as-written member | corrected member |
|---|---|---|---|---|---|---|
| backend/services/editais_service.py:521-526 | A new edital is appended to the stored list but its key is never entered in `local_map`, so a later edital with the same key in the same batch is appended again and counted again | stored `[a]`, fetched batch `[b, b]` with `b`'s key new: the saved list is `[a, b, b]` with 2 added | each key is stored once: the second copy is compared with the appended one and not appended | not executed; medium | Sync.SyncAppendsDuplicates | Sync.SyncKeyedAppendsOnce |

=== FILE: batched_editais.dfy ===
/** `get_all_editais` of the backend client: the first page fixes the page
    count, the remaining pages from the checkpoint on are fetched in batches
    of `2 * max_workers`, and a checkpoint is written after a batch when the
    number of pages fetched is a multiple of 50 or no page remains. The
    thread pool is modelled by processing each batch's pages in order; a
    keyboard interrupt is a parameter: the number of pages processed when it
    arrives. */
module BatchedEditais {
  import opened Opt
  import opened Values
  import opened Http
  import opened Paginators
  import opened Lists

  /** Pages fetched between two checkpoint writes. */
  const CheckpointEvery: nat := 50

  /** `fetch_page`: a failed page is empty, a list is itself, a dict gives
      `data` (else `contratacoes`) when that is a list, anything else `[]`. */
  function FetchPage(r: Json): (data: seq<Json>)
    ensures r.JList? ==> data == r.items
    ensures !r.JList? && !r.JObj? ==> data == []
    ensures r.JObj? && "data" in r.fields ==> data == ListOrEmpty(r.fields["data"])
    ensures r.JObj? && "data" !in r.fields ==>
      data == if "contratacoes" in r.fields then ListOrEmpty(r.fields["contratacoes"]) else []
  {
    match r
    case JList(xs) => xs
    case JObj(d) =>
      FirstPresentPair(d, "data", "contratacoes", JList([]));
      ListOrEmpty(FirstPresent(d, ["data", "contratacoes"], JList([])))
    case _ => []
  }

  /** What fetching page `p` contributes to the collection. */
  function PageFetcher(pages: seq<Json>): int -> seq<Json> {
    p => FetchPage(PageAt(pages, p))
  }

  /** The records of pages `a` to `b - 1`, in page order, where `fetch(p)` is
      what page `p` contributes. */
  function PageRange(fetch: int -> seq<Json>, a: int, b: int): seq<Json>
    decreases b - a
  {
    if b <= a then [] else PageRange(fetch, a, b - 1) + fetch(b - 1)
  }

  /** The outcome of the batch loop: the collection, the pages written as
      checkpoints after batches and, for each, the collection handed to the
      checkpoint callback there, the page written when an interrupt stopped
      the loop (the callback then gets the whole collection), and whether it
      did. */
  datatype BatchRun = BatchRun(records: seq<Json>, writes: seq<int>, saved: seq<seq<Json>>,
                               interruptWrite: Option<int>, interrupted: bool)

  /** The batch loop over the `n` pages `start .. start + n - 1`, of which the
      first `done` are processed, with collection `acc`, checkpoint writes
      `writes` and collections handed to the callback `saved` so far. */
  function RunBatches(fetch: int -> seq<Json>, start: int, n: nat, size: nat, done: nat,
                      acc: seq<Json>, writes: seq<int>, saved: seq<seq<Json>>, interrupt: Option<nat>): BatchRun
    requires size >= 1 && done <= n
    decreases n - done
  {
    if done == n then BatchRun(acc, writes, saved, None, false)
    else
      var end := BatchEnd(done, size, n);
      if InterruptedIn(interrupt, done, end) then
        var k := interrupt.value;
        var got := acc + PageRange(fetch, start + done, start + k);
        BatchRun(got, writes, saved, if |got| > 0 then Some(start + k) else None, true)
      else
        var got := acc + PageRange(fetch, start + done, start + end);
        var w := if Due(end, n) then writes + [start + end - 1] else writes;
        var sv := if Due(end, n) then saved + [got] else saved;
        RunBatches(fetch, start, n, size, end, got, w, sv, interrupt)
  }

  /** The number of pages done after the batch that starts at `done`. */
  function BatchEnd(done: nat, size: nat, n: nat): (end: nat)
    requires size >= 1 && done < n
    ensures done < end <= n
  {
    if done + size < n then done + size else n
  }

  /** A checkpoint is due after `end` pages. */
  predicate Due(end: nat, n: nat) {
    end % CheckpointEvery == 0 || end == n
  }

  /** The interrupt arrives while the batch of pages `done .. end - 1` runs. */
  predicate InterruptedIn(interrupt: Option<nat>, done: nat, end: nat) {
    interrupt.Some? && done <= interrupt.value < end
  }

  /** The pages after which a checkpoint is written: `w` is the last page of
      a batch (the `e`-th page counted from `start`), `e` is a multiple of 50
      or the last page, and the loop got that far. */
  predicate BatchCheckpoint(start: int, n: nat, size: nat, done: nat, lim: nat, w: int)
    requires size >= 1
  {
    var e := w - start + 1;
    && done < e <= lim
    && (e % size == 0 || e == n)
    && (e % CheckpointEvery == 0 || e == n)
  }

  predicate Increasing(s: seq<int>) {
    forall i, j :: 0 <= i < j < |s| ==> s[i] < s[j]
  }

  /** How far the loop gets: up to the interrupt, or through all `n` pages. */
  function Reach(n: nat, interrupt: Option<nat>): nat {
    if interrupt.Some? && interrupt.value < n then interrupt.value else n
  }

  /** One uninterrupted batch: the loop collects the batch's pages, writes
      its last page when a checkpoint is due, and goes on from the batch end. */
  lemma BatchStep(fetch: int -> seq<Json>, start: int, n: nat, size: nat, done: nat,
                  acc: seq<Json>, writes: seq<int>, saved: seq<seq<Json>>, interrupt: Option<nat>)
    requires size >= 1 && done < n && !InterruptedIn(interrupt, done, BatchEnd(done, size, n))
    ensures var end := BatchEnd(done, size, n);
      var now: seq<int> := if Due(end, n) then [start + end - 1] else [];
      var got := acc + PageRange(fetch, start + done, start + end);
      var snap: seq<seq<Json>> := if Due(end, n) then [got] else [];
      && RunBatches(fetch, start, n, size, done, acc, writes, saved, interrupt)
         == RunBatches(fetch, start, n, size, end, got, writes + now, saved + snap, interrupt)
      && LaterWrites(start, n, size, done, interrupt) == now + LaterWrites(start, n, size, end, interrupt)
  {
    var end := BatchEnd(done, size, n);
    if !Due(end, n) {
      assert writes + [] == writes;
      assert saved + [] == saved;
    }
  }

  /** The batch loop stops early exactly when the interrupt arrives before
      the last page. */
  lemma {:induction false} BatchInterrupted(fetch: int -> seq<Json>, start: int, n: nat, size: nat, done: nat,
                                            acc: seq<Json>, writes: seq<int>, saved: seq<seq<Json>>, interrupt: Option<nat>)
    requires size >= 1 && done <= n
    requires interrupt.Some? ==> interrupt.value >= done
    ensures var run := RunBatches(fetch, start, n, size, done, acc, writes, saved, interrupt);
      run.interrupted <==> interrupt.Some? && interrupt.value < n
    decreases n - done
  {
    if done < n {
      var end := BatchEnd(done, size, n);
      if !InterruptedIn(interrupt, done, end) {
        var got := acc + PageRange(fetch, start + done, start + end);
        var w := if Due(end, n) then writes + [start + end - 1] else writes;
        var sv := if Due(end, n) then saved + [got] else saved;
        BatchInterrupted(fetch, start, n, size, end, got, w, sv, interrupt);
      }
    }
  }

  /** The batch loop collects exactly the pages up to the interrupt (or all
      `n` pages), after what was collected before, in page order. */
  lemma {:induction false} BatchRecords(fetch: int -> seq<Json>, start: int, n: nat, size: nat, done: nat,
                                        acc: seq<Json>, writes: seq<int>, saved: seq<seq<Json>>, interrupt: Option<nat>, run: BatchRun)
    requires size >= 1 && done <= n
    requires interrupt.Some? ==> interrupt.value >= done
    requires run == RunBatches(fetch, start, n, size, done, acc, writes, saved, interrupt)
    ensures run.records == acc + PageRange(fetch, start + done, start + Reach(n, interrupt))
    decreases n - done
  {
    var lim := Reach(n, interrupt);
    if done == n {
      assert PageRange(fetch, start + done, start + lim) == [];
      assert acc + [] == acc;
    } else {
      var end := BatchEnd(done, size, n);
      if InterruptedIn(interrupt, done, end) {
        assert lim == interrupt.value;
      } else {
        var mid := PageRange(fetch, start + done, start + end);
        var now: seq<int> := if Due(end, n) then [start + end - 1] else [];
        var snap: seq<seq<Json>> := if Due(end, n) then [acc + mid] else [];
        BatchStep(fetch, start, n, size, done, acc, writes, saved, interrupt);
        var rest := RunBatches(fetch, start, n, size, end, acc + mid, writes + now, saved + snap, interrupt);
        BatchRecords(fetch, start, n, size, end, acc + mid, writes + now, saved + snap, interrupt, rest);
        var tail := PageRange(fetch, start + end, start + lim);
        PageRangeSplit(fetch, start + done, start + end, start + lim);
        AppendRegroup(acc, mid, tail, run.records, PageRange(fetch, start + done, start + lim));
      }
    }
  }

  /** On interruption the page `pages_fetched + start` is written, and only
      when something was collected; otherwise no such write happens. */
  lemma {:induction false} BatchInterruptWrite(fetch: int -> seq<Json>, start: int, n: nat, size: nat, done: nat,
                                               acc: seq<Json>, writes: seq<int>, saved: seq<seq<Json>>, interrupt: Option<nat>)
    requires size >= 1 && done <= n
    requires interrupt.Some? ==> interrupt.value >= done
    ensures var run := RunBatches(fetch, start, n, size, done, acc, writes, saved, interrupt);
      run.interruptWrite == (if run.interrupted && |run.records| > 0 then Some(start + Reach(n, interrupt)) else None)
    decreases n - done
  {
    if done < n {
      var end := BatchEnd(done, size, n);
      if !InterruptedIn(interrupt, done, end) {
        var got := acc + PageRange(fetch, start + done, start + end);
        var w := if Due(end, n) then writes + [start + end - 1] else writes;
        var sv := if Due(end, n) then saved + [got] else saved;
        assert RunBatches(fetch, start, n, size, done, acc, writes, saved, interrupt)
            == RunBatches(fetch, start, n, size, end, got, w, sv, interrupt);
        BatchInterruptWrite(fetch, start, n, size, end, got, w, sv, interrupt);
      }
    }
  }

  /** `saved[i]`, the collection handed to the callback with checkpoint
      `writes[i]`, is `data0` followed by the pages from `start` through it. */
  predicate SavedPages(fetch: int -> seq<Json>, start: int, data0: seq<Json>, writes: seq<int>, saved: seq<seq<Json>>) {
    && |saved| == |writes|
    && forall i :: 0 <= i < |saved| ==> start <= writes[i] + 1 && saved[i] == data0 + PageRange(fetch, start, writes[i] + 1)
  }

  lemma SavedPagesSnoc(fetch: int -> seq<Json>, start: int, data0: seq<Json>, writes: seq<int>, saved: seq<seq<Json>>,
                       w: int, snap: seq<Json>)
    requires SavedPages(fetch, start, data0, writes, saved)
    requires start <= w + 1 && snap == data0 + PageRange(fetch, start, w + 1)
    ensures SavedPages(fetch, start, data0, writes + [w], saved + [snap])
  {
    var ws, ss := writes + [w], saved + [snap];
    forall i | 0 <= i < |ss|
      ensures start <= ws[i] + 1 && ss[i] == data0 + PageRange(fetch, start, ws[i] + 1)
    {
      if i < |saved| {
        assert ws[i] == writes[i] && ss[i] == saved[i];
      }
    }
  }

  /** Every checkpoint callback of the loop is handed the whole collection
      so far: `data0` and every page from `start` through the page written. */
  lemma {:induction false} BatchSaved(fetch: int -> seq<Json>, start: int, n: nat, size: nat, done: nat, data0: seq<Json>,
                                      acc: seq<Json>, writes: seq<int>, saved: seq<seq<Json>>, interrupt: Option<nat>,
                                      run: BatchRun)
    requires size >= 1 && done <= n
    requires acc == data0 + PageRange(fetch, start, start + done)
    requires SavedPages(fetch, start, data0, writes, saved)
    requires run == RunBatches(fetch, start, n, size, done, acc, writes, saved, interrupt)
    ensures SavedPages(fetch, start, data0, run.writes, run.saved)
    decreases n - done
  {
    if done < n {
      var end := BatchEnd(done, size, n);
      if !InterruptedIn(interrupt, done, end) {
        var mid := PageRange(fetch, start + done, start + end);
        var got := acc + mid;
        var now: seq<int> := if Due(end, n) then [start + end - 1] else [];
        var snap: seq<seq<Json>> := if Due(end, n) then [got] else [];
        BatchStep(fetch, start, n, size, done, acc, writes, saved, interrupt);
        PageRangeSplit(fetch, start, start + done, start + end);
        AppendRegroup(data0, PageRange(fetch, start, start + done), mid, got, PageRange(fetch, start, start + end));
        if Due(end, n) {
          SavedPagesSnoc(fetch, start, data0, writes, saved, start + end - 1, got);
        } else {
          assert writes + now == writes && saved + snap == saved;
        }
        var rest := RunBatches(fetch, start, n, size, end, got, writes + now, saved + snap, interrupt);
        BatchSaved(fetch, start, n, size, end, data0, got, writes + now, saved + snap, interrupt, rest);
      }
    }
  }

  /** The checkpoint pages the loop writes from `done` pages on: after each
      batch that is not interrupted, its last page when a checkpoint is due. */
  function LaterWrites(start: int, n: nat, size: nat, done: nat, interrupt: Option<nat>): seq<int>
    requires size >= 1 && done <= n
    decreases n - done
  {
    if done == n then []
    else
      var end := BatchEnd(done, size, n);
      if InterruptedIn(interrupt, done, end) then []
      else (if Due(end, n) then [start + end - 1] else []) + LaterWrites(start, n, size, end, interrupt)
  }

  /** The loop only appends checkpoint writes, and they do not depend on the
      records collected. */
  lemma {:induction false} BatchWrites(fetch: int -> seq<Json>, start: int, n: nat, size: nat, done: nat,
                                       acc: seq<Json>, writes: seq<int>, saved: seq<seq<Json>>, interrupt: Option<nat>, run: BatchRun)
    requires size >= 1 && done <= n
    requires run == RunBatches(fetch, start, n, size, done, acc, writes, saved, interrupt)
    ensures run.writes == writes + LaterWrites(start, n, size, done, interrupt)
    decreases n - done
  {
    if done == n {
      assert writes + [] == writes;
    } else {
      var end := BatchEnd(done, size, n);
      if InterruptedIn(interrupt, done, end) {
        assert writes + [] == writes;
      } else {
        var got := acc + PageRange(fetch, start + done, start + end);
        var now: seq<int> := if Due(end, n) then [start + end - 1] else [];
        var snap: seq<seq<Json>> := if Due(end, n) then [got] else [];
        BatchStep(fetch, start, n, size, done, acc, writes, saved, interrupt);
        var rest := RunBatches(fetch, start, n, size, end, got, writes + now, saved + snap, interrupt);
        BatchWrites(fetch, start, n, size, end, got, writes + now, saved + snap, interrupt, rest);
        AppendRegroup(writes, now, LaterWrites(start, n, size, end, interrupt),
                      run.writes, LaterWrites(start, n, size, done, interrupt));
      }
    }
  }

  /** The checkpoints written from `done` pages on lie among the pages not
      yet done. */
  lemma {:induction false} LaterWritesRange(start: int, n: nat, size: nat, done: nat, interrupt: Option<nat>)
    requires size >= 1 && done <= n
    ensures var ws := LaterWrites(start, n, size, done, interrupt);
      forall i :: 0 <= i < |ws| ==> start + done <= ws[i] < start + n
    decreases n - done
  {
    if done < n {
      var end := BatchEnd(done, size, n);
      if !InterruptedIn(interrupt, done, end) {
        LaterWritesRange(start, n, size, end, interrupt);
        var later := LaterWrites(start, n, size, end, interrupt);
        assert forall i :: 0 <= i < |later| ==> start + end <= later[i] < start + n by {
          assert later == LaterWrites(start, n, size, end, interrupt);
        }
        var now: seq<int> := if Due(end, n) then [start + end - 1] else [];
        var ws := now + later;
        assert LaterWrites(start, n, size, done, interrupt) == ws;
        forall i | 0 <= i < |ws|
          ensures start + done <= ws[i] < start + n
        {
          if i >= |now| {
            assert ws[i] == later[i - |now|];
            assert start + end <= later[i - |now|];
          } else {
            assert ws[i] == start + end - 1;
          }
        }
      }
    }
  }

  /** The checkpoints written from `done` pages on come in increasing page
      order and lie among the pages not yet done. */
  lemma {:induction false} LaterWritesOrder(start: int, n: nat, size: nat, done: nat, interrupt: Option<nat>)
    requires size >= 1 && done <= n
    ensures var ws := LaterWrites(start, n, size, done, interrupt);
      Increasing(ws) && forall i :: 0 <= i < |ws| ==> start + done <= ws[i] < start + n
    decreases n - done
  {
    LaterWritesRange(start, n, size, done, interrupt);
    if done < n {
      var end := BatchEnd(done, size, n);
      if !InterruptedIn(interrupt, done, end) {
        LaterWritesOrder(start, n, size, end, interrupt);
        var later := LaterWrites(start, n, size, end, interrupt);
        if Due(end, n) {
          assert LaterWrites(start, n, size, done, interrupt) == [start + end - 1] + later;
          IncreasingCons(start + end - 1, later);
        } else {
          assert LaterWrites(start, n, size, done, interrupt) == later;
        }
      }
    }
  }

  /** A value below every element of an increasing sequence can go in front. */
  lemma IncreasingCons(x: int, s: seq<int>)
    requires Increasing(s) && forall i :: 0 <= i < |s| ==> x < s[i]
    ensures Increasing([x] + s)
    ensures forall i :: 0 <= i < |[x] + s| ==> ([x] + s)[i] == if i == 0 then x else s[i - 1]
  {
  }

  /** Without an interrupt before the last page, the last checkpoint written
      is the last page. */
  lemma {:induction false} LaterWritesLast(start: int, n: nat, size: nat, done: nat, interrupt: Option<nat>)
    requires size >= 1 && done < n
    requires interrupt.None? || interrupt.value >= n
    ensures var ws := LaterWrites(start, n, size, done, interrupt);
      |ws| > 0 && ws[|ws| - 1] == start + n - 1
    decreases n - done
  {
    var end := BatchEnd(done, size, n);
    assert !InterruptedIn(interrupt, done, end);
    var ws := LaterWrites(start, n, size, done, interrupt);
    var later := LaterWrites(start, n, size, end, interrupt);
    var now: seq<int> := if Due(end, n) then [start + end - 1] else [];
    assert ws == now + later;
    if end < n {
      LaterWritesLast(start, n, size, end, interrupt);
      assert ws[|ws| - 1] == later[|later| - 1];
    } else {
      assert later == [];
      assert Due(end, n);
    }
  }

  /** A checkpoint is written after exactly those batches whose last page is
      reached, ends a batch, and is a multiple of 50 pages or the last page. */
  lemma {:induction false} LaterWritesAt(start: int, n: nat, size: nat, done: nat, interrupt: Option<nat>, x: int)
    requires size >= 1 && done <= n && (done % size == 0 || done == n)
    requires interrupt.Some? ==> interrupt.value >= done
    ensures x in LaterWrites(start, n, size, done, interrupt)
        <==> BatchCheckpoint(start, n, size, done, Reach(n, interrupt), x)
    decreases n - done
  {
    var lim := Reach(n, interrupt);
    var e := x - start + 1;
    if done == n {
      assert !BatchCheckpoint(start, n, size, done, lim, x);
    } else {
      var end := BatchEnd(done, size, n);
      if InterruptedIn(interrupt, done, end) {
        if BatchCheckpoint(start, n, size, done, lim, x) {
          assert e < end;
          NoMultipleBetween(done, e, size);
          assert false;
        }
      } else {
        if end < n {
          ModUnique(end, done / size + 1, 0, size);
        }
        LaterWritesAt(start, n, size, end, interrupt, x);
        var later := LaterWrites(start, n, size, end, interrupt);
        var now: seq<int> := if Due(end, n) then [start + end - 1] else [];
        assert LaterWrites(start, n, size, done, interrupt) == now + later;
        assert x in now + later <==> x in now || x in later;
        if e < end {
          if e > done {
            NoMultipleBetween(done, e, size);
          }
          assert !BatchCheckpoint(start, n, size, end, lim, x);
          assert !BatchCheckpoint(start, n, size, done, lim, x);
          assert x !in now;
        } else if e == end {
          assert !BatchCheckpoint(start, n, size, end, lim, x);
          assert end <= lim;
          assert x in now <==> BatchCheckpoint(start, n, size, done, lim, x);
        } else {
          assert x !in now;
          assert BatchCheckpoint(start, n, size, end, lim, x) <==> BatchCheckpoint(start, n, size, done, lim, x);
        }
      }
    }
  }

  /** Strictly between a multiple of `size` and the next one lies none. */
  lemma NoMultipleBetween(done: int, e: int, size: int)
    requires size >= 1 && done % size == 0 && done < e < done + size
    ensures e % size != 0
  {
    ModUnique(done, done / size, 0, size);
    ModUnique(e, done / size, e - done, size);
  }

  /** Euclidean division is unique. */
  lemma ModUnique(e: int, q: int, r: int, size: int)
    requires size >= 1 && e == q * size + r && 0 <= r < size
    ensures e % size == r && e / size == q
  {
    var k := q - e / size;
    assert k * size == e % size - r;
    if k > 0 {
      MulMono(1, k, size);
    } else if k < 0 {
      MulMono(k, -1, size);
    }
  }

  lemma MulMono(a: int, b: int, c: nat)
    requires a <= b
    ensures a * c <= b * c
  {
  }

  lemma {:induction false} PageRangeSplit(fetch: int -> seq<Json>, a: int, b: int, c: int)
    requires a <= b <= c
    ensures PageRange(fetch, a, b) + PageRange(fetch, b, c) == PageRange(fetch, a, c)
    decreases c - b
  {
    if b < c {
      PageRangeSplit(fetch, a, b, c - 1);
    }
  }

  /** `get_all_editais`: `None` when it raises (`.get` on a first page that
      is not a dict, or a `totalPaginas` or checkpoint that is not a number);
      a failed first page gives an empty collection; one page in total gives
      the first page's data; otherwise the batch loop runs from
      `max(2, checkpoint)` to `totalPaginas` after the first page's data. */
  function BackendGetAllEditais(pages: seq<Json>, f: CheckpointFile, maxWorkers: nat, interrupt: Option<nat>): (r: Option<BatchRun>)
    requires maxWorkers >= 1
    ensures PageAt(pages, 1) == JNull ==> r == Some(BatchRun([], [], [], None, false))
    ensures PageAt(pages, 1) != JNull && !PageAt(pages, 1).JObj? ==> r.None?
    ensures PageAt(pages, 1).JObj? ==>
      var total := Numeric(GetOr(PageAt(pages, 1).fields, "totalPaginas", JInt(1)));
      && (total.None? ==> r.None?)
      && (total.Some? && total.value <= 1 ==> r == Some(BatchRun(FetchPage(PageAt(pages, 1)), [], [], None, false)))
      && (total.Some? && total.value > 1 ==> (r.None? <==> Numeric(LastCheckpointPage(f)).None?))
  {
    var first := PageAt(pages, 1);
    if first == JNull then Some(BatchRun([], [], [], None, false))
    else if !first.JObj? then None
    else
      var total := GetOr(first.fields, "totalPaginas", JInt(1));
      var data0 := ListOrEmpty(FirstPresent(first.fields, ["data", "contratacoes"], JList([])));
      match Numeric(total)
      case None => None
      case Some(t) =>
        if t <= 1 then Some(BatchRun(data0, [], [], None, false))
        else
          match Numeric(LastCheckpointPage(f))
          case None => None
          case Some(cp) =>
            var start := BackendStartPage(cp);
            var n := if start <= t then t - start + 1 else 0;
            Some(RunBatches(PageFetcher(pages), start, n, 2 * maxWorkers, 0, data0, [], [], interrupt))
  }

  /** The first page after page 1 that the backend fetches: the checkpoint
      page itself, never below 2 (no page before the checkpoint is refetched). */
  function BackendStartPage(cp: int): (start: int)
    ensures start >= 2 && start >= cp
    ensures cp >= 2 ==> start == cp
    ensures cp < 2 ==> start == 2
  {
    if cp > 1 then (if 2 > cp then 2 else cp) else 2
  }

  /** What the batch loop from its first batch yields: the pages up to the
      interrupt (or all `n`) after `data0`, the due checkpoints, and without
      an interrupt a last checkpoint on the last page. */
  lemma BatchOutcome(fetch: int -> seq<Json>, start: int, n: nat, size: nat, data0: seq<Json>, interrupt: Option<nat>,
                     run: BatchRun)
    requires size >= 1 && run == RunBatches(fetch, start, n, size, 0, data0, [], [], interrupt)
    ensures run.records == data0 + PageRange(fetch, start, start + Reach(n, interrupt))
    ensures run.writes == LaterWrites(start, n, size, 0, interrupt)
    ensures interrupt.None? && n > 0 ==> |run.writes| > 0 && run.writes[|run.writes| - 1] == start + n - 1
  {
    BatchRecords(fetch, start, n, size, 0, data0, [], [], interrupt, run);
    BatchWrites(fetch, start, n, size, 0, data0, [], [], interrupt, run);
    assert [] + LaterWrites(start, n, size, 0, interrupt) == LaterWrites(start, n, size, 0, interrupt);
    if interrupt.None? && n > 0 {
      LaterWritesLast(start, n, size, 0, interrupt);
    }
  }

  /** With more than one page, the collection is the first page's data
      followed by the pages from `max(2, checkpoint)` up to `totalPaginas`
      (or up to the interrupt), the checkpoints written are those of the
      batch loop, and without an interrupt the last one is `totalPaginas`. */
  lemma BackendEditaisCollects(pages: seq<Json>, f: CheckpointFile, maxWorkers: nat, interrupt: Option<nat>,
                               t: int, start: int, n: nat, run: Option<BatchRun>)
    requires maxWorkers >= 1
    requires PageAt(pages, 1).JObj?
    requires Numeric(GetOr(PageAt(pages, 1).fields, "totalPaginas", JInt(1))) == Some(t) && t > 1
    requires Numeric(LastCheckpointPage(f)).Some?
    requires start == BackendStartPage(Numeric(LastCheckpointPage(f)).value)
    requires n == if start <= t then t - start + 1 else 0
    requires run == BackendGetAllEditais(pages, f, maxWorkers, interrupt)
    ensures run.Some?
    ensures run.value.records == FetchPage(PageAt(pages, 1)) + PageRange(PageFetcher(pages), start, start + Reach(n, interrupt))
    ensures run.value.writes == LaterWrites(start, n, 2 * maxWorkers, 0, interrupt)
    ensures interrupt.None? && start <= t ==> |run.value.writes| > 0 && run.value.writes[|run.value.writes| - 1] == t
  {
    BackendBatches(pages, f, maxWorkers, interrupt, t, start, n, run);
    BatchOutcome(PageFetcher(pages), start, n, 2 * maxWorkers, FetchPage(PageAt(pages, 1)), interrupt, run.value);
  }

  /** With more than one page the result is the batch loop's, from `start`
      over `n` pages after the first page's data. */
  lemma BackendBatches(pages: seq<Json>, f: CheckpointFile, maxWorkers: nat, interrupt: Option<nat>,
                       t: int, start: int, n: nat, run: Option<BatchRun>)
    requires maxWorkers >= 1
    requires PageAt(pages, 1).JObj?
    requires Numeric(GetOr(PageAt(pages, 1).fields, "totalPaginas", JInt(1))) == Some(t) && t > 1
    requires Numeric(LastCheckpointPage(f)).Some?
    requires start == BackendStartPage(Numeric(LastCheckpointPage(f)).value)
    requires n == if start <= t then t - start + 1 else 0
    requires run == BackendGetAllEditais(pages, f, maxWorkers, interrupt)
    ensures run == Some(RunBatches(PageFetcher(pages), start, n, 2 * maxWorkers, 0, FetchPage(PageAt(pages, 1)), [], [], interrupt))
  {
  }

  /** With more than one page, each checkpoint callback after a batch is
      handed the first page's data followed by every page from
      `max(2, checkpoint)` through the page it saves. */
  lemma BackendCheckpointCallbacks(pages: seq<Json>, f: CheckpointFile, maxWorkers: nat, interrupt: Option<nat>,
                                   t: int, start: int, n: nat, run: Option<BatchRun>)
    requires maxWorkers >= 1
    requires PageAt(pages, 1).JObj?
    requires Numeric(GetOr(PageAt(pages, 1).fields, "totalPaginas", JInt(1))) == Some(t) && t > 1
    requires Numeric(LastCheckpointPage(f)).Some?
    requires start == BackendStartPage(Numeric(LastCheckpointPage(f)).value)
    requires n == if start <= t then t - start + 1 else 0
    requires run == BackendGetAllEditais(pages, f, maxWorkers, interrupt)
    ensures run.Some?
    ensures SavedPages(PageFetcher(pages), start, FetchPage(PageAt(pages, 1)), run.value.writes, run.value.saved)
  {
    var data0 := FetchPage(PageAt(pages, 1));
    BackendBatches(pages, f, maxWorkers, interrupt, t, start, n, run);
    assert data0 + PageRange(PageFetcher(pages), start, start + 0) == data0;
    BatchSaved(PageFetcher(pages), start, n, 2 * maxWorkers, 0, data0, data0, [], [], interrupt, run.value);
  }

  /** Without an interrupt, the last checkpoint callback is handed the very
      collection `get_all_editais` returns. */
  lemma BackendLastCallbackIsResult(pages: seq<Json>, f: CheckpointFile, maxWorkers: nat,
                                    t: int, start: int, n: nat, run: Option<BatchRun>)
    requires maxWorkers >= 1
    requires PageAt(pages, 1).JObj?
    requires Numeric(GetOr(PageAt(pages, 1).fields, "totalPaginas", JInt(1))) == Some(t) && t > 1
    requires Numeric(LastCheckpointPage(f)).Some?
    requires start == BackendStartPage(Numeric(LastCheckpointPage(f)).value)
    requires n == if start <= t then t - start + 1 else 0
    requires run == BackendGetAllEditais(pages, f, maxWorkers, None)
    requires start <= t
    ensures run.Some? && |run.value.saved| > 0
    ensures run.value.saved[|run.value.saved| - 1] == run.value.records
  {
    BackendEditaisCollects(pages, f, maxWorkers, None, t, start, n, run);
    BackendCheckpointCallbacks(pages, f, maxWorkers, None, t, start, n, run);
    var r := run.value;
    assert r.writes[|r.writes| - 1] + 1 == start + Reach(n, None);
  }
}

=== FILE: checks.dfy ===
/** The checks and repairs over the stored items: turning the link fields
    into strings, reporting items whose edital link is missing or names no
    edital, and counting repeated identifiers. */
module Checks {
  import opened Opt
  import opened Text
  import opened Lists
  import opened Values
  import opened Dicts
  import opened Maintenance

  // ---------------------------------------------------------------------------
  // Link fields as strings
  // ---------------------------------------------------------------------------

  /** The fields `fix_itens_keys` turns into strings, in the order it visits
      them. */
  const LinkFields: seq<string> := ["edital_cnpj", "edital_ano", "edital_numero"]

  /** Where the inner loop raises on an element that is not a dict: `key in
      item` finds the key in a list or as a substring of a string and the
      following `item[key]` fails; `in` itself fails on numbers, booleans and
      `None`. */
  predicate FixRaises(item: Json) {
    match item
    case JObj(_) => false
    case JList(xs) => exists k :: k in LinkFields && JStr(k) in xs
    case JStr(s) => exists k :: k in LinkFields && Contains(s, k)
    case _ => true
  }

  /** A dict holding one of the link fields with a value that is not a
      string. */
  predicate NeedsFix(item: Json) {
    item.JObj? && exists k :: k in LinkFields && k in item.fields && !item.fields[k].JStr?
  }

  /** One turn of the inner loop: the item afterwards and whether it was
      changed; `None` where it raises. */
  function FixField(item: Json, key: string): Option<(Json, bool)> {
    match item
    case JObj(f) =>
      if key in f && !f[key].JStr? then Some((JObj(f[key := JStr(Str(f[key]))]), true)) else Some((item, false))
    case JList(xs) => if JStr(key) in xs then None else Some((item, false))
    case JStr(s) => if Contains(s, key) then None else Some((item, false))
    case _ => None
  }

  /** The inner loop over the three link fields for one item; `None` where
      it raises. */
  function FixItem(item: Json): Option<(Json, bool)> {
    var a :- FixField(item, "edital_cnpj");
    var b :- FixField(a.0, "edital_ano");
    var c :- FixField(b.0, "edital_numero");
    Some((c.0, a.1 || b.1 || c.1))
  }

  /** The inner loop raises exactly on the elements `FixRaises` describes. */
  lemma FixItemRaises(item: Json)
    ensures FixItem(item).Some? <==> !FixRaises(item)
  {
  }

  /** Every link field a dict holds becomes its `str()`, nothing else
      changes, and the item counts as changed exactly when one of them was not
      a string; elements that are not dicts pass unchanged. */
  lemma FixItemEffect(item: Json)
    requires FixItem(item).Some?
    ensures var r := FixItem(item).value;
      && (r.1 <==> NeedsFix(item))
      && (!item.JObj? ==> r.0 == item)
      && (item.JObj? ==>
            && r.0.JObj?
            && OnlyChanged(item.fields, r.0.fields, {"edital_cnpj", "edital_ano", "edital_numero"})
            && forall k :: k in LinkFields ==>
                 && (k in r.0.fields <==> k in item.fields)
                 && (k in item.fields ==> r.0.fields[k] == JStr(Str(item.fields[k]))))
  {
  }

  /** An item that needed no fixing is left exactly as it was, and a fixed
      item needs no further fixing. */
  lemma FixItemStable(item: Json)
    requires FixItem(item).Some?
    ensures !FixItem(item).value.1 ==> FixItem(item).value.0 == item
    ensures FixItem(FixItem(item).value.0) == Some((FixItem(item).value.0, false))
  {
    var x := FixItem(item).value.0;
    FixItemEffect(item);
    if item.JObj? {
      if !FixItem(item).value.1 {
        assert forall k :: k in x.fields <==> k in item.fields;
        forall k | k in x.fields
          ensures x.fields[k] == item.fields[k]
        {
          if k in LinkFields {
            assert item.fields[k].JStr?;
          }
        }
      }
      assert !NeedsFix(x);
    }
    FixItemRaises(x);
    FixItemEffect(x);
  }

  /** `item` is fixed into `y` by the inner loop. */
  predicate FixesTo(item: Json, y: Json) {
    FixItem(item).Some? && FixItem(item).value.0 == y
  }

  /** The outer loop's invariant survives one more item that does not raise. */
  lemma FixLoopStep(itens: seq<Json>, k: nat, out: seq<Json>, changed: bool)
    requires k < |itens| && |out| == k && FixItem(itens[k]).Some?
    requires forall i :: 0 <= i < k ==> FixesTo(itens[i], out[i])
    requires changed <==> exists i :: 0 <= i < k && NeedsFix(itens[i])
    requires !changed ==> out == itens[..k]
    ensures var fixed := FixItem(itens[k]).value;
      && (forall i :: 0 <= i < k + 1 ==> FixesTo(itens[i], (out + [fixed.0])[i]))
      && ((changed || fixed.1) <==> exists i :: 0 <= i < k + 1 && NeedsFix(itens[i]))
      && (!(changed || fixed.1) ==> out + [fixed.0] == itens[..k + 1])
  {
    var fixed := FixItem(itens[k]).value;
    var out' := out + [fixed.0];
    FixItemEffect(itens[k]);
    forall i | 0 <= i < k + 1
      ensures FixesTo(itens[i], out'[i])
    {
      if i == k {
        assert FixesTo(itens[k], fixed.0);
      } else {
        assert out'[i] == out[i];
      }
    }
    assert (exists i :: 0 <= i < k + 1 && NeedsFix(itens[i])) <==>
      (exists i :: 0 <= i < k && NeedsFix(itens[i])) || NeedsFix(itens[k]);
    if !(changed || fixed.1) {
      assert itens[..k + 1] == itens[..k] + [itens[k]];
      assert !NeedsFix(itens[k]) && fixed.0 == itens[k];
    }
  }

  /** `fix_itens_keys.main` after loading: the items after the loop and the
      `changed` flag; `None` where the loop raises and the file is left as it
      was. */
  method FixItensKeys(itens: seq<Json>) returns (r: Option<(seq<Json>, bool)>)
    ensures r.None? <==> exists i :: 0 <= i < |itens| && FixRaises(itens[i])
    ensures r.Some? ==> |r.value.0| == |itens|
    ensures r.Some? ==> forall i :: 0 <= i < |itens| ==> FixesTo(itens[i], r.value.0[i])
    ensures r.Some? ==> (r.value.1 <==> exists i :: 0 <= i < |itens| && NeedsFix(itens[i]))
    ensures r.Some? && !r.value.1 ==> r.value.0 == itens
  {
    var out: seq<Json> := [];
    var changed := false;
    for k := 0 to |itens|
      invariant |out| == k
      invariant forall i :: 0 <= i < k ==> FixesTo(itens[i], out[i])
      invariant changed <==> exists i :: 0 <= i < k && NeedsFix(itens[i])
      invariant !changed ==> out == itens[..k]
    {
      var fixed := FixItem(itens[k]);
      FixItemRaises(itens[k]);
      if fixed.None? {
        return None;
      }
      FixLoopStep(itens, k, out, changed);
      out := out + [fixed.value.0];
      changed := changed || fixed.value.1;
    }
    assert itens[..|itens|] == itens;
    return Some((out, changed));
  }

  // ---------------------------------------------------------------------------
  // Link consistency
  // ---------------------------------------------------------------------------

  /** A value Python can put in a set or use as a dict key. */
  predicate Hashable(v: Json) {
    !v.JList? && !v.JObj?
  }

  function IdValue(e: Json): Json {
    if e.JObj? then Get(e.fields, "ID_C_PNCP") else JNull
  }

  predicate HasId(e: Json) {
    e.JObj? && Truthy(IdValue(e))
  }

  /** The set of truthy `ID_C_PNCP` values, as a list in edital order; `None`
      where an edital is not a dict or a value cannot go into a set. */
  function EditalIds(editais: seq<Json>): (ids: Option<seq<Json>>)
    ensures ids.Some? <==> AllDicts(editais) && forall i :: 0 <= i < |editais| && HasId(editais[i]) ==> Hashable(IdValue(editais[i]))
    ensures ids.Some? ==> forall i :: 0 <= i < |editais| && HasId(editais[i]) ==> IdValue(editais[i]) in ids.value
    ensures ids.Some? ==> forall x :: x in ids.value ==>
      exists i :: 0 <= i < |editais| && HasId(editais[i]) && IdValue(editais[i]) == x
  {
    if !AllDicts(editais) then None
    else
      var withId := Filter(editais, HasId);
      var ids := seq(|withId|, i requires 0 <= i < |withId| => IdValue(withId[i]));
      assert forall i :: 0 <= i < |editais| && HasId(editais[i]) ==> IdValue(editais[i]) in ids by {
        forall i | 0 <= i < |editais| && HasId(editais[i])
          ensures IdValue(editais[i]) in ids
        {
          assert editais[i] in withId;
          var m :| 0 <= m < |withId| && withId[m] == editais[i];
          assert ids[m] == IdValue(editais[i]);
        }
      }
      assert forall x :: x in ids ==> exists i :: 0 <= i < |editais| && HasId(editais[i]) && IdValue(editais[i]) == x by {
        forall x | x in ids
          ensures exists i :: 0 <= i < |editais| && HasId(editais[i]) && IdValue(editais[i]) == x
        {
          var m :| 0 <= m < |ids| && ids[m] == x;
          assert withId[m] in withId;
          var i :| 0 <= i < |editais| && editais[i] == withId[m];
        }
      }
      if forall i :: 0 <= i < |ids| ==> Hashable(ids[i]) then Some(ids)
      else
        assert exists i :: 0 <= i < |editais| && HasId(editais[i]) && !Hashable(IdValue(editais[i])) by {
          var m :| 0 <= m < |ids| && !Hashable(ids[m]);
          assert withId[m] in withId;
          var i :| 0 <= i < |editais| && editais[i] == withId[m];
        }
        None
  }

  /** `eid in ids_editais`: set membership compares with `==`, under which
      `True == 1`. */
  predicate InIds(ids: seq<Json>, v: Json) {
    exists i :: 0 <= i < |ids| && PyEq(ids[i], v)
  }

  function LinkOf(item: Json): Json {
    if item.JObj? then Get(item.fields, "edital_ID_C_PNCP") else JNull
  }

  /** An item counted as having no link: its `edital_ID_C_PNCP` is falsy. */
  predicate Unlinked(item: Json) {
    item.JObj? && !Truthy(LinkOf(item))
  }

  /** An item whose link names no edital. */
  function Dangling(ids: seq<Json>): Json -> bool {
    (item: Json) => item.JObj? && Truthy(LinkOf(item)) && !InIds(ids, LinkOf(item))
  }

  /** An item the scan passes over without raising: a dict whose link, when
      truthy, can be looked up in a set. */
  predicate Scannable(item: Json) {
    item.JObj? && (Truthy(LinkOf(item)) ==> Hashable(LinkOf(item)))
  }

  const MaxExamples: nat := 5

  /** The examples kept: the first five. */
  function Examples(s: seq<Json>): (r: seq<Json>)
  {
    if |s| <= MaxExamples then s else s[..MaxExamples]
  }

  lemma ExamplesSnoc(s: seq<Json>, x: Json)
    ensures Examples(s + [x]) == AddExample(Examples(s), x)
  {
    if |s| >= MaxExamples {
      assert (s + [x])[..MaxExamples] == s[..MaxExamples];
    }
  }

  /** What the check prints. */
  datatype Report = Report(total: nat, semId: nat, inexistente: nat, exemplosSemId: seq<Json>, exemplosInexistente: seq<Json>)

  /** The report the check is meant to print: the number of items, those
      without a link and those whose link names no edital, with the first five
      of each; `None` where the script raises (a non-dict, or a value that
      cannot be looked up in a set). */
  function ExpectedReport(editais: seq<Json>, itens: seq<Json>): Option<Report> {
    var ids :- EditalIds(editais);
    if !AllDicts(itens) || exists i :: 0 <= i < |itens| && Truthy(LinkOf(itens[i])) && !Hashable(LinkOf(itens[i])) then None
    else
      var sem := Filter(itens, Unlinked);
      var bad := Filter(itens, Dangling(ids));
      Some(Report(|itens|, |sem|, |bad|, Examples(sem), Examples(bad)))
  }

  /** `if len(exemplos) < 5: exemplos.append(x)`. */
  function AddExample(ex: seq<Json>, x: Json): seq<Json> {
    if |ex| < MaxExamples then ex + [x] else ex
  }

  /** What the scan has gathered after the first `k` items. */
  predicate ScanState(ids: seq<Json>, itens: seq<Json>, k: nat, semId: nat, exemplosSemId: seq<Json>,
                      inexistente: nat, exemplosInexistente: seq<Json>)
    requires k <= |itens|
  {
    && semId == |Filter(itens[..k], Unlinked)| && exemplosSemId == Examples(Filter(itens[..k], Unlinked))
    && inexistente == |Filter(itens[..k], Dangling(ids))| && exemplosInexistente == Examples(Filter(itens[..k], Dangling(ids)))
  }

  /** One more scanned item joins the items without a link when its link is
      falsy, the dangling ones when its link names no edital, and neither
      otherwise. */
  lemma ScanStep(ids: seq<Json>, itens: seq<Json>, k: nat, semId: nat, exemplosSemId: seq<Json>,
                 inexistente: nat, exemplosInexistente: seq<Json>)
    requires k < |itens| && Scannable(itens[k])
    requires ScanState(ids, itens, k, semId, exemplosSemId, inexistente, exemplosInexistente)
    ensures var x := itens[k];
      if !Truthy(LinkOf(x)) then
        ScanState(ids, itens, k + 1, semId + 1, AddExample(exemplosSemId, x), inexistente, exemplosInexistente)
      else if !InIds(ids, LinkOf(x)) then
        ScanState(ids, itens, k + 1, semId, exemplosSemId, inexistente + 1, AddExample(exemplosInexistente, x))
      else
        ScanState(ids, itens, k + 1, semId, exemplosSemId, inexistente, exemplosInexistente)
  {
    var x := itens[k];
    FilterPrefixSnoc(itens, k, Unlinked);
    FilterPrefixSnoc(itens, k, Dangling(ids));
    ExamplesSnoc(Filter(itens[..k], Unlinked), x);
    ExamplesSnoc(Filter(itens[..k], Dangling(ids)), x);
  }

  /** The loop of `check_edital_item_link_consistency.main` over the items,
      given the editais' identifiers: the counts and examples of the items
      without a link and of those whose link names no edital; `None` where
      it raises. */
  method ScanItems(ids: seq<Json>, itens: seq<Json>) returns (r: Option<Report>)
    ensures r.None? <==> exists i :: 0 <= i < |itens| && !Scannable(itens[i])
    ensures r.Some? ==> r.value == Report(|itens|, |Filter(itens, Unlinked)|, |Filter(itens, Dangling(ids))|,
                                          Examples(Filter(itens, Unlinked)), Examples(Filter(itens, Dangling(ids))))
  {
    var semId, inexistente := 0, 0;
    var exemplosSemId: seq<Json> := [];
    var exemplosInexistente: seq<Json> := [];
    for k := 0 to |itens|
      invariant forall i :: 0 <= i < k ==> Scannable(itens[i])
      invariant ScanState(ids, itens, k, semId, exemplosSemId, inexistente, exemplosInexistente)
    {
      var item := itens[k];
      if !item.JObj? {
        assert !Scannable(itens[k]);
        return None;
      }
      var eid := Get(item.fields, "edital_ID_C_PNCP");
      if Truthy(eid) && !Hashable(eid) {
        assert !Scannable(itens[k]);
        return None;
      }
      assert Scannable(itens[k]) && LinkOf(item) == eid;
      ScanStep(ids, itens, k, semId, exemplosSemId, inexistente, exemplosInexistente);
      if !Truthy(eid) {
        semId := semId + 1;
        exemplosSemId := AddExample(exemplosSemId, item);
      } else if !InIds(ids, eid) {
        inexistente := inexistente + 1;
        exemplosInexistente := AddExample(exemplosInexistente, item);
      }
    }
    assert itens[..|itens|] == itens;
    return Some(Report(|itens|, semId, inexistente, exemplosSemId, exemplosInexistente));
  }

  /** `check_edital_item_link_consistency.main`: the script computes the
      expected report, and no item is counted twice. */
  method LinkReport(editais: seq<Json>, itens: seq<Json>) returns (r: Option<Report>)
    ensures r == ExpectedReport(editais, itens)
    ensures r.Some? ==> r.value.semId + r.value.inexistente <= r.value.total
  {
    var ids := EditalIds(editais);
    if ids.None? {
      return None;
    }
    r := ScanItems(ids.value, itens);
    if r.Some? {
      FilterDisjoint(itens, Unlinked, Dangling(ids.value));
    }
  }

  /** An item whose key matches no edital. */
  function Orphan(editais: seq<Json>): Json -> bool {
    (it: Json) => it.JObj? && forall i :: 0 <= i < |editais| ==> GenKey(editais[i]) != Some(ItemGenKey(it.fields))
  }

  /** After `generate_edital_unique_ids_absolute`, with non-empty identifiers,
      every edital's new identifier is in the set the check builds. */
  lemma GeneratedEditalIds(editais: seq<Json>, itens: seq<Json>, uuid: nat -> string)
    requires GenerateIds(editais, itens, uuid).Some?
    requires forall i :: 0 <= i < |editais| ==> uuid(i) != ""
    ensures var g := GenerateIds(editais, itens, uuid).value;
      && EditalIds(g.editais).Some?
      && forall i :: 0 <= i < |editais| ==> g.editais[i].JObj? && InIds(EditalIds(g.editais).value, g.editais[i].fields["ID_C_PNCP"])
  {
    var g := GenerateIds(editais, itens, uuid).value;
    forall i | 0 <= i < |g.editais|
      ensures HasId(g.editais[i]) && IdValue(g.editais[i]) == JStr(uuid(i))
    {
    }
    var ids := EditalIds(g.editais).value;
    forall i | 0 <= i < |editais|
      ensures InIds(ids, g.editais[i].fields["ID_C_PNCP"])
    {
      var m :| 0 <= m < |ids| && ids[m] == IdValue(g.editais[i]);
      assert PyEq(ids[m], g.editais[i].fields["ID_C_PNCP"]);
    }
  }

  /** One item after `generate_edital_unique_ids_absolute`, with non-empty
      identifiers: it lacks a link exactly when its key matches no edital,
      and a link it has names an edital. */
  lemma GeneratedItemLink(editais: seq<Json>, itens: seq<Json>, uuid: nat -> string, j: nat)
    requires GenerateIds(editais, itens, uuid).Some? && j < |itens|
    requires forall i :: 0 <= i < |editais| ==> uuid(i) != ""
    ensures var g := GenerateIds(editais, itens, uuid).value;
      && EditalIds(g.editais).Some?
      && Hashable(LinkOf(g.itens[j]))
      && Unlinked(g.itens[j]) == Orphan(editais)(itens[j])
      && !Dangling(EditalIds(g.editais).value)(g.itens[j])
  {
    var g := GenerateIds(editais, itens, uuid).value;
    GeneratedEditalIds(editais, itens, uuid);
    var ids := EditalIds(g.editais).value;
    GeneratedLink(editais, itens, uuid, j);
    var link := LinkOf(g.itens[j]);
    if link != JNull {
      var i :| 0 <= i < |editais| && GenKey(editais[i]) == Some(ItemGenKey(itens[j].fields))
        && link == g.editais[i].fields["ID_C_PNCP"];
      LinkOutcome(ids, g.itens[j], Orphan(editais)(itens[j]), JStr(uuid(i)));
    } else {
      LinkOutcome(ids, g.itens[j], Orphan(editais)(itens[j]), JNull);
    }
  }

  /** How the check sees an item whose link is either `None` or a non-empty
      identifier in the set. */
  lemma LinkOutcome(ids: seq<Json>, item: Json, orphan: bool, target: Json)
    requires item.JObj? && LinkOf(item) == target
    requires target == JNull <==> orphan
    requires target != JNull ==> target.JStr? && |target.s| > 0 && InIds(ids, target)
    ensures Hashable(LinkOf(item)) && Unlinked(item) == orphan && !Dangling(ids)(item)
  {
  }

  lemma GeneratedItemsFacts(editais: seq<Json>, itens: seq<Json>, uuid: nat -> string)
    requires GenerateIds(editais, itens, uuid).Some?
    requires forall i :: 0 <= i < |editais| ==> uuid(i) != ""
    ensures var g := GenerateIds(editais, itens, uuid).value;
      && EditalIds(g.editais).Some?
      && |g.itens| == |itens|
      && forall j :: 0 <= j < |itens| ==>
           && g.itens[j].JObj?
           && Hashable(LinkOf(g.itens[j]))
           && Unlinked(g.itens[j]) == Orphan(editais)(itens[j])
           && !Dangling(EditalIds(g.editais).value)(g.itens[j])
  {
    forall j | 0 <= j < |itens| {
      GeneratedItemLink(editais, itens, uuid, j);
    }
  }

  lemma GeneratedItemsScan(editais: seq<Json>, itens: seq<Json>, uuid: nat -> string)
    requires GenerateIds(editais, itens, uuid).Some?
    requires forall i :: 0 <= i < |editais| ==> uuid(i) != ""
    ensures var g := GenerateIds(editais, itens, uuid).value;
      && EditalIds(g.editais).Some?
      && AllDicts(g.itens)
      && (forall j :: 0 <= j < |g.itens| ==> Hashable(LinkOf(g.itens[j])))
      && Filter(g.itens, Dangling(EditalIds(g.editais).value)) == []
      && |Filter(g.itens, Unlinked)| == |Filter(itens, Orphan(editais))|
  {
    var g := GenerateIds(editais, itens, uuid).value;
    GeneratedItemsFacts(editais, itens, uuid);
    FilterNone(g.itens, Dangling(EditalIds(g.editais).value));
    FilterCountPointwise(g.itens, itens, Unlinked, Orphan(editais));
  }

  /** After `generate_edital_unique_ids_absolute`, with non-empty identifiers,
      the check finds no link that names a missing edital, and the items
      without a link are exactly those whose key matches no edital. */
  lemma GeneratedLinksResolve(editais: seq<Json>, itens: seq<Json>, uuid: nat -> string)
    requires GenerateIds(editais, itens, uuid).Some?
    requires forall i :: 0 <= i < |editais| ==> uuid(i) != ""
    ensures var g := GenerateIds(editais, itens, uuid).value;
      && ExpectedReport(g.editais, g.itens).Some?
      && ExpectedReport(g.editais, g.itens).value.inexistente == 0
      && ExpectedReport(g.editais, g.itens).value.semId == |Filter(itens, Orphan(editais))|
  {
    GeneratedItemsScan(editais, itens, uuid);
  }

  // ---------------------------------------------------------------------------
  // Repeated identifiers
  // ---------------------------------------------------------------------------

  /** `[obj.get(campo) for obj in dados if campo in obj]` for one element:
      `None` where `in` or `.get` raises. */
  function FieldOf(obj: Json, campo: string): Option<seq<Json>> {
    match obj
    case JObj(f) => Some(if campo in f then [f[campo]] else [])
    case JList(xs) => if JStr(campo) in xs then None else Some([])
    case JStr(s) => if Contains(s, campo) then None else Some([])
    case _ => None
  }

  function IdsWithField(dados: seq<Json>, campo: string): Option<seq<Json>> {
    var parts :- MapOpt(dados, obj => FieldOf(obj, campo));
    Some(Flatten(parts))
  }

  /** For values that can be keys, sharing a key is Python equality. */
  lemma NormIsPyEq(a: Json, b: Json)
    requires Hashable(a) && Hashable(b)
    ensures Norm(a) == Norm(b) <==> PyEq(a, b)
  {
  }

  /** One entry of a `Counter`: a value and how often it was seen. */
  type Count = (Json, nat)

  function CountKey(p: Count): Json {
    Norm(p.0)
  }

  /** The count filed under `v`'s key, 0 when there is none. */
  function CountOf(c: seq<Count>, v: Json): nat {
    if Norm(v) in KeySet(c, CountKey) then c[Slot(c, Norm(v), CountKey)].1 else 0
  }

  /** The key object of the entry for `v`: a dict keeps the first one. */
  function KeptKey(c: seq<Count>, v: Json): (k: Json)
    ensures Norm(k) == Norm(v)
  {
    if Norm(v) in KeySet(c, CountKey) then c[Slot(c, Norm(v), CountKey)].0 else v
  }

  /** Counting one more value. */
  function Tally(c: seq<Count>, v: Json): seq<Count> {
    Put(c, (KeptKey(c, v), CountOf(c, v) + 1), CountKey)
  }

  /** `Counter(ids)`, its entries in the order the keys were first seen. */
  function Counter(ids: seq<Json>): seq<Count>
    decreases |ids|
  {
    if |ids| == 0 then [] else Tally(Counter(ids[..|ids| - 1]), ids[|ids| - 1])
  }

  /** How many of `ids` are filed under key `k`. */
  function Occurrences(ids: seq<Json>, k: Json): nat
    decreases |ids|
  {
    if |ids| == 0 then 0 else Occurrences(ids[..|ids| - 1], k) + (if Norm(ids[|ids| - 1]) == k then 1 else 0)
  }

  /** The sum of the counts. */
  function Total(c: seq<Count>): nat
    decreases |c|
  {
    if |c| == 0 then 0 else Total(c[..|c| - 1]) + c[|c| - 1].1
  }

  lemma {:induction false} OccurrencesAbsent(ids: seq<Json>, k: Json)
    requires k !in KeySet(ids, Norm)
    ensures Occurrences(ids, k) == 0
    decreases |ids|
  {
    if |ids| > 0 {
      var n := |ids| - 1;
      assert KeySet(ids[..n], Norm) <= KeySet(ids, Norm) by {
        forall x | x in KeySet(ids[..n], Norm)
          ensures x in KeySet(ids, Norm)
        {
          var i :| 0 <= i < n && Norm(ids[..n][i]) == x;
          assert ids[..n][i] == ids[i];
        }
      }
      OccurrencesAbsent(ids[..n], k);
    }
  }

  /** The counter's keys are distinct and are the keys of the values
      counted. */
  lemma {:induction false} CounterKeys(ids: seq<Json>)
    ensures DistinctKeys(Counter(ids), CountKey)
    ensures KeySet(Counter(ids), CountKey) == KeySet(ids, Norm)
    decreases |ids|
  {
    if |ids| > 0 {
      var n := |ids| - 1;
      var c := Counter(ids[..n]);
      CounterKeys(ids[..n]);
      var x: Count := (KeptKey(c, ids[n]), CountOf(c, ids[n]) + 1);
      PutKeys(c, x, CountKey);
      KeySetSnoc(ids, n, Norm);
      assert ids[..n + 1] == ids;
    }
  }

  /** Every entry counts exactly the values filed under its key. */
  lemma {:induction false} CounterCounts(ids: seq<Json>)
    ensures forall i :: 0 <= i < |Counter(ids)| ==> Counter(ids)[i].1 == Occurrences(ids, CountKey(Counter(ids)[i]))
    decreases |ids|
  {
    if |ids| > 0 {
      var n := |ids| - 1;
      var c := Counter(ids[..n]);
      var v := ids[n];
      CounterCounts(ids[..n]);
      CounterKeys(ids[..n]);
      var x: Count := (KeptKey(c, v), CountOf(c, v) + 1);
      PutFacts(c, x, CountKey);
      assert CountOf(c, v) == Occurrences(ids[..n], Norm(v)) by {
        if Norm(v) !in KeySet(c, CountKey) {
          OccurrencesAbsent(ids[..n], Norm(v));
        }
      }
      var r := Counter(ids);
      forall i | 0 <= i < |r|
        ensures r[i].1 == Occurrences(ids, CountKey(r[i]))
      {
        if CountKey(r[i]) != Norm(v) {
          assert r[i] == c[i];
        }
      }
    }
  }

  lemma {:induction false} TotalUpdate(c: seq<Count>, s: nat, y: Count)
    requires s < |c|
    ensures Total(c[s := y]) + c[s].1 == Total(c) + y.1
    decreases |c|
  {
    var n := |c| - 1;
    if s < n {
      assert c[s := y][..n] == c[..n][s := y];
      TotalUpdate(c[..n], s, y);
    } else {
      assert c[s := y][..n] == c[..n];
    }
  }

  /** Counting one more value adds one to the sum of the counts. */
  lemma TallyTotal(c: seq<Count>, v: Json)
    ensures Total(Tally(c, v)) == Total(c) + 1
  {
    var x: Count := (KeptKey(c, v), CountOf(c, v) + 1);
    assert CountKey(x) == Norm(v);
    if Norm(v) in KeySet(c, CountKey) {
      TotalUpdate(c, Slot(c, Norm(v), CountKey), x);
    } else {
      assert (c + [x])[..|c|] == c;
    }
  }

  /** Every value counted adds one to the sum of the counts. */
  lemma {:induction false} CounterTotal(ids: seq<Json>)
    ensures Total(Counter(ids)) == |ids|
    decreases |ids|
  {
    if |ids| > 0 {
      var n := |ids| - 1;
      CounterTotal(ids[..n]);
      TallyTotal(Counter(ids[..n]), ids[n]);
    }
  }

  lemma {:induction false} TotalFilter(c: seq<Count>, p: Count -> bool)
    ensures Total(Filter(c, p)) <= Total(c)
    decreases |c|
  {
    if |c| > 0 {
      var n := |c| - 1;
      TotalFilter(c[..n], p);
      var f := Filter(c[..n], p);
      assert (f + [c[n]])[..|f|] == f;
    }
  }

  predicate Repeated(p: Count) {
    p.1 > 1
  }

  /** `verifica_duplicados(dados, campo)` after loading: the counter entries
      seen more than once; `None` where the comprehension raises or a value
      cannot be a key. */
  function VerificaDuplicados(dados: seq<Json>, campo: string): Option<seq<Count>> {
    var ids :- IdsWithField(dados, campo);
    if exists i :: 0 <= i < |ids| && !Hashable(ids[i]) then None
    else Some(Filter(Counter(ids), Repeated))
  }

  /** Every repeated counter entry counts the values filed under its key. */
  lemma RepeatedSound(ids: seq<Json>)
    ensures forall p :: p in Filter(Counter(ids), Repeated) ==> p.1 == Occurrences(ids, Norm(p.0)) && p.1 > 1
  {
    var c := Counter(ids);
    CounterCounts(ids);
    forall p | p in Filter(c, Repeated)
      ensures p.1 == Occurrences(ids, Norm(p.0)) && p.1 > 1
    {
      assert p in c && Repeated(p);
      var i :| 0 <= i < |c| && c[i] == p;
      assert c[i].1 == Occurrences(ids, CountKey(c[i]));
    }
  }

  /** Every key held by more than one value has a repeated counter entry. */
  lemma RepeatedComplete(ids: seq<Json>)
    ensures forall i :: 0 <= i < |ids| && Occurrences(ids, Norm(ids[i])) > 1 ==>
      Norm(ids[i]) in KeySet(Filter(Counter(ids), Repeated), CountKey)
  {
    var c := Counter(ids);
    var r := Filter(c, Repeated);
    CounterCounts(ids);
    CounterKeys(ids);
    forall i | 0 <= i < |ids| && Occurrences(ids, Norm(ids[i])) > 1
      ensures Norm(ids[i]) in KeySet(r, CountKey)
    {
      assert Norm(ids[i]) in KeySet(ids, Norm);
      var m :| 0 <= m < |c| && CountKey(c[m]) == Norm(ids[i]);
      assert c[m].1 == Occurrences(ids, CountKey(c[m]));
      assert Repeated(c[m]) && c[m] in c;
      assert c[m] in r;
      var h :| 0 <= h < |r| && r[h] == c[m];
      assert CountKey(r[h]) == Norm(ids[i]);
    }
  }

  /** The entries returned are exactly the keys held by more than one value,
      each with the number of values filed under it. */
  lemma DuplicatesMeaning(dados: seq<Json>, campo: string)
    requires VerificaDuplicados(dados, campo).Some?
    ensures var ids := IdsWithField(dados, campo).value;
      var r := VerificaDuplicados(dados, campo).value;
      && (forall p :: p in r ==> p.1 == Occurrences(ids, Norm(p.0)) && p.1 > 1)
      && (forall i :: 0 <= i < |ids| && Occurrences(ids, Norm(ids[i])) > 1 ==> Norm(ids[i]) in KeySet(r, CountKey))
  {
    var ids := IdsWithField(dados, campo).value;
    assert VerificaDuplicados(dados, campo).value == Filter(Counter(ids), Repeated);
    RepeatedSound(ids);
    RepeatedComplete(ids);
  }

  /** The counts returned add up to at most the number of values counted. */
  lemma DuplicatesBound(dados: seq<Json>, campo: string)
    requires VerificaDuplicados(dados, campo).Some?
    ensures Total(VerificaDuplicados(dados, campo).value) <= |IdsWithField(dados, campo).value|
  {
    var ids := IdsWithField(dados, campo).value;
    TotalFilter(Counter(ids), Repeated);
    CounterTotal(ids);
  }

  lemma {:induction false} OccurrencesDistinct(ids: seq<Json>, k: Json)
    requires DistinctKeys(ids, Norm)
    ensures Occurrences(ids, k) <= 1
    decreases |ids|
  {
    if |ids| > 0 {
      var n := |ids| - 1;
      assert DistinctKeys(ids[..n], Norm) by {
        assert forall i :: 0 <= i < n ==> ids[..n][i] == ids[i];
      }
      OccurrencesDistinct(ids[..n], k);
      if Norm(ids[n]) == k {
        forall i | 0 <= i < n
          ensures Norm(ids[..n][i]) != k
        {
          assert ids[..n][i] == ids[i];
        }
        OccurrencesAbsent(ids[..n], k);
      }
    }
  }

  /** Without repeated values nothing is reported. */
  lemma NoDuplicatesWhenDistinct(dados: seq<Json>, campo: string)
    requires VerificaDuplicados(dados, campo).Some?
    requires DistinctKeys(IdsWithField(dados, campo).value, Norm)
    ensures VerificaDuplicados(dados, campo).value == []
  {
    var ids := IdsWithField(dados, campo).value;
    var r := VerificaDuplicados(dados, campo).value;
    if |r| > 0 {
      DuplicatesMeaning(dados, campo);
      assert r[0] in r;
      OccurrencesDistinct(ids, Norm(r[0].0));
    }
  }
}

=== FILE: dicts.dfy ===
/** Python dicts, which keep their keys in insertion order, as the scripts
    use them over records: `d[k] = x` where `k` is computed from `x`, the
    comprehension `{k(x): x for x in xs}`, and `d.update(...)`. A dict is
    represented by the list of its values in key order (what
    `list(d.values())` gives), each value's key computed by `key`. */
module Dicts {
  import opened Lists

  /** The keys of `d`, in order. */
  function Keys<T, K>(d: seq<T>, key: T -> K): (ks: seq<K>)
    ensures |ks| == |d|
    ensures forall i :: 0 <= i < |d| ==> ks[i] == key(d[i])
  {
    seq(|d|, i requires 0 <= i < |d| => key(d[i]))
  }

  /** The position of key `k` in `d`. */
  function Slot<T, K(==)>(d: seq<T>, k: K, key: T -> K): (i: nat)
    requires k in KeySet(d, key)
    ensures i < |d| && key(d[i]) == k
  {
    var j :| 0 <= j < |d| && key(d[j]) == k;
    if key(d[0]) == k then 0
    else
      assert d[1..][j - 1] == d[j];
      1 + Slot(d[1..], k, key)
  }

  /** `d[key(x)] = x`: an existing key keeps its place and takes the new
      value; a new key goes at the end. */
  function Put<T, K(==)>(d: seq<T>, x: T, key: T -> K): (r: seq<T>)
    ensures |r| == |d| + (if key(x) in KeySet(d, key) then 0 else 1)
  {
    if key(x) in KeySet(d, key) then d[Slot(d, key(x), key) := x] else d + [x]
  }

  /** `d[key(x)] = x` for every `x` of `xs` in turn: `d.update(...)`, and
      with `d` empty the comprehension `{key(x): x for x in xs}`. */
  function PutAll<T, K(==)>(d: seq<T>, xs: seq<T>, key: T -> K): (r: seq<T>)
    ensures |d| <= |r| <= |d| + |xs|
  {
    if |xs| == 0 then d else Put(PutAll(d, xs[..|xs| - 1], key), xs[|xs| - 1], key)
  }

  /** `x` is the last element of `xs` with its key. */
  ghost predicate LastWithKey<T, K>(xs: seq<T>, key: T -> K, x: T) {
    exists j ::
      && 0 <= j < |xs| && xs[j] == x
      && forall m :: j < m < |xs| ==> key(xs[m]) != key(x)
  }

  /** One assignment into a dict: the keys stay distinct, the key set gains
      `key(x)`, the element under `key(x)` is `x`, and every other element
      keeps its place and value. */
  lemma PutFacts<T, K>(d: seq<T>, x: T, key: T -> K)
    requires DistinctKeys(d, key)
    ensures var r := Put(d, x, key);
      && DistinctKeys(r, key)
      && KeySet(r, key) == KeySet(d, key) + {key(x)}
      && Keys(r, key) == Keys(d, key) + (if key(x) in KeySet(d, key) then [] else [key(x)])
      && (forall i :: 0 <= i < |r| && key(r[i]) == key(x) ==> r[i] == x)
      && (forall i :: 0 <= i < |d| && key(d[i]) != key(x) ==> r[i] == d[i])
      && (forall i :: |d| <= i < |r| ==> r[i] == x)
  {
    var r := Put(d, x, key);
    if key(x) in KeySet(d, key) {
      var s := Slot(d, key(x), key);
      assert forall i :: 0 <= i < |d| ==> key(r[i]) == key(d[i]);
      assert Keys(r, key) == Keys(d, key);
      assert KeySet(r, key) == KeySet(d, key) by {
        forall k | k in KeySet(d, key)
          ensures k in KeySet(r, key)
        {
          var i :| 0 <= i < |d| && key(d[i]) == k;
          assert key(r[i]) == k;
        }
      }
    } else {
      assert forall i :: 0 <= i < |d| ==> r[i] == d[i];
      assert r[|d|] == x;
      assert Keys(r, key) == Keys(d, key) + [key(x)];
      assert KeySet(r, key) == KeySet(d, key) + {key(x)} by {
        forall k | k in KeySet(r, key)
          ensures k in KeySet(d, key) + {key(x)}
        {
          var i :| 0 <= i < |r| && key(r[i]) == k;
          if i < |d| {
            assert key(d[i]) == k;
          }
        }
      }
    }
  }

  /** The key facts of one assignment alone. */
  lemma PutKeys<T, K>(d: seq<T>, x: T, key: T -> K)
    requires DistinctKeys(d, key)
    ensures DistinctKeys(Put(d, x, key), key)
    ensures KeySet(Put(d, x, key), key) == KeySet(d, key) + {key(x)}
  {
    PutFacts(d, x, key);
  }

  /** A run of assignments into a dict with distinct keys: the keys stay
      distinct, they are those of `d` and `xs`, and they come in the order
      of `d` followed by the new keys of `xs` in first-occurrence order. */
  lemma {:induction false} PutAllKeys<T, K>(d: seq<T>, xs: seq<T>, key: T -> K)
    requires DistinctKeys(d, key)
    ensures var r := PutAll(d, xs, key);
      && DistinctKeys(r, key)
      && KeySet(r, key) == KeySet(d, key) + KeySet(xs, key)
      && Keys(r, key) == Keys(d, key) + Keys(Unseen(KeySet(d, key), xs, key), key)
    decreases |xs|
  {
    if |xs| == 0 {
      assert KeySet(xs, key) == {};
    } else {
      var n := |xs| - 1;
      var init := xs[..n];
      var x := xs[n];
      PutAllKeys(d, init, key);
      var r0 := PutAll(d, init, key);
      PutFacts(r0, x, key);
      assert xs[..n + 1] == xs;
      UnseenStep(KeySet(d, key), xs, key, n);
      var u0 := Unseen(KeySet(d, key), init, key);
      if key(x) in KeySet(r0, key) {
        assert Unseen(KeySet(d, key), xs, key) == u0;
      } else {
        assert Unseen(KeySet(d, key), xs, key) == u0 + [x];
        assert Keys(u0 + [x], key) == Keys(u0, key) + [key(x)];
      }
    }
  }

  /** A later element with another key does not change which element is
      the last with a given key. */
  lemma LastWithKeyExtend<T, K>(xs: seq<T>, x: T, key: T -> K, y: T)
    requires LastWithKey(xs, key, y) && key(x) != key(y)
    ensures LastWithKey(xs + [x], key, y)
  {
    var j :| 0 <= j < |xs| && xs[j] == y && forall m :: j < m < |xs| ==> key(xs[m]) != key(y);
    var ys := xs + [x];
    assert ys[j] == y;
    assert forall m :: j < m < |ys| ==> key(ys[m]) != key(y) by {
      forall m | j < m < |ys|
        ensures key(ys[m]) != key(y)
      {
        if m < |xs| { assert ys[m] == xs[m]; }
      }
    }
  }

  /** Under each key that `xs` assigns, a run of assignments leaves the last
      element of `xs` with that key. */
  lemma {:induction false} PutAllLast<T, K>(d: seq<T>, xs: seq<T>, key: T -> K)
    requires DistinctKeys(d, key)
    ensures var r := PutAll(d, xs, key);
      forall i :: 0 <= i < |r| && key(r[i]) in KeySet(xs, key) ==> LastWithKey(xs, key, r[i])
    decreases |xs|
  {
    if |xs| > 0 {
      var n := |xs| - 1;
      var init := xs[..n];
      var x := xs[n];
      PutAllLast(d, init, key);
      PutAllKeys(d, init, key);
      var r0 := PutAll(d, init, key);
      var r := PutAll(d, xs, key);
      PutFacts(r0, x, key);
      assert xs == init + [x];
      UnseenStep(KeySet(d, key), xs, key, n);
      forall i | 0 <= i < |r| && key(r[i]) in KeySet(xs, key)
        ensures LastWithKey(xs, key, r[i])
      {
        if key(r[i]) == key(x) {
          assert xs[n] == r[i];
        } else {
          assert i < |r0| && r[i] == r0[i];
          assert key(r0[i]) in KeySet(init, key);
          LastWithKeyExtend(init, x, key, r0[i]);
        }
      }
    }
  }

  /** Under each key of `d` that `xs` does not assign, a run of assignments
      leaves the value `d` held, in its place. */
  lemma {:induction false} PutAllKeepsOld<T, K>(d: seq<T>, xs: seq<T>, key: T -> K)
    requires DistinctKeys(d, key)
    ensures var r := PutAll(d, xs, key);
      forall i :: 0 <= i < |d| && key(d[i]) !in KeySet(xs, key) ==> r[i] == d[i]
    decreases |xs|
  {
    if |xs| > 0 {
      var n := |xs| - 1;
      var init := xs[..n];
      PutAllKeepsOld(d, init, key);
      PutAllKeys(d, init, key);
      PutFacts(PutAll(d, init, key), xs[n], key);
      assert xs[..n + 1] == xs;
      UnseenStep(KeySet(d, key), xs, key, n);
    }
  }

  /** `{key(x): x for x in xs}`: the keys come in first-occurrence order,
      and each is held by the last element of `xs` with that key. */
  lemma DictOf<T, K>(xs: seq<T>, key: T -> K)
    ensures var r := PutAll([], xs, key);
      && DistinctKeys(r, key)
      && KeySet(r, key) == KeySet(xs, key)
      && Keys(r, key) == Keys(Unseen({}, xs, key), key)
      && forall i :: 0 <= i < |r| ==> LastWithKey(xs, key, r[i])
  {
    var r := PutAll([], xs, key);
    PutAllKeys([], xs, key);
    PutAllLast([], xs, key);
    assert KeySet([], key) == {};
    assert Keys([], key) == [];
    forall i | 0 <= i < |r|
      ensures key(r[i]) in KeySet(xs, key)
    {
      assert key(r[i]) in KeySet(r, key);
    }
  }

  /** In a list with distinct keys an element is determined by its key. */
  lemma OneByKey<T, K>(xs: seq<T>, key: T -> K, a: T, b: T)
    requires DistinctKeys(xs, key) && a in xs && b in xs && key(a) == key(b)
    ensures a == b
  {
    var i :| 0 <= i < |xs| && xs[i] == a;
    var j :| 0 <= j < |xs| && xs[j] == b;
    assert !(i < j) && !(j < i);
  }

  /** The keys after `{"k": v}.update(xs)`: the head's key first, then those
      of `xs` other than it, in order. */
  lemma UpdateAfterHeadKeys<T(!new), K>(h: T, xs: seq<T>, key: T -> K, other: T -> bool)
    requires DistinctKeys(xs, key)
    requires forall x :: other(x) == (key(x) != key(h))
    ensures var r := PutAll([h], xs, key);
      var rest := Filter(xs, other);
      && |r| == 1 + |rest|
      && key(r[0]) == key(h)
      && forall i :: 0 <= i < |rest| ==> key(r[i + 1]) == key(rest[i])
  {
    var r := PutAll([h], xs, key);
    PutAllKeys([h], xs, key);
    assert KeySet([h], key) == {key(h)} by {
      assert [h][0] == h;
    }
    assert Keys([h], key) == [key(h)];
    var rest := Filter(xs, other);
    UnseenDistinct({key(h)}, xs, key, other);
    var ks := Keys(r, key);
    assert ks == [key(h)] + Keys(rest, key);
    assert |r| == |ks|;
    assert key(r[0]) == ks[0];
    forall i | 0 <= i < |rest|
      ensures key(r[i + 1]) == key(rest[i])
    {
      assert ks[i + 1] == Keys(rest, key)[i];
    }
  }

  /** `{"k": v}` followed by `.update(xs)`, where the keys of `xs` are
      distinct (as those of a dict are): the head entry stays first, taking
      the value `xs` holds under its key if any, and the rest of `xs`
      follows in order. */
  lemma UpdateAfterHead<T(!new), K>(h: T, xs: seq<T>, key: T -> K, other: T -> bool)
    requires DistinctKeys(xs, key)
    requires forall x :: other(x) == (key(x) != key(h))
    ensures var r := PutAll([h], xs, key);
      && |r| > 0
      && r[0] == (if key(h) in KeySet(xs, key) then xs[Slot(xs, key(h), key)] else h)
      && r[1..] == Filter(xs, other)
  {
    var r := PutAll([h], xs, key);
    var rest := Filter(xs, other);
    UpdateAfterHeadKeys(h, xs, key, other);
    PutAllLast([h], xs, key);
    PutAllKeepsOld([h], xs, key);
    if key(h) in KeySet(xs, key) {
      var s := Slot(xs, key(h), key);
      assert LastWithKey(xs, key, r[0]);
      assert r[0] in xs && xs[s] in xs;
      OneByKey(xs, key, r[0], xs[s]);
    }
    forall i | 0 <= i < |rest|
      ensures r[i + 1] == rest[i]
    {
      assert rest[i] in rest;
      assert rest[i] in xs;
      assert key(r[i + 1]) in KeySet(xs, key) by {
        var j :| 0 <= j < |xs| && xs[j] == rest[i];
      }
      assert LastWithKey(xs, key, r[i + 1]);
      assert r[i + 1] in xs;
      OneByKey(xs, key, r[i + 1], rest[i]);
    }
    assert r[1..] == rest;
  }
}

=== FILE: export.dfy ===
/** The sanitising the exporter applies to cell values before writing the
    spreadsheet: removal of the C0 and C1 control characters. */
module Export {
  import opened Text
  import opened Lists
  import opened Values

  /** The class `[\x00-\x1F\x7F-\x9F]`. */
  predicate IsControl(c: char) {
    c as int <= 0x1F || 0x7F <= c as int <= 0x9F
  }

  predicate Printable(c: char) { !IsControl(c) }

  /** `re.sub(r'[\x00-\x1F\x7F-\x9F]', '', s)`: every other character
      stays, in its order. */
  function RemoveControl(s: string): (r: string)
    ensures |r| <= |s|
    ensures AllChars(r, Printable)
    ensures forall c :: c in r <==> c in s && Printable(c)
  {
    Filter(s, Printable)
  }

  /** The removal changes a string exactly when it holds a control
      character. */
  lemma RemoveControlNoOp(s: string)
    ensures RemoveControl(s) == s <==> AllChars(s, Printable)
  {
    FilterAll(s, Printable);
  }

  /** The removal works piecewise: it distributes over concatenation. */
  lemma RemoveControlAppend(a: string, b: string)
    ensures RemoveControl(a + b) == RemoveControl(a) + RemoveControl(b)
  {
    FilterAppend(a, b, Printable);
  }

  /** `clean_str`: strings lose their control characters, other values
      pass through. */
  function CleanStr(v: Json): (r: Json)
    ensures !v.JStr? ==> r == v
    ensures v.JStr? ==> r.JStr? && AllChars(r.s, Printable) && |r.s| <= |v.s|
    ensures v.JStr? && AllChars(v.s, Printable) ==> r == v
  {
    RemoveControlNoOp(if v.JStr? then v.s else "");
    match v
    case JStr(s) => JStr(RemoveControl(s))
    case _ => v
  }

  /** Cleaning twice is cleaning once. */
  lemma CleanStrIdempotent(v: Json)
    ensures CleanStr(CleanStr(v)) == CleanStr(v)
  {
    if v.JStr? {
      FilterIdempotent(v.s, Printable);
    }
  }

  /** `aggressive_clean`: the value's `str()` without control characters. */
  function AggressiveClean(v: Json): (r: string)
    ensures AllChars(r, Printable)
    ensures v.JStr? ==> JStr(r) == CleanStr(v)
  {
    RemoveControl(Str(v))
  }

  /** Applying the aggressive cleanup to its own output changes nothing. */
  lemma AggressiveCleanIdempotent(v: Json)
    ensures AggressiveClean(JStr(AggressiveClean(v))) == AggressiveClean(v)
  {
    RemoveControlNoOp(AggressiveClean(v));
  }
}

=== FILE: frontend.dfy ===
/** The pure helpers of the React front end: the CNPJ mask, the API URL
    builder, the edital key the list links to, and the search filter of the
    editais page. Values are JSON values; `None` stands for `undefined`. */
module Frontend {
  import opened Opt
  import opened Text
  import opened Lists
  import opened Values
  import opened Keys
  import Web

  // ---------------------------------------------------------------------------
  // formatCNPJ
  // ---------------------------------------------------------------------------

  /** `String(v).replace(/\D/g, '')`. */
  function Digits(s: string): (d: string)
    ensures AllChars(d, IsAsciiDigit)
  {
    Filter(s, IsAsciiDigit)
  }

  /** The display of a missing CNPJ (an em dash). */
  const Dash: string := "—"

  /** XX.XXX.XXX/XXXX-XX over fourteen digits. */
  function Mask(d: string): string
    requires |d| == 14
  {
    d[..2] + "." + d[2..5] + "." + d[5..8] + "/" + d[8..12] + "-" + d[12..]
  }

  /** A separator appended to a string adds no digit. */
  lemma DigitsSep(a: string, c: char)
    requires !IsAsciiDigit(c)
    ensures Digits(a + [c]) == Digits(a)
  {
    assert (a + [c])[..|a|] == a;
  }

  /** A run of the digits of `d` appended to a string adds exactly itself. */
  lemma DigitsRun(a: string, d: string, i: nat, j: nat)
    requires i <= j <= |d| && AllChars(d, IsAsciiDigit)
    ensures Digits(a + d[i..j]) == Digits(a) + d[i..j]
  {
    var b := d[i..j];
    assert forall k :: 0 <= k < |b| ==> IsAsciiDigit(b[k]) by {
      forall k | 0 <= k < |b| ensures IsAsciiDigit(b[k]) { assert b[k] == d[i + k]; }
    }
    FilterAppend(a, b, IsAsciiDigit);
    FilterAll(b, IsAsciiDigit);
  }

  /** A separator and a further run of digits extend the digits read so
      far by that run. */
  lemma DigitsStep(m: string, c: char, d: string, i: nat, j: nat)
    requires i <= j <= |d| && AllChars(d, IsAsciiDigit) && !IsAsciiDigit(c)
    requires Digits(m) == d[..i]
    ensures Digits(m + [c] + d[i..j]) == d[..j]
  {
    DigitsSep(m, c);
    DigitsRun(m + [c], d, i, j);
    assert d[..i] + d[i..j] == d[..j];
  }

  /** The mask keeps the digits and adds only separators. */
  lemma MaskDigits(d: string)
    requires |d| == 14 && AllChars(d, IsAsciiDigit)
    ensures Digits(Mask(d)) == d
  {
    var m1 := d[..2];
    assert Digits(m1) == d[..2] by {
      DigitsRun("", d, 0, 2);
      assert "" + d[0..2] == m1;
    }
    var m2 := m1 + "." + d[2..5];
    assert Digits(m2) == d[..5] by { DigitsStep(m1, '.', d, 2, 5); }
    var m3 := m2 + "." + d[5..8];
    assert Digits(m3) == d[..8] by { DigitsStep(m2, '.', d, 5, 8); }
    var m4 := m3 + "/" + d[8..12];
    assert Digits(m4) == d[..12] by { DigitsStep(m3, '/', d, 8, 12); }
    var m5 := m4 + "-" + d[12..14];
    assert Digits(m5) == d[..14] by { DigitsStep(m4, '-', d, 12, 14); }
    assert m5 == Mask(d);
    assert d[..14] == d;
  }

  /** `formatCNPJ`: a dash for a falsy value, the value itself unless it
      has exactly fourteen digits, and the masked digits otherwise. */
  function FormatCnpj(v: Option<Json>): (r: Json)
    ensures v.None? || !JsTruthy(v.value) ==> r == JStr(Dash)
    ensures v.Some? && JsTruthy(v.value) && |Digits(JsString(v.value))| != 14 ==> r == v.value
    ensures v.Some? && JsTruthy(v.value) && |Digits(JsString(v.value))| == 14 ==>
      && r.JStr? && |r.s| == 18
      && r.s[2] == '.' && r.s[6] == '.' && r.s[10] == '/' && r.s[15] == '-'
      && Digits(r.s) == Digits(JsString(v.value))
  {
    if v.None? || !JsTruthy(v.value) then JStr(Dash)
    else
      var d := Digits(JsString(v.value));
      if |d| != 14 then v.value
      else
        MaskDigits(d);
        JStr(Mask(d))
  }

  /** Formatting a formatted CNPJ changes nothing. */
  lemma FormatCnpjIdempotent(v: Option<Json>)
    ensures FormatCnpj(Some(FormatCnpj(v))) == FormatCnpj(v)
  {
    if v.None? || !JsTruthy(v.value) {
      assert Digits(Dash) == Filter(Dash[..0], IsAsciiDigit);
    }
  }

  // ---------------------------------------------------------------------------
  // API URLs
  // ---------------------------------------------------------------------------

  /** `normalizedBase`: the configured API base without one trailing '/'. */
  function NormalizedBase(api: string): (b: string)
    ensures b == api || b + "/" == api
    ensures |api| > 0 && api[|api| - 1] == '/' ==> |b| == |api| - 1
  {
    if EndsWith(api, "/") then
      assert api[..|api| - 1] + "/" == api;
      api[..|api| - 1]
    else api
  }

  predicate Absolute(path: string) {
    StartsWith(path, "http://") || StartsWith(path, "https://")
  }

  /** `buildUrl`: absolute URLs pass through; other paths are prefixed with
      the normalised base, if there is one. */
  function BuildUrl(api: string, path: string): (u: string)
    ensures EndsWith(u, path)
    ensures Absolute(path) || NormalizedBase(api) == "" ==> u == path
    ensures !Absolute(path) && NormalizedBase(api) != "" ==> u == NormalizedBase(api) + path
  {
    var b := NormalizedBase(api);
    if Absolute(path) || b == "" then path
    else
      assert (b + path)[|b + path| - |path|..] == path;
      b + path
  }

  /** A base configured with or without its trailing '/' builds the same
      URLs. */
  lemma BuildUrlTrailingSlash(api: string, path: string)
    requires !EndsWith(api, "/")
    ensures BuildUrl(api + "/", path) == BuildUrl(api, path)
  {
    assert EndsWith(api + "/", "/") by { assert (api + "/")[|api|..] == "/"; }
    assert (api + "/")[..|api|] == api;
  }

  // ---------------------------------------------------------------------------
  // Edital fields
  // ---------------------------------------------------------------------------

  function OrgField(e: Option<Json>, f: string): Option<Json> {
    JsField(JsField(e, "orgaoEntidade"), f)
  }

  /** `getEditalCnpj`. */
  function EditalCnpj(e: Option<Json>): Json {
    JsOr(JsOr(OrgField(e, "cnpj"), JsField(e, "cnpjOrgao")), Some(JStr(""))).value
  }

  /** `getEditalRazaoSocial`. */
  function EditalRazaoSocial(e: Option<Json>): Json {
    JsOr(OrgField(e, "razaoSocial"), Some(JStr(""))).value
  }

  /** `getEditalObjeto`. */
  function EditalObjeto(e: Option<Json>): Json {
    JsOr(JsOr(JsField(e, "objeto"), JsField(e, "objetoCompra")), Some(JStr(""))).value
  }

  /** `x || x === 0`: a key part that counts as given. */
  predicate GivenPart(x: Option<Json>) {
    x.Some? && (JsTruthy(x.value) || x.value == JInt(0))
  }

  /** `edital?.orgaoEntidade?.cnpj || edital?.cnpjOrgao`. */
  function KeyCnpj(e: Option<Json>): Option<Json> {
    JsOr(OrgField(e, "cnpj"), JsField(e, "cnpjOrgao"))
  }

  function KeyAno(e: Option<Json>): Option<Json> {
    JsCoalesce(JsField(e, "anoCompra"), JsField(e, "ano"))
  }

  function KeyNumero(e: Option<Json>): Option<Json> {
    JsCoalesce(JsField(e, "numeroCompra"), JsField(e, "numero"))
  }

  /** The edital names its CNPJ (truthy) and its year and number (given). */
  predicate HasKeyParts(e: Option<Json>) {
    KeyCnpj(e).Some? && JsTruthy(KeyCnpj(e).value) && GivenPart(KeyAno(e)) && GivenPart(KeyNumero(e))
  }

  /** `getEditalKey`: `cnpj_ano_numero` when the three parts are given,
      else `chave`, then `id`, then ''. */
  function EditalKey(e: Option<Json>): (k: Json)
    ensures e.None? || !JsTruthy(e.value) ==> k == JStr("")
    ensures k.JStr? || Some(k) == JsField(e, "chave") || Some(k) == JsField(e, "id")
    ensures e.Some? && JsTruthy(e.value) && HasKeyParts(e) ==>
      k == JStr(Key3(JsString(KeyCnpj(e).value), JsString(KeyAno(e).value), JsString(KeyNumero(e).value)))
    ensures e.Some? && JsTruthy(e.value) && !HasKeyParts(e) ==>
      var chave, id := JsField(e, "chave"), JsField(e, "id");
      k == if chave.Some? && JsTruthy(chave.value) then chave.value
           else if id.Some? && JsTruthy(id.value) then id.value
           else JStr("")
  {
    if e.None? || !JsTruthy(e.value) then JStr("")
    else if HasKeyParts(e) then
      JStr(Key3(JsString(KeyCnpj(e).value), JsString(KeyAno(e).value), JsString(KeyNumero(e).value)))
    else JsOr(JsOr(JsField(e, "chave"), JsField(e, "id")), Some(JStr(""))).value
  }

  /** A key part both sides render the same way: a non-empty string or an
      integer (Python's `str` and JavaScript's `String` agree on them). */
  predicate PlainPart(v: Json) {
    (v.JStr? && v.s != "") || v.JInt?
  }

  /** The record shape on which the front end and the backend build the same
      key: an organisation that is absent or an object whose CNPJ, if any,
      is a string; a string `cnpjOrgao`, if any; a non-empty CNPJ; and the
      year and number under `anoCompra` and `numeroCompra`. */
  predicate Keyable(r: Record) {
    && ("orgaoEntidade" in r ==>
          (r["orgaoEntidade"].JObj? && ("cnpj" in r["orgaoEntidade"].fields ==> r["orgaoEntidade"].fields["cnpj"].JStr?)))
    && ("cnpjOrgao" in r ==> r["cnpjOrgao"].JStr?)
    && KeyCnpj(Some(JObj(r))).Some? && JsTruthy(KeyCnpj(Some(JObj(r))).value)
    && "anoCompra" in r && PlainPart(r["anoCompra"])
    && "numeroCompra" in r && PlainPart(r["numeroCompra"])
  }

  /** On such records the list links to exactly the key the backend
      computes for the edital. */
  lemma EditalKeyIsBackendKey(r: Record)
    requires Keyable(r)
    ensures RecordKey(Edital, JObj(r)).Some?
    ensures EditalKey(Some(JObj(r))) == JStr(RecordKey(Edital, JObj(r)).value)
  {
    var e := Some(JObj(r));
    var cnpj := KeyCnpj(e);
    assert SubRecord(r, "orgaoEntidade").Some?;
    var org := SubRecord(r, "orgaoEntidade").value;
    assert CnpjPart(r) == Some(cnpj.value);
    assert JsString(r["anoCompra"]) == Str(r["anoCompra"]);
    assert JsString(r["numeroCompra"]) == Str(r["numeroCompra"]);
  }

  // ---------------------------------------------------------------------------
  // Editais page
  // ---------------------------------------------------------------------------

  /** `(x || '').toLowerCase()`: `None` where `x` is a truthy non-string and
      the call throws. */
  function Lowered(x: Json): Option<string> {
    var y := if JsTruthy(x) then x else JStr("");
    if y.JStr? then Some(ToLower(y.s)) else None
  }

  /** The search test of one edital, evaluated left to right with `||`
      short-circuiting; `None` where it throws. */
  function Matches(e: Json, term: string): (m: Option<bool>) {
    var p :- Lowered(JsOr(JsField(Some(e), "processo"), Some(JStr(""))).value);
    if Contains(p, term) then Some(true) else
    var c :- Lowered(EditalCnpj(Some(e)));
    if Contains(c, term) then Some(true) else
    var rs :- Lowered(EditalRazaoSocial(Some(e)));
    if Contains(rs, term) then Some(true) else
    var o :- Lowered(EditalObjeto(Some(e)));
    if Contains(o, term) then Some(true) else
    Some(Contains(ToLower(JsString(JsCoalesce(JsField(Some(e), "valorTotalEstimado"), Some(JStr(""))).value)), term))
  }

  function Matcher(term: string): Json -> Option<bool> {
    e => Matches(e, term)
  }

  /** `filteredEditais`: the whole list for an empty search, otherwise the
      editais one of whose fields contains the lower-cased term; `None`
      where rendering throws. */
  function FilteredEditais(editais: seq<Json>, search: string): (r: Option<seq<Json>>)
    ensures search == "" ==> r == Some(editais)
    ensures search != "" && r.Some? ==> r.value == Filter(editais, Accepts(Matcher(ToLower(search))))
    ensures search != "" ==> (r.None? <==> exists i :: 0 <= i < |editais| && Matches(editais[i], ToLower(search)).None?)
  {
    if search == "" then Some(editais) else FilterOpt(editais, Matcher(ToLower(search)))
  }

  /** `Contains` is transitive: a haystack holding a longer term holds every
      part of it. */
  lemma ContainsTrans(hay: string, t2: string, t1: string)
    requires Contains(hay, t2) && Contains(t2, t1)
    ensures Contains(hay, t1)
  {
    var i :| 0 <= i <= |hay| - |t2| && OccursAt(hay, t2, i);
    var j :| 0 <= j <= |t2| - |t1| && OccursAt(t2, t1, j);
    forall k | 0 <= k < |t1| ensures hay[i + j + k] == t1[k] {
      assert hay[i..i + |t2|][j + k] == t2[j + k];
      assert t2[j..j + |t1|][k] == t1[k];
    }
    assert hay[i + j..i + j + |t1|] == t1;
    assert OccursAt(hay, t1, i + j);
  }

  /** An edital that matches a term matches every part of that term. */
  lemma MatchesNarrow(e: Json, t2: string, t1: string)
    requires Matches(e, t2) == Some(true) && Contains(t2, t1)
    ensures Matches(e, t1) == Some(true)
  {
    var p := Lowered(JsOr(JsField(Some(e), "processo"), Some(JStr(""))).value);
    var c := Lowered(EditalCnpj(Some(e)));
    var rs := Lowered(EditalRazaoSocial(Some(e)));
    var o := Lowered(EditalObjeto(Some(e)));
    var v := ToLower(JsString(JsCoalesce(JsField(Some(e), "valorTotalEstimado"), Some(JStr(""))).value));
    if Contains(p.value, t2) {
      ContainsTrans(p.value, t2, t1);
    } else if Contains(c.value, t2) {
      ContainsTrans(c.value, t2, t1);
    } else if Contains(rs.value, t2) {
      ContainsTrans(rs.value, t2, t1);
    } else if Contains(o.value, t2) {
      ContainsTrans(o.value, t2, t1);
    } else {
      ContainsTrans(v, t2, t1);
    }
  }

  /** Typing more narrows the list: every edital shown for a search is also
      shown for any search its lower-cased text contains. */
  lemma SearchNarrows(editais: seq<Json>, s1: string, s2: string)
    requires Contains(ToLower(s2), ToLower(s1))
    requires FilteredEditais(editais, s1).Some? && FilteredEditais(editais, s2).Some?
    ensures forall e :: e in FilteredEditais(editais, s2).value ==> e in FilteredEditais(editais, s1).value
  {
    if s1 != "" {
      forall e | e in FilteredEditais(editais, s2).value
        ensures e in FilteredEditais(editais, s1).value
      {
        if s2 != "" {
          MatchesNarrow(e, ToLower(s2), ToLower(s1));
        }
      }
    }
  }

  /** A row of the editais table: its React key and, when the edital has
      a key, the route it links to. */
  datatype Row = Row(key: Json, link: Option<string>)

  /** The table row of the edital at `index`: `chave || edital.id ||
      edital.numero || index` as the key; `None` where reading `id` of a
      null edital throws. */
  function RowOf(e: Json, index: nat): (row: Option<Row>)
    ensures row.Some? ==> (row.value.link.Some? <==> JsTruthy(EditalKey(Some(e))))
    ensures row.Some? && row.value.link.Some? ==> row.value.link.value == "/edital/" + JsString(EditalKey(Some(e)))
    ensures row.None? <==> e == JNull
    ensures row.Some? && JsTruthy(EditalKey(Some(e))) ==> row.value.key == EditalKey(Some(e))
    ensures row.Some? && !JsTruthy(EditalKey(Some(e))) ==>
      var numero := JsField(Some(e), "numero");
      row.value.key == if numero.Some? && JsTruthy(numero.value) then numero.value else JInt(index)
  {
    var chave := EditalKey(Some(e));
    if JsTruthy(chave) then
      Some(Row(chave, Some("/edital/" + JsString(chave))))
    else if e == JNull then None
    else
      var key := JsOr(JsOr(JsField(Some(e), "id"), JsField(Some(e), "numero")), Some(JInt(index))).value;
      Some(Row(key, None))
  }

  /** The link of a keyable edital names a route the backend accepts, and
      the key in it splits back into the edital's own parts. */
  lemma RowLinkAccepted(r: Record, index: nat)
    requires Keyable(r)
    requires var k := RecordKey(Edital, JObj(r)).value; CountChar(k, '_') == 2
    ensures RowOf(JObj(r), index).Some?
    ensures var k := RecordKey(Edital, JObj(r)).value;
      RowOf(JObj(r), index).value.link == Some("/edital/" + k) && Web.RouteParts(k).Some?
  {
    EditalKeyIsBackendKey(r);
    var k := RecordKey(Edital, JObj(r)).value;
    assert |k| > 0;
  }
}

=== FILE: http.dfy ===
/** The request helpers of the PNCP client: the bounded retry loop, the item
    count endpoint, the paginated item endpoint and the non-paginated edital
    endpoint. A request is modelled by the scripted sequence of responses its
    successive attempts receive; attempts beyond the script fail. */
module Http {
  import opened Opt
  import opened Values

  /** Number of attempts per request. */
  const MaxRetries: nat := 3

  /** Records per page requested from the API. */
  const PageSize: nat := 50

  /** What one attempt observes. `Failed` stands for every
      `RequestException`: connection errors, timeouts, non-2xx statuses other
      than 404 and bodies that are not JSON. `OkEmpty` is a 2xx response with
      an empty body, `Ok` one whose body decodes to `body`. */
  datatype Response = NotFound | Failed | OkEmpty | Ok(body: Json)

  function At(script: seq<Response>, attempt: nat): Response {
    if attempt < |script| then script[attempt] else Failed
  }

  /** What `_make_request` ends with: the decoded body, or the exception of
      the last attempt re-raised. */
  datatype Outcome = Returned(body: Json) | Raised

  /** The index of the first attempt, among the first `MaxRetries`, whose
      response is a decodable 2xx. */
  predicate FirstOkAt(script: seq<Response>, k: nat) {
    k < MaxRetries && At(script, k).Ok? && forall j :: 0 <= j < k ==> !At(script, j).Ok?
  }

  /** `_make_request`: every response other than a decodable 2xx (a 404 and
      an empty body included) is a failed attempt; the first success is
      returned, and after `MaxRetries` failures the exception propagates. */
  method MakeRequest(script: seq<Response>) returns (out: Outcome, attempts: nat)
    ensures 1 <= attempts <= MaxRetries
    ensures out.Returned? <==> FirstOkAt(script, attempts - 1)
    ensures out.Returned? ==> out.body == At(script, attempts - 1).body
    ensures out.Raised? <==> forall j :: 0 <= j < MaxRetries ==> !At(script, j).Ok?
    ensures out.Raised? ==> attempts == MaxRetries
  {
    var attempt: nat := 0;
    while attempt < MaxRetries
      invariant attempt <= MaxRetries
      invariant forall j :: 0 <= j < attempt ==> !At(script, j).Ok?
    {
      var r := At(script, attempt);
      if r.Ok? {
        return Returned(r.body), attempt + 1;
      }
      attempt := attempt + 1;
    }
    return Raised, MaxRetries;
  }

  /** `get_contratos` / `get_editais`: the body, or `None` when
      `_make_request` raised. A JSON `null` body is likewise `None`. */
  function PageResult(out: Outcome): Json {
    match out
    case Returned(b) => b
    case Raised => JNull
  }

  /** The value of `d.get(k1, d.get(k2, ...))`: the first present key wins,
      whatever its value. */
  function FirstPresent(d: Record, keys: seq<string>, default: Json): (v: Json)
    ensures |keys| > 0 && keys[0] in d ==> v == d[keys[0]]
  {
    if |keys| == 0 then default
    else if keys[0] in d then d[keys[0]]
    else FirstPresent(d, keys[1..], default)
  }

  /** With none of the keys present, the default. */
  lemma {:induction false} FirstPresentAbsent(d: Record, keys: seq<string>, default: Json)
    requires forall i :: 0 <= i < |keys| ==> keys[i] !in d
    ensures FirstPresent(d, keys, default) == default
    decreases |keys|
  {
    if |keys| > 0 {
      FirstPresentAbsent(d, keys[1..], default);
    }
  }

  /** `d.get(a, d.get(b, default))`, the two-key lookup the clients use. */
  lemma FirstPresentPair(d: Record, a: string, b: string, default: Json)
    ensures FirstPresent(d, [a, b], default) == if a in d then d[a] else if b in d then d[b] else default
  {
    assert [a, b][1..] == [b];
    assert [b][1..] == [];
    assert FirstPresent(d, [b], default) == if b in d then d[b] else FirstPresent(d, [], default);
  }

  /** A list value, or `[]` for anything that is not a list. */
  function ListOrEmpty(v: Json): seq<Json> {
    if v.JList? then v.items else []
  }

  /** The shape normalisation of `get_itens_edital_paginated`: `null` and
      unexpected types give `[]`, a list is itself, and a dict gives the
      first present of `data`, `itens`, `items` when that is a list. */
  function NormaliseItems(body: Json): (items: seq<Json>)
    ensures body.JList? ==> items == body.items
    ensures !body.JList? && !body.JObj? ==> items == []
  {
    match body
    case JList(xs) => xs
    case JObj(d) => ListOrEmpty(FirstPresent(d, ["data", "itens", "items"], JList([])))
    case _ => []
  }

  /** `get_itens_edital_paginated`, from the attempt `attempt` on: a 404 is an
      empty page at once; a decodable body is normalised; failures and empty
      bodies are retried, and exhaustion gives an empty page. */
  function ItemsPageFrom(script: seq<Response>, attempt: nat): (items: seq<Json>)
    requires attempt <= MaxRetries
    decreases MaxRetries - attempt
  {
    if attempt == MaxRetries then []
    else match At(script, attempt)
      case NotFound => []
      case Ok(b) => NormaliseItems(b)
      case _ => ItemsPageFrom(script, attempt + 1)
  }

  function ItemsPage(script: seq<Response>): seq<Json> {
    ItemsPageFrom(script, 0)
  }

  /** The attempt that decides a paginated-items or count request: the first
      one that is neither a failure nor, for the paginated endpoint, an empty
      body. */
  predicate DecidesAt(script: seq<Response>, k: nat, emptyRetries: bool) {
    && k < MaxRetries
    && !At(script, k).Failed?
    && !(emptyRetries && At(script, k).OkEmpty?)
    && forall j :: 0 <= j < k ==> At(script, j).Failed? || (emptyRetries && At(script, j).OkEmpty?)
  }

  /** The result of the paginated items endpoint is fixed by its deciding
      attempt, and is empty when no attempt decides. */
  lemma {:induction false} ItemsPageDecided(script: seq<Response>, attempt: nat)
    requires attempt <= MaxRetries
    requires forall j :: 0 <= j < attempt ==> At(script, j).Failed? || At(script, j).OkEmpty?
    ensures forall k :: attempt <= k && DecidesAt(script, k, true) ==>
      ItemsPageFrom(script, attempt) == (if At(script, k).NotFound? then [] else NormaliseItems(At(script, k).body))
    ensures (forall k :: attempt <= k < MaxRetries ==> !DecidesAt(script, k, true)) ==> ItemsPageFrom(script, attempt) == []
    decreases MaxRetries - attempt
  {
    if attempt < MaxRetries {
      var r := At(script, attempt);
      if r.Failed? || r.OkEmpty? {
        ItemsPageDecided(script, attempt + 1);
        forall k | attempt <= k && DecidesAt(script, k, true)
          ensures k != attempt
        {
        }
      } else {
        assert DecidesAt(script, attempt, true);
        forall k | attempt <= k && DecidesAt(script, k, true)
          ensures k == attempt
        {
        }
      }
    }
  }

  /** `get_itens_edital_count` from attempt `attempt`: a 404 is 0 at once, an
      empty body is 0, a body is passed to `int()`, whose failure (`None`)
      escapes the retry loop; failures are retried and exhaustion gives 0. */
  function ItemsCountFrom(script: seq<Response>, attempt: nat): (n: Option<int>)
    requires attempt <= MaxRetries
    decreases MaxRetries - attempt
  {
    if attempt == MaxRetries then Some(0)
    else match At(script, attempt)
      case NotFound => Some(0)
      case OkEmpty => Some(0)
      case Ok(b) => PyInt(b)
      case Failed => ItemsCountFrom(script, attempt + 1)
  }

  function ItemsCount(script: seq<Response>): Option<int> {
    ItemsCountFrom(script, 0)
  }

  /** The count request is decided by its first non-failed attempt: a 404 or
      empty body gives 0 with no further attempt, and all-failed gives 0. */
  lemma {:induction false} ItemsCountDecided(script: seq<Response>, attempt: nat)
    requires attempt <= MaxRetries
    requires forall j :: 0 <= j < attempt ==> At(script, j).Failed?
    ensures forall k :: attempt <= k && DecidesAt(script, k, false) ==>
      ItemsCountFrom(script, attempt) == (if At(script, k).Ok? then PyInt(At(script, k).body) else Some(0))
    ensures (forall k :: attempt <= k < MaxRetries ==> !DecidesAt(script, k, false)) ==> ItemsCountFrom(script, attempt) == Some(0)
    decreases MaxRetries - attempt
  {
    if attempt < MaxRetries {
      var r := At(script, attempt);
      if r.Failed? {
        ItemsCountDecided(script, attempt + 1);
        forall k | attempt <= k && DecidesAt(script, k, false)
          ensures k != attempt
        {
        }
      } else {
        assert DecidesAt(script, attempt, false);
        forall k | attempt <= k && DecidesAt(script, k, false)
          ensures k == attempt
        {
        }
      }
    }
  }

  /** `get_itens_edital`: the non-paginated endpoint. A truthy dict body gives
      its `itens` (else `items`) when that is a list; every other body, and a
      request that raised, gives `[]`. */
  function ItemsOfEdital(out: Outcome): (items: seq<Json>)
    ensures out.Raised? ==> items == []
    ensures out.Returned? && !out.body.JObj? ==> items == []
    ensures out.Returned? && out.body.JObj? && "itens" in out.body.fields ==>
      items == ListOrEmpty(out.body.fields["itens"])
    ensures out.Returned? && out.body.JObj? && "itens" !in out.body.fields ==>
      items == if "items" in out.body.fields then ListOrEmpty(out.body.fields["items"]) else []
  {
    match out
    case Raised => []
    case Returned(b) =>
      if Truthy(b) && b.JObj? then
        FirstPresentPair(b.fields, "itens", "items", JList([]));
        ListOrEmpty(FirstPresent(b.fields, ["itens", "items"], JList([])))
      else []
  }

  /** `get_itens_contrato`: the body when truthy, else `[]`; `[]` as well when
      the request raised. */
  function ItemsOfContrato(out: Outcome): (r: Json)
    ensures Truthy(r) ==> out.Returned? && r == out.body
    ensures !Truthy(r) ==> r == JList([])
    ensures out.Returned? && Truthy(out.body) ==> r == out.body
  {
    match out
    case Raised => JList([])
    case Returned(b) => if Truthy(b) then b else JList([])
  }
}

=== FILE: items.dfy ===
/** Item collection for editais: the month an edital is filed under, the
    publication-date filter, the item fetch for one edital, the
    de-duplicating collection over many editais, and the lookup of stored
    items by edital. */
module Items {
  import opened Opt
  import opened Text
  import opened Values
  import opened Lists
  import opened Http

  // ---------------------------------------------------------------------------
  // Month of an edital
  // ---------------------------------------------------------------------------

  /** The date fields tried, in order, when no month field parses. */
  const DateFields: seq<string> := ["dataPublicacao", "dataInclusao", "dataAtualizacao", "dataInicio", "data"]

  /** The month one date field yields: for a non-empty string of at least
      seven characters, the integer value of the second '-'-separated
      component of the part before any 'T'. `None` means the search goes on
      to the next field. */
  function MonthOfDate(v: Json): Option<int> {
    if Truthy(v) && v.JStr? && |v.s| >= 7 then
      var parts := Split(Split(v.s, 'T')[0], '-');
      if |parts| >= 2 then ParseInt(parts[1]) else None
    else None
  }

  /** `_extract_month_from_edital`: `int(mesCompra or mes)` when that value is
      truthy and parses, else the month of the first date field that yields
      one, else `None`. */
  function ExtractMonth(r: Record): Option<int> {
    var mes := Or(Get(r, "mesCompra"), Get(r, "mes"));
    if Truthy(mes) && PyInt(mes).Some? then PyInt(mes)
    else FirstSome(DateFields, f => MonthOfDate(Get(r, f)))
  }

  /** An integer `mesCompra`/`mes` wins; otherwise the month of the first
      date field that yields one; otherwise none. */
  lemma ExtractMonthMeaning(r: Record)
    ensures var m := ExtractMonth(r);
      var mes := Or(Get(r, "mesCompra"), Get(r, "mes"));
      && (Truthy(mes) && PyInt(mes).Some? ==> m == PyInt(mes))
      && (!(Truthy(mes) && PyInt(mes).Some?) ==>
            && (m.None? <==> forall i :: 0 <= i < |DateFields| ==> MonthOfDate(Get(r, DateFields[i])).None?)
            && (m.Some? ==> exists i ::
                  0 <= i < |DateFields| && m == MonthOfDate(Get(r, DateFields[i])) &&
                  forall j :: 0 <= j < i ==> MonthOfDate(Get(r, DateFields[j])).None?))
  {
  }

  /** The three '-'-separated components of a `YYYY-MM-DD` date, which
      holds no 'T'. */
  lemma IsoDateSplit(year: string, month: string, day: string)
    requires AllChars(year, IsAsciiDigit) && AllChars(month, IsAsciiDigit) && AllChars(day, IsAsciiDigit)
    ensures 'T' !in year + "-" + month + "-" + day
    ensures Split(year + "-" + month + "-" + day, '-') == [year, month, day]
  {
    DigitsLack(year, 'T');
    DigitsLack(month, 'T');
    DigitsLack(day, 'T');
    DigitsLack(year, '-');
    DigitsLack(month, '-');
    DigitsLack(day, '-');
    var tail := month + ['-'] + day;
    assert year + "-" + month + "-" + day == year + ['-'] + tail;
    SplitAround(year, tail, '-');
    SplitAround(month, day, '-');
    SplitNoSeparator(year, '-');
    SplitNoSeparator(month, '-');
    SplitNoSeparator(day, '-');
  }

  /** A string of digits holds no other character. */
  lemma DigitsLack(s: string, c: char)
    requires AllChars(s, IsAsciiDigit) && !IsAsciiDigit(c)
    ensures c !in s
  {
  }

  /** What `MonthOfDate` reads from a long enough string whose part before
      any 'T' is `head`. */
  lemma MonthOfHead(s: string, head: string)
    requires |s| >= 7 && Split(s, 'T')[0] == head
    ensures MonthOfDate(JStr(s)) == (var parts := Split(head, '-'); if |parts| >= 2 then ParseInt(parts[1]) else None)
  {
  }

  /** The part before 'T' of a date with or without a time part. */
  lemma DateHead(date: string, time: string)
    requires 'T' !in date
    ensures Split(date, 'T')[0] == date
    ensures Split(date + "T" + time, 'T')[0] == date
  {
    SplitNoSeparator(date, 'T');
    assert date + "T" + time == date + ['T'] + time;
    SplitAround(date, time, 'T');
  }

  /** An ISO date `YYYY-MM-DD` yields the value of its month digits. */
  lemma MonthOfIsoDate(year: string, month: string, day: string)
    requires |year| == 4 && |month| == 2 && |day| == 2
    requires AllChars(year, IsAsciiDigit) && AllChars(month, IsAsciiDigit) && AllChars(day, IsAsciiDigit)
    ensures MonthOfDate(JStr(year + "-" + month + "-" + day)) == Some(DigitsValue(month) as int)
  {
    var date := year + "-" + month + "-" + day;
    IsoDateSplit(year, month, day);
    DateHead(date, "");
    MonthOfHead(date, date);
    ParseIntOfDigits(month);
  }

  /** So does an ISO timestamp `YYYY-MM-DDT...`: the time part is ignored. */
  lemma MonthOfIsoTimestamp(year: string, month: string, day: string, time: string)
    requires |year| == 4 && |month| == 2 && |day| == 2
    requires AllChars(year, IsAsciiDigit) && AllChars(month, IsAsciiDigit) && AllChars(day, IsAsciiDigit)
    ensures MonthOfDate(JStr(year + "-" + month + "-" + day + "T" + time)) == Some(DigitsValue(month) as int)
  {
    var date := year + "-" + month + "-" + day;
    IsoDateSplit(year, month, day);
    DateHead(date, time);
    MonthOfHead(date + "T" + time, date);
    ParseIntOfDigits(month);
  }

  /** A digit string in `mesCompra` is the month. */
  lemma ExplicitMonth(r: Record, digits: string)
    requires Get(r, "mesCompra") == JStr(digits) && |digits| > 0 && AllChars(digits, IsAsciiDigit)
    ensures ExtractMonth(r) == Some(DigitsValue(digits) as int)
  {
    ParseIntOfDigits(digits);
  }

  /** Without a month field, an ISO `dataPublicacao` gives the month. */
  lemma PublicationMonth(r: Record, year: string, month: string, day: string)
    requires !Truthy(Get(r, "mesCompra")) && !Truthy(Get(r, "mes"))
    requires |year| == 4 && |month| == 2 && |day| == 2
    requires AllChars(year, IsAsciiDigit) && AllChars(month, IsAsciiDigit) && AllChars(day, IsAsciiDigit)
    requires Get(r, "dataPublicacao") == JStr(year + "-" + month + "-" + day)
    ensures ExtractMonth(r) == Some(DigitsValue(month) as int)
  {
    MonthOfIsoDate(year, month, day);
    assert DateFields[0] == "dataPublicacao";
  }

  /** The documented example of an explicit month: `mesCompra` "04" gives 4. */
  lemma ExplicitMonthExample(r: Record)
    requires r == map["mesCompra" := JStr("04")]
    ensures ExtractMonth(r) == Some(4)
  {
    assert AllChars("04", IsAsciiDigit);
    assert Get(r, "mesCompra") == JStr("04");
    ExplicitMonth(r, "04");
    assert DigitsValue("04") == 4 by {
      assert "04"[..1] == "0";
      assert DigitsValue("0") == 0 by { assert "0"[..0] == ""; }
    }
  }

  /** The pieces of the date 2026-12-31. */
  lemma DateLiteral()
    ensures "2026-12-31" == "2026" + "-" + "12" + "-" + "31"
    ensures AllChars("2026", IsAsciiDigit) && AllChars("12", IsAsciiDigit) && AllChars("31", IsAsciiDigit)
    ensures DigitsValue("12") == 12
  {
    assert "12"[..1] == "1";
    assert DigitsValue("1") == 1 by { assert "1"[..0] == ""; }
  }

  /** The documented example of a month read from a date: a publication
      date of 2026-12-31 gives 12. */
  lemma PublicationMonthExample(r: Record)
    requires r == map["dataPublicacao" := JStr("2026-12-31")]
    ensures ExtractMonth(r) == Some(12)
  {
    DateLiteral();
    assert Get(r, "mesCompra") == JNull && Get(r, "mes") == JNull;
    PublicationMonth(r, "2026", "12", "31");
  }

  // ---------------------------------------------------------------------------
  // Publication-date filter
  // ---------------------------------------------------------------------------

  /** The publication date an edital is filtered on: the first truthy of
      `dataPublicacaoPncp`, `dataPublicacao`, `dataInclusao`, and a falsy value
      when none is truthy. */
  function PublicationDate(r: Record): Json {
    Or(Get(r, "dataPublicacaoPncp"), Or(Get(r, "dataPublicacao"), Get(r, "dataInclusao")))
  }

  /** Whether the filter keeps a dict edital: no publication date, a date the
      parser rejects, or a date not before the cutoff. */
  predicate Published(parse: Json -> Option<int>, cutoff: int, e: Json) {
    e.JObj? ==>
      var d := PublicationDate(e.fields);
      !Truthy(d) || parse(d).None? || parse(d).value >= cutoff
  }

  /** `_filter_editais_by_publication_date` with the date parser `parse` and
      the cutoff instant `cutoff`: the kept editais in their order, `None` if
      an edital is not a dict (its `.get` raises). */
  function PublicationFilter(editais: seq<Json>, parse: Json -> Option<int>, cutoff: int): Option<seq<Json>> {
    FilterRecords(editais, e => Published(parse, cutoff, e))
  }

  /** Which editais survive the filter: an edital is kept exactly when it has
      no publication date, its date does not parse, or its date is at or
      after the cutoff. */
  lemma PublicationKept(editais: seq<Json>, parse: Json -> Option<int>, cutoff: int, e: Json)
    requires PublicationFilter(editais, parse, cutoff).Some?
    ensures var kept := PublicationFilter(editais, parse, cutoff).value;
      e in kept <==> (e in editais &&
        var d := PublicationDate(e.fields);
        !Truthy(d) || parse(d).None? || parse(d).value >= cutoff)
  {
    if e in editais {
      var i :| 0 <= i < |editais| && editais[i] == e;
    }
  }

  /** The filter keeps the relative order of the editais: filtering a
      concatenation is concatenating the filtered parts. */
  lemma PublicationOrder(a: seq<Json>, b: seq<Json>, parse: Json -> Option<int>, cutoff: int)
    requires PublicationFilter(a + b, parse, cutoff).Some?
    ensures PublicationFilter(a, parse, cutoff).Some? && PublicationFilter(b, parse, cutoff).Some?
    ensures PublicationFilter(a + b, parse, cutoff).value
      == PublicationFilter(a, parse, cutoff).value + PublicationFilter(b, parse, cutoff).value
  {
    assert forall i :: 0 <= i < |a| ==> (a + b)[i] == a[i];
    assert forall i :: 0 <= i < |b| ==> (a + b)[|a| + i] == b[i];
    FilterAppend(a, b, e => Published(parse, cutoff, e));
  }

  /** An edital published before the cutoff is dropped, and one without a
      publication date is kept. */
  lemma PublicationDropsStale(parse: Json -> Option<int>, cutoff: int)
    requires parse(JStr("2020-01-01")) == Some(cutoff - 1)
    ensures var stale := JObj(map["dataPublicacaoPncp" := JStr("2020-01-01")]);
      var undated := JObj(map["numeroCompra" := JStr("1")]);
      PublicationFilter([stale, undated], parse, cutoff) == Some([undated])
  {
    var stale := JObj(map["dataPublicacaoPncp" := JStr("2020-01-01")]);
    var undated := JObj(map["numeroCompra" := JStr("1")]);
    assert PublicationDate(stale.fields) == JStr("2020-01-01");
    assert !Published(parse, cutoff, stale);
    assert PublicationDate(undated.fields) == JNull;
    assert Published(parse, cutoff, undated);
    assert [stale, undated][..1] == [stale];
    assert [stale][..0] == [];
    assert PublicationFilter([], parse, cutoff) == Some([]);
    assert PublicationFilter([stale], parse, cutoff) == Some([]);
    assert PublicationFilter([stale, undated], parse, cutoff) == Some([] + [undated]);
    assert [] + [undated] == [undated];
  }

  // ---------------------------------------------------------------------------
  // Items of one edital
  // ---------------------------------------------------------------------------

  /** The identifiers the item fetch reads from an edital, as JSON values. */
  datatype Ids = Ids(cnpj: Json, ano: Json, numero: Json) {

    predicate Complete() {
      Truthy(cnpj) && Truthy(ano) && Truthy(numero)
    }

    /** `f"{cnpj}_{ano}_{numero}"`. */
    function Key(): string {
      Key3(Str(cnpj), Str(ano), Str(numero))
    }
  }

  /** `(e.get("orgaoEntidade", {}) or {}).get("cnpj") or e.get("cnpjOrgao")`,
      `anoCompra or ano` and `numeroCompra or numero`; `None` where the
      nested `.get` raises. */
  function EditalIds(r: Record): Option<Ids> {
    var org :- SubRecordOrEmpty(r, "orgaoEntidade");
    Some(Ids(Or(Get(org, "cnpj"), Get(r, "cnpjOrgao")),
             Or(Get(r, "anoCompra"), Get(r, "ano")),
             Or(Get(r, "numeroCompra"), Get(r, "numero"))))
  }

  /** The responses the item endpoints give for one edital: the outcome of
      the non-paginated call, the attempts of the count request, and the
      attempts of each page request (page `p` at index `p - 1`; a page beyond
      the script fails on every attempt). */
  datatype EditalApi = EditalApi(single: Outcome, count: seq<Response>, pages: seq<seq<Response>>)

  /** The items of page index `i` (page number `i + 1`). */
  function Page(pages: seq<seq<Response>>, i: nat): seq<Json> {
    ItemsPage(if i < |pages| then pages[i] else [])
  }

  /** A page with no scripted response fails on every attempt and is empty. */
  lemma UnscriptedPageEmpty(pages: seq<seq<Response>>, i: nat)
    requires i >= |pages|
    ensures Page(pages, i) == []
  {
    assert ItemsPageFrom([], 2) == [];
  }

  /** The paginated loop from page index `i`: each page is appended until the
      first empty one. */
  function PagesFrom(pages: seq<seq<Response>>, i: nat): seq<Json>
    decreases |pages| - i
  {
    var got := Page(pages, i);
    if |got| == 0 then []
    else
      if i >= |pages| then UnscriptedPageEmpty(pages, i); []
      else got + PagesFrom(pages, i + 1)
  }

  /** Page indices `i`, ..., `k - 1` give items. */
  predicate PagesNonEmpty(pages: seq<seq<Response>>, i: nat, k: nat) {
    forall j :: i <= j < k ==> |Page(pages, j)| > 0
  }

  /** The pages `i`, ..., `k - 1` in order. */
  function PageList(pages: seq<seq<Response>>, i: nat, k: nat): (ps: seq<seq<Json>>)
    ensures |ps| == if k < i then 0 else k - i
    ensures forall j :: 0 <= j < |ps| ==> ps[j] == Page(pages, i + j)
  {
    seq(if k < i then 0 else k - i, j requires 0 <= j => Page(pages, i + j))
  }

  lemma {:induction false} PagesFromRun(pages: seq<seq<Response>>, i: nat, k: nat)
    requires i <= k && PagesNonEmpty(pages, i, k) && |Page(pages, k)| == 0
    ensures PagesFrom(pages, i) == Flatten(PageList(pages, i, k))
    decreases k - i
  {
    if i == k {
      assert PageList(pages, i, k) == [];
    } else {
      if i >= |pages| {
        UnscriptedPageEmpty(pages, i);
      }
      PagesFromRun(pages, i + 1, k);
      PageListCons(pages, i, k);
      FlattenCons(Page(pages, i), PageList(pages, i + 1, k), PageList(pages, i, k));
    }
  }

  /** The pages from `i` are page `i` followed by those from `i + 1`. */
  lemma PageListCons(pages: seq<seq<Response>>, i: nat, k: nat)
    requires i < k
    ensures PageList(pages, i, k) == [Page(pages, i)] + PageList(pages, i + 1, k)
  {
  }

  /** The first empty page exists (at the latest right after the scripted
      ones), and the loop's result is the concatenation of the pages before
      it. */
  lemma PagedItems(pages: seq<seq<Response>>)
    ensures exists k ::
      && 0 <= k <= |pages| && PagesNonEmpty(pages, 0, k) && |Page(pages, k)| == 0
      && PagesFrom(pages, 0) == Flatten(PageList(pages, 0, k))
  {
    var k := 0;
    while k < |pages| && |Page(pages, k)| > 0
      invariant k <= |pages| && PagesNonEmpty(pages, 0, k)
      decreases |pages| - k
    {
      k := k + 1;
    }
    if k == |pages| {
      UnscriptedPageEmpty(pages, k);
    }
    PagesFromRun(pages, 0, k);
  }

  /** `item["edital_cnpj"] = cnpj` and the two assignments after it. */
  function Annotate(f: Record, ids: Ids): Record {
    f["edital_cnpj" := ids.cnpj]["edital_ano" := ids.ano]["edital_numero" := ids.numero]
  }

  /** The item is a dict holding the edital's identifiers. */
  predicate Carries(item: Json, ids: Ids) {
    && item.JObj?
    && Get(item.fields, "edital_cnpj") == ids.cnpj
    && Get(item.fields, "edital_ano") == ids.ano
    && Get(item.fields, "edital_numero") == ids.numero
  }

  /** The annotation loop: every item gets the identifiers and keeps its other
      fields; `None` where an item is not a dict and the assignment raises. */
  function AnnotateAll(items: seq<Json>, ids: Ids): (r: Option<seq<Json>>)
    ensures r.None? <==> !AllDicts(items)
    ensures r.Some? ==> |r.value| == |items|
    ensures r.Some? ==> forall i :: 0 <= i < |items| ==> Carries(r.value[i], ids)
    ensures r.Some? ==> forall i, k ::
      (0 <= i < |items| && k in items[i].fields && k != "edital_cnpj" && k != "edital_ano" && k != "edital_numero") ==>
        (r.value[i].JObj? && k in r.value[i].fields && r.value[i].fields[k] == items[i].fields[k])
  {
    if |items| == 0 then Some([])
    else
      var first := items[0];
      var rest :- AnnotateAll(items[1..], ids);
      assert forall i :: 1 <= i < |items| ==> items[i] == items[1..][i - 1];
      if first.JObj? then Some([JObj(Annotate(first.fields, ids))] + rest) else None
  }

  /** The items the endpoints give for an edital with complete identifiers,
      before annotation: the non-paginated call when the month is missing or
      0; otherwise nothing when the count is 0, the paginated loop when it is
      not, and `None` when reading the count raised. */
  function RawItems(r: Record, api: EditalApi): Option<seq<Json>> {
    var mes := ExtractMonth(r);
    if mes.None? || mes.value == 0 then Some(ItemsOfEdital(api.single))
    else
      match ItemsCount(api.count)
      case None => None
      case Some(n) => if n == 0 then Some([]) else Some(PagesFrom(api.pages, 0))
  }

  /** `_fetch_items_for_single_edital`: every exception, including a non-dict
      edital or item, ends in `[]`. */
  function FetchSingle(edital: Json, api: EditalApi): (items: seq<Json>)
    ensures |items| > 0 ==> edital.JObj? && EditalIds(edital.fields).Some? && EditalIds(edital.fields).value.Complete()
    ensures forall i :: 0 <= i < |items| ==>
      (edital.JObj? && EditalIds(edital.fields).Some? && Carries(items[i], EditalIds(edital.fields).value))
  {
    if !edital.JObj? then []
    else
      match EditalIds(edital.fields)
      case None => []
      case Some(ids) =>
        if !ids.Complete() then []
        else
          match RawItems(edital.fields, api)
          case None => []
          case Some(raw) => AnnotateAll(raw, ids).GetOr([])
  }

  /** Whether the edital has a month the paginated endpoints can use. */
  predicate HasMonth(r: Record) {
    ExtractMonth(r).Some? && ExtractMonth(r).value != 0
  }

  /** Without a month only the non-paginated call is made: the result does
      not depend on the count or page responses. With one, the non-paginated
      call is not made. */
  lemma FetchSingleEndpoints(edital: Json, api: EditalApi, other: EditalApi)
    ensures edital.JObj? && !HasMonth(edital.fields) && api.single == other.single ==>
      FetchSingle(edital, api) == FetchSingle(edital, other)
    ensures edital.JObj? && HasMonth(edital.fields) && api.count == other.count && api.pages == other.pages ==>
      FetchSingle(edital, api) == FetchSingle(edital, other)
  {
    if edital.JObj? && !HasMonth(edital.fields) && api.single == other.single {
      SameRawWithoutMonth(edital.fields, api, other);
      FetchSingleOfRaw(edital, api, other);
    }
    if edital.JObj? && HasMonth(edital.fields) && api.count == other.count && api.pages == other.pages {
      SameRawWithMonth(edital.fields, api, other);
      FetchSingleOfRaw(edital, api, other);
    }
  }

  lemma SameRawWithoutMonth(r: Record, api: EditalApi, other: EditalApi)
    requires !HasMonth(r) && api.single == other.single
    ensures RawItems(r, api) == RawItems(r, other)
  {
  }

  lemma SameRawWithMonth(r: Record, api: EditalApi, other: EditalApi)
    requires HasMonth(r) && api.count == other.count && api.pages == other.pages
    ensures RawItems(r, api) == RawItems(r, other)
  {
  }

  /** The result depends on the endpoints only through the raw items. */
  lemma FetchSingleOfRaw(edital: Json, api: EditalApi, other: EditalApi)
    requires edital.JObj? && RawItems(edital.fields, api) == RawItems(edital.fields, other)
    ensures FetchSingle(edital, api) == FetchSingle(edital, other)
  {
  }

  /** A count of 0 means no page is requested: the result is empty whatever
      the page responses. */
  lemma CountZeroNoPages(edital: Json, api: EditalApi, pages: seq<seq<Response>>)
    requires edital.JObj? && HasMonth(edital.fields) && ItemsCount(api.count) == Some(0)
    ensures FetchSingle(edital, api) == []
    ensures FetchSingle(edital, api.(pages := pages)) == []
  {
  }

  /** With complete identifiers, a month and a non-zero count, the result is
      the annotated concatenation of the pages before the first empty one. */
  lemma FetchSinglePaged(edital: Json, api: EditalApi)
    requires edital.JObj? && EditalIds(edital.fields).Some? && EditalIds(edital.fields).value.Complete()
    requires HasMonth(edital.fields)
    requires ItemsCount(api.count).Some? && ItemsCount(api.count).value != 0
    ensures exists k ::
      && 0 <= k <= |api.pages| && PagesNonEmpty(api.pages, 0, k) && |Page(api.pages, k)| == 0
      && FetchSingle(edital, api) == AnnotateAll(Flatten(PageList(api.pages, 0, k)), EditalIds(edital.fields).value).GetOr([])
  {
    PagedItems(api.pages);
  }

  /** Missing identifiers: nothing is requested and the result is empty. */
  lemma MissingIdsGiveNothing(edital: Json, api: EditalApi)
    requires edital.JObj? && EditalIds(edital.fields).Some? && !EditalIds(edital.fields).value.Complete()
    ensures FetchSingle(edital, api) == []
  {
  }

  // ---------------------------------------------------------------------------
  // Items of many editais
  // ---------------------------------------------------------------------------

  /** `f"{edital_cnpj}_{edital_ano}_{edital_numero}"` of an item. */
  function ItemEditalKey(f: Record): string {
    Key3(Str(Get(f, "edital_cnpj")), Str(Get(f, "edital_ano")), Str(Get(f, "edital_numero")))
  }

  /** The de-duplication key: the edital key followed by `_{numeroItem}`.
      It is only applied to dicts; anything else reads as an empty one. */
  function ItemKey(item: Json): string {
    var f := if item.JObj? then item.fields else map[];
    ItemEditalKey(f) + "_" + Str(Get(f, "numeroItem"))
  }

  /** The edital keys of the stored items. */
  function EditalKeySet(items: seq<Json>): (keys: set<string>)
    requires AllDicts(items)
    ensures |items| > 0 <==> keys != {}
  {
    var keys := set i | 0 <= i < |items| :: ItemEditalKey(items[i].fields);
    assert |items| > 0 ==> ItemEditalKey(items[0].fields) in keys;
    keys
  }

  /** An edital that is fetched when skipping: its key is not among `keys`. */
  predicate Unskipped(keys: set<string>, e: Json) {
    e.JObj? && EditalIds(e.fields).Some? && EditalIds(e.fields).value.Key() !in keys
  }

  /** The editais to fetch when skipping those that already have items: the
      ones whose key is not among `keys`, in order; `None` where computing a
      key raises (an edital that is not a dict, or whose `orgaoEntidade` is
      truthy and not a dict). */
  function SkipStored(editais: seq<Json>, keys: set<string>): (todo: Option<seq<Json>>)
    ensures todo.None? <==> exists i :: 0 <= i < |editais| && !(editais[i].JObj? && EditalIds(editais[i].fields).Some?)
    ensures todo.Some? ==> todo.value == Filter(editais, e => Unskipped(keys, e))
  {
    var kept :- FilterRecords(editais, e => Unskipped(keys, e));
    if forall i :: 0 <= i < |editais| ==> EditalIds(editais[i].fields).Some? then Some(kept) else None
  }

  /** The items of the editais in `todo`, fetched one edital after another. */
  function Fetched(todo: seq<Json>, api: Json -> EditalApi): (items: seq<Json>)
    ensures AllDicts(items)
  {
    var lists := seq(|todo|, i requires 0 <= i < |todo| => FetchSingle(todo[i], api(todo[i])));
    forall x | x in Flatten(lists) ensures x.JObj? {
      FlattenMember(lists, x);
    }
    Flatten(lists)
  }

  /** What `fetch_itens_for_all_editais` returns, and whether it ends with a
      save of the item file. */
  datatype ItemsRun = ItemsRun(items: seq<Json>, saved: bool)

  /** `fetch_itens_for_all_editais(editais, skip_existing)` against the stored
      items `stored`, where `api(e)` holds the responses for edital `e`. The
      backend passes its skip flag; the root version has none and behaves as
      with `skip` false. */
  method FetchItemsForAll(editais: seq<Json>, stored: seq<Json>, skip: bool, api: Json -> EditalApi)
    returns (run: Option<ItemsRun>)
    ensures |editais| == 0 ==> run == Some(ItemsRun([], false))
    ensures |editais| > 0 && !AllDicts(stored) ==> run.None?
    ensures |editais| > 0 && AllDicts(stored) && (!skip || |stored| == 0) ==>
      run == Some(ItemsRun(stored + Unseen(KeySet(stored, ItemKey), Fetched(editais, api), ItemKey),
                           |stored| + |Unseen(KeySet(stored, ItemKey), Fetched(editais, api), ItemKey)| > 0))
    ensures |editais| > 0 && AllDicts(stored) && skip && |stored| > 0 ==>
      match SkipStored(editais, EditalKeySet(stored))
      case None => run.None?
      case Some(todo) =>
        if |todo| == 0 then run == Some(ItemsRun(stored, false))
        else run == Some(ItemsRun(stored + Unseen(KeySet(stored, ItemKey), Fetched(todo, api), ItemKey), true))
  {
    if |editais| == 0 {
      return Some(ItemsRun([], false));
    }
    if !AllDicts(stored) {
      return None;
    }
    var seen := KeySet(stored, ItemKey);
    var editalKeys := EditalKeySet(stored);
    var todo := editais;
    if skip && editalKeys != {} {
      match SkipStored(editais, editalKeys) {
        case None =>
          return None;
        case Some(t) =>
          if |t| == 0 {
            return Some(ItemsRun(stored, false));
          }
          todo := t;
      }
    }
    var all, _ := AppendUnseen(stored, seen, Fetched(todo, api), ItemKey);
    return Some(ItemsRun(all, |all| > 0));
  }

  /** The editais fetched with skipping on are exactly the given ones whose
      key has no stored item. */
  lemma SkippedEditais(editais: seq<Json>, stored: seq<Json>, e: Json)
    requires AllDicts(stored) && SkipStored(editais, EditalKeySet(stored)).Some?
    ensures e in SkipStored(editais, EditalKeySet(stored)).value <==>
      e in editais && e.JObj? && EditalIds(e.fields).value.Key() !in EditalKeySet(stored)
  {
  }

  // ---------------------------------------------------------------------------
  // Stored items of one edital
  // ---------------------------------------------------------------------------

  /** The test of `get_itens_by_edital`: `edital_cnpj == cnpj` and the year
      and number equal once rendered with `str()`. */
  predicate OfEdital(item: Json, cnpj: Json, ano: Json, numero: Json) {
    && item.JObj?
    && PyEq(Get(item.fields, "edital_cnpj"), cnpj)
    && Str(Get(item.fields, "edital_ano")) == Str(ano)
    && Str(Get(item.fields, "edital_numero")) == Str(numero)
  }

  /** `get_itens_by_edital(cnpj, ano, numero)` over the stored items. */
  function ItemsByEdital(items: seq<Json>, cnpj: Json, ano: Json, numero: Json): Option<seq<Json>> {
    FilterRecords(items, it => OfEdital(it, cnpj, ano, numero))
  }

  /** The lookup keeps, in order, exactly the stored items of the edital. */
  lemma ItemsByEditalKeeps(items: seq<Json>, cnpj: Json, ano: Json, numero: Json, x: Json)
    requires ItemsByEdital(items, cnpj, ano, numero).Some?
    ensures x in ItemsByEdital(items, cnpj, ano, numero).value <==> x in items && OfEdital(x, cnpj, ano, numero)
  {
    var keep := it => OfEdital(it, cnpj, ano, numero);
    assert ItemsByEdital(items, cnpj, ano, numero).value == Filter(items, keep);
    assert keep(x) == OfEdital(x, cnpj, ano, numero);
  }

  /** Items fetched for an edital are all found again by that edital's
      identifiers. */
  lemma FetchedItemsFound(edital: Json, api: EditalApi)
    requires edital.JObj? && EditalIds(edital.fields).Some?
    ensures var ids := EditalIds(edital.fields).value;
      ItemsByEdital(FetchSingle(edital, api), ids.cnpj, ids.ano, ids.numero) == Some(FetchSingle(edital, api))
  {
    var ids := EditalIds(edital.fields).value;
    var items := FetchSingle(edital, api);
    FilterAll(items, it => OfEdital(it, ids.cnpj, ids.ano, ids.numero));
  }

  /** The documented example: of three items, only the one with cnpj "1",
      year "2026" and number "10" matches. */
  lemma ItemsByEditalExample(a: Json, b: Json, c: Json)
    requires a == JObj(map["edital_cnpj" := JStr("1"), "edital_ano" := JStr("2026"), "edital_numero" := JStr("10")])
    requires b == JObj(map["edital_cnpj" := JStr("2"), "edital_ano" := JStr("2026"), "edital_numero" := JStr("10")])
    requires c == JObj(map["edital_cnpj" := JStr("1"), "edital_ano" := JStr("2025"), "edital_numero" := JStr("10")])
    ensures ItemsByEdital([a, b, c], JStr("1"), JStr("2026"), JStr("10")) == Some([a])
  {
    var keep := it => OfEdital(it, JStr("1"), JStr("2026"), JStr("10"));
    ExampleItemOf(a, "1", "2026", "10");
    ExampleItemOf(b, "2", "2026", "10");
    ExampleItemOf(c, "1", "2025", "10");
    FilterFirstOfThree(a, b, c, keep);
    assert AllDicts([a, b, c]);
  }

  /** An item with string identifiers belongs to the edital whose
      identifiers are the same strings. */
  lemma ExampleItemOf(x: Json, cnpj: string, ano: string, numero: string)
    requires x == JObj(map["edital_cnpj" := JStr(cnpj), "edital_ano" := JStr(ano), "edital_numero" := JStr(numero)])
    ensures OfEdital(x, JStr("1"), JStr("2026"), JStr("10")) <==> cnpj == "1" && ano == "2026" && numero == "10"
  {
    assert Get(x.fields, "edital_cnpj") == JStr(cnpj);
    assert Get(x.fields, "edital_ano") == JStr(ano);
    assert Get(x.fields, "edital_numero") == JStr(numero);
  }
}

=== FILE: keys.dfy ===
/** The composite keys the services build to identify a stored record
    (`cnpj_ano_numero` for editais, `cnpj_ano_sequencial` for contratos) and
    the lookups by key. */
module Keys {
  import opened Opt
  import opened Text
  import opened Values
  import opened Lists

  /** The three `_generate_*_key` methods differ only in the fields that hold
      the year and the number: the backend and root edital services read
      `anoCompra`/`numeroCompra`, the contratos service
      `anoContrato`/`sequencialContrato`, and the Asset-Manager edital service
      `ano`/`numero`. */
  datatype KeyKind = Edital | Contrato | AssetEdital

  function YearField(kind: KeyKind): string {
    match kind
    case Edital => "anoCompra"
    case Contrato => "anoContrato"
    case AssetEdital => "ano"
  }

  function NumberField(kind: KeyKind): string {
    match kind
    case Edital => "numeroCompra"
    case Contrato => "sequencialContrato"
    case AssetEdital => "numero"
  }

  /** `r.get("orgaoEntidade", {}).get("cnpj", "") or r.get("cnpjOrgao", "")`;
      `None` where the nested `.get` raises because `orgaoEntidade` holds
      something other than a dict. */
  function CnpjPart(r: Record): (cnpj: Option<Json>)
    ensures cnpj.Some? <==> SubRecord(r, "orgaoEntidade").Some?
  {
    var org :- SubRecord(r, "orgaoEntidade");
    Some(Or(GetOr(org, "cnpj", JStr("")), GetOr(r, "cnpjOrgao", JStr(""))))
  }

  /** `_generate_*_key(e)`: the three parts rendered with `str()` and joined
      by '_'; `None` where the method raises (a record that is not a dict,
      or an `orgaoEntidade` that is not one). */
  function RecordKey(kind: KeyKind, e: Json): (key: Option<string>)
    ensures key.Some? <==> e.JObj? && SubRecord(e.fields, "orgaoEntidade").Some?
  {
    match e
    case JObj(r) =>
      var cnpj :- CnpjPart(r);
      Some(Key3(Str(cnpj), Str(GetOr(r, YearField(kind), JStr(""))), Str(GetOr(r, NumberField(kind), JStr("")))))
    case _ => None
  }

  /** The key parts as the services read them: the organisation's CNPJ wins
      when it is truthy, `cnpjOrgao` is the fallback, and a missing year or
      number is the empty string. */
  lemma KeyParts(kind: KeyKind, r: Record)
    requires SubRecord(r, "orgaoEntidade").Some?
    ensures var org := SubRecord(r, "orgaoEntidade").value;
      var cnpj := if "cnpj" in org && Truthy(org["cnpj"]) then org["cnpj"]
                  else if "cnpjOrgao" in r then r["cnpjOrgao"] else JStr("");
      var year := if YearField(kind) in r then Str(r[YearField(kind)]) else "";
      var number := if NumberField(kind) in r then Str(r[NumberField(kind)]) else "";
      RecordKey(kind, JObj(r)) == Some(Str(cnpj) + "_" + year + "_" + number)
  {
  }

  /** The key splits back into its three parts when none of them holds '_',
      which is what the edital routes rely on when they split a key. */
  lemma KeyRoundTrip(kind: KeyKind, e: Json)
    requires RecordKey(kind, e).Some?
    requires var r := e.fields;
      && '_' !in Str(CnpjPart(r).value)
      && '_' !in Str(GetOr(r, YearField(kind), JStr("")))
      && '_' !in Str(GetOr(r, NumberField(kind), JStr("")))
    ensures var r := e.fields;
      Split(RecordKey(kind, e).value, '_')
        == [Str(CnpjPart(r).value), Str(GetOr(r, YearField(kind), JStr(""))), Str(GetOr(r, NumberField(kind), JStr("")))]
  {
    var r := e.fields;
    Key3Split(Str(CnpjPart(r).value), Str(GetOr(r, YearField(kind), JStr(""))), Str(GetOr(r, NumberField(kind), JStr(""))));
  }

  /** The two documented examples: the organisation's CNPJ is preferred over
      `cnpjOrgao`, and `cnpjOrgao` is used when there is no organisation. */
  lemma KeyExamples()
    ensures RecordKey(Edital, JObj(map["orgaoEntidade" := JObj(map["cnpj" := JStr("123")]),
                                       "cnpjOrgao" := JStr("999"),
                                       "anoCompra" := JStr("2026"), "numeroCompra" := JStr("10")]))
            == Some("123_2026_10")
    ensures RecordKey(Edital, JObj(map["cnpjOrgao" := JStr("555"),
                                       "anoCompra" := JStr("2025"), "numeroCompra" := JStr("7")]))
            == Some("555_2025_7")
  {
    KeyExampleOrg();
    KeyExampleFallback();
  }

  lemma KeyExampleOrg()
    ensures RecordKey(Edital, JObj(map["orgaoEntidade" := JObj(map["cnpj" := JStr("123")]),
                                       "cnpjOrgao" := JStr("999"),
                                       "anoCompra" := JStr("2026"), "numeroCompra" := JStr("10")]))
            == Some("123_2026_10")
  {
    var org := map["cnpj" := JStr("123")];
    var r := map["orgaoEntidade" := JObj(org), "cnpjOrgao" := JStr("999"),
                 "anoCompra" := JStr("2026"), "numeroCompra" := JStr("10")];
    assert SubRecord(r, "orgaoEntidade") == Some(org);
    assert CnpjPart(r) == Some(JStr("123"));
    assert GetOr(r, "anoCompra", JStr("")) == JStr("2026");
    assert GetOr(r, "numeroCompra", JStr("")) == JStr("10");
    assert RecordKey(Edital, JObj(r)) == Some(Key3("123", "2026", "10"));
    assert Key3("123", "2026", "10") == "123_2026_10";
  }

  lemma KeyExampleFallback()
    ensures RecordKey(Edital, JObj(map["cnpjOrgao" := JStr("555"),
                                       "anoCompra" := JStr("2025"), "numeroCompra" := JStr("7")]))
            == Some("555_2025_7")
  {
    var r := map["cnpjOrgao" := JStr("555"), "anoCompra" := JStr("2025"), "numeroCompra" := JStr("7")];
    assert "orgaoEntidade" !in r;
    assert CnpjPart(r) == Some(JStr("555"));
    assert GetOr(r, "anoCompra", JStr("")) == JStr("2025");
    assert GetOr(r, "numeroCompra", JStr("")) == JStr("7");
    assert RecordKey(Edital, JObj(r)) == Some(Key3("555", "2025", "7"));
    assert Key3("555", "2025", "7") == "555_2025_7";
  }

  /** The keys of all records, or `None` as soon as one of them raises. */
  function AllKeys(kind: KeyKind, xs: seq<Json>): (keys: Option<seq<string>>)
    ensures keys.Some? ==> |keys.value| == |xs|
    ensures keys.Some? ==> forall i :: 0 <= i < |xs| ==> RecordKey(kind, xs[i]) == Some(keys.value[i])
    ensures keys.None? <==> exists i :: 0 <= i < |xs| && RecordKey(kind, xs[i]).None?
  {
    MapOpt(xs, e => RecordKey(kind, e))
  }

  /** The keys of a one-record list. */
  lemma OneKey(kind: KeyKind, a: Json)
    requires RecordKey(kind, a).Some?
    ensures AllKeys(kind, [a]) == Some([RecordKey(kind, a).value])
  {
    var r := AllKeys(kind, [a]);
    assert [a][0] == a;
    assert r.Some? && |r.value| == 1 && r.value[0] == RecordKey(kind, a).value;
    assert r.value == [RecordKey(kind, a).value];
  }

  /** The keys of a record stored twice. */
  lemma TwoKeys(kind: KeyKind, a: Json)
    requires RecordKey(kind, a).Some?
    ensures AllKeys(kind, [a, a]) == Some([RecordKey(kind, a).value, RecordKey(kind, a).value])
  {
    var r := AllKeys(kind, [a, a]);
    assert [a, a][0] == a && [a, a][1] == a;
    assert r.Some? && |r.value| == 2 && r.value[0] == RecordKey(kind, a).value && r.value[1] == RecordKey(kind, a).value;
    assert r.value == [RecordKey(kind, a).value, RecordKey(kind, a).value];
  }

  /** Every record before position `i` has a key, and none of them is `key`. */
  predicate NoMatchBefore(kind: KeyKind, xs: seq<Json>, key: string, i: nat) {
    i <= |xs| && forall j :: 0 <= j < i ==> RecordKey(kind, xs[j]).Some? && RecordKey(kind, xs[j]) != Some(key)
  }

  /** Position `i` holds the first record whose key is `key`. */
  predicate FirstMatchAt(kind: KeyKind, xs: seq<Json>, key: string, i: nat) {
    i < |xs| && RecordKey(kind, xs[i]) == Some(key) && NoMatchBefore(kind, xs, key, i)
  }

  /** `get_edital_by_key` / `get_contrato_by_key`: the first stored record
      whose key is `key`, `Some(None)` when there is none, and `None` when
      computing the key of a record before the match raises. */
  function FindByKey(kind: KeyKind, xs: seq<Json>, key: string): (found: Option<Option<Json>>)
    ensures found.Some? && found.value.Some? ==>
      exists i: nat :: FirstMatchAt(kind, xs, key, i) && xs[i] == found.value.value
    ensures found == Some(None) <==> NoMatchBefore(kind, xs, key, |xs|)
  {
    if |xs| == 0 then Some(None)
    else
      var k :- RecordKey(kind, xs[0]);
      if k == key then
        assert FirstMatchAt(kind, xs, key, 0);
        Some(Some(xs[0]))
      else
        var found := FindByKey(kind, xs[1..], key);
        MatchPastHead(kind, xs, key);
        if found.Some? && found.value.Some? then
          var i: nat :| FirstMatchAt(kind, xs[1..], key, i) && xs[1..][i] == found.value.value;
          assert FirstMatchAt(kind, xs, key, i + 1);
          found
        else found
  }

  /** Past a head record whose key is computed and differs from `key`,
      positions shift by one. */
  lemma MatchPastHead(kind: KeyKind, xs: seq<Json>, key: string)
    requires |xs| > 0 && RecordKey(kind, xs[0]).Some? && RecordKey(kind, xs[0]) != Some(key)
    ensures forall i: nat :: FirstMatchAt(kind, xs[1..], key, i) ==> FirstMatchAt(kind, xs, key, i + 1)
    ensures NoMatchBefore(kind, xs[1..], key, |xs| - 1) <==> NoMatchBefore(kind, xs, key, |xs|)
  {
    assert forall j :: 1 <= j < |xs| ==> xs[j] == xs[1..][j - 1];
  }

  /** The lookup returns the record at the first position whose key matches,
      when every key up to that position can be computed. */
  lemma {:induction false} FindByKeyFirst(kind: KeyKind, xs: seq<Json>, key: string, i: nat)
    requires i < |xs| && RecordKey(kind, xs[i]) == Some(key)
    requires forall j :: 0 <= j < i ==> RecordKey(kind, xs[j]).Some? && RecordKey(kind, xs[j]) != Some(key)
    ensures FindByKey(kind, xs, key) == Some(Some(xs[i]))
  {
    if i > 0 {
      assert forall j :: 0 <= j < i - 1 ==> xs[1..][j] == xs[j + 1];
      FindByKeyFirst(kind, xs[1..], key, i - 1);
    }
  }
}

=== FILE: lists.dfy ===
/** Order-preserving filters and concatenation of lists, the two shapes most
    of the services' list transforms take. */
module Lists {
  import opened Opt

  /** The elements of `s` that satisfy `p`, in their order in `s`. */
  function Filter<T(!new)>(s: seq<T>, p: T -> bool): (r: seq<T>)
    ensures |r| <= |s|
    ensures forall i :: 0 <= i < |r| ==> p(r[i])
    ensures forall x {:trigger x in r} :: x in r <==> x in s && p(x)
  {
    if |s| == 0 then []
    else
      var init := Filter(s[..|s| - 1], p);
      assert forall x :: x in s <==> x in s[..|s| - 1] || x == s[|s| - 1] by {
        assert s == s[..|s| - 1] + [s[|s| - 1]];
      }
      if p(s[|s| - 1]) then init + [s[|s| - 1]] else init
  }

  /** Filtering distributes over concatenation, so it keeps the relative
      order of the elements it keeps. */
  lemma {:induction false} FilterAppend<T(!new)>(a: seq<T>, b: seq<T>, p: T -> bool)
    ensures Filter(a + b, p) == Filter(a, p) + Filter(b, p)
    decreases |b|
  {
    if |b| == 0 {
      assert a + b == a;
    } else {
      var b0 := b[..|b| - 1];
      assert (a + b)[..|a + b| - 1] == a + b0;
      FilterAppend(a, b0, p);
    }
  }

  /** A list whose every element satisfies `p` is its own filter, and a
      filter keeps exactly the whole list only then. */
  lemma {:induction false} FilterAll<T(!new)>(s: seq<T>, p: T -> bool)
    ensures Filter(s, p) == s <==> forall i :: 0 <= i < |s| ==> p(s[i])
    decreases |s|
  {
    if |s| > 0 {
      var init := s[..|s| - 1];
      FilterAll(init, p);
      assert s == init + [s[|s| - 1]];
      if Filter(s, p) == s {
        assert Filter(init, p) + [s[|s| - 1]] == s;
        assert Filter(init, p) == init;
      }
    }
  }

  /** Filtering twice by the same test is filtering once. */
  lemma FilterIdempotent<T(!new)>(s: seq<T>, p: T -> bool)
    ensures Filter(Filter(s, p), p) == Filter(s, p)
  {
    var r := Filter(s, p);
    assert forall i :: 0 <= i < |r| ==> r[i] in r;
    FilterAll(r, p);
  }

  /** The lists of `ls` one after another. */
  function Flatten<T>(ls: seq<seq<T>>): (r: seq<T>)
    ensures |ls| == 0 ==> r == []
  {
    if |ls| == 0 then [] else Flatten(ls[..|ls| - 1]) + ls[|ls| - 1]
  }

  /** What each element contributes, in order; nothing where `f` fails. */
  function Outputs<T, U>(xs: seq<T>, f: T -> Option<seq<U>>): (ls: seq<seq<U>>)
    ensures |ls| == |xs|
    ensures forall i :: 0 <= i < |xs| ==> ls[i] == f(xs[i]).GetOr([])
  {
    seq(|xs|, i requires 0 <= i < |xs| => f(xs[i]).GetOr([]))
  }

  /** `for x in xs: out.extend(f(x))`: the contributions in order, or `None`
      as soon as one element fails. */
  function CollectAll<T, U>(xs: seq<T>, f: T -> Option<seq<U>>): (r: Option<seq<U>>)
    ensures r.None? <==> exists i :: 0 <= i < |xs| && f(xs[i]).None?
    ensures r.Some? ==> r.value == Flatten(Outputs(xs, f))
    decreases |xs|
  {
    if |xs| == 0 then Some([])
    else
      var n := |xs| - 1;
      assert forall i :: 0 <= i < n ==> xs[..n][i] == xs[i];
      assert Outputs(xs, f)[..n] == Outputs(xs[..n], f);
      match CollectAll(xs[..n], f)
      case None => None
      case Some(front) =>
        match f(xs[n])
        case None => None
        case Some(last) => Some(front + last)
  }

  lemma {:induction false} FlattenAppend<T>(a: seq<seq<T>>, b: seq<seq<T>>)
    ensures Flatten(a + b) == Flatten(a) + Flatten(b)
    decreases |b|
  {
    if |b| == 0 {
      assert a + b == a;
    } else {
      var b0 := b[..|b| - 1];
      assert (a + b)[..|a + b| - 1] == a + b0;
      FlattenAppend(a, b0);
    }
  }

  /** Regrouping a concatenation of three parts. */
  lemma AppendRegroup<T>(a: seq<T>, b: seq<T>, c: seq<T>, abc: seq<T>, bc: seq<T>)
    requires abc == (a + b) + c && bc == b + c
    ensures abc == a + bc
  {
  }

  /** Flattening a list whose first element is `x`. */
  lemma FlattenCons<T>(x: seq<T>, ls: seq<seq<T>>, all: seq<seq<T>>)
    requires all == [x] + ls
    ensures Flatten(all) == x + Flatten(ls)
  {
    FlattenAppend([x], ls);
    assert [x][..0] == [];
  }

  /** Every element of a flattened list comes from one of the lists. */
  lemma {:induction false} FlattenMember<T>(ls: seq<seq<T>>, x: T)
    ensures x in Flatten(ls) <==> exists i :: 0 <= i < |ls| && x in ls[i]
    decreases |ls|
  {
    if |ls| > 0 {
      var init := ls[..|ls| - 1];
      FlattenMember(init, x);
      if x in Flatten(ls) && x !in ls[|ls| - 1] {
        var i :| 0 <= i < |init| && x in init[i];
        assert ls[i] == init[i];
      }
      if exists i :: 0 <= i < |ls| && x in ls[i] {
        var i :| 0 <= i < |ls| && x in ls[i];
        if i < |ls| - 1 {
          assert init[i] == ls[i];
        }
      }
    }
  }

  /** The first `Some` that `f` gives along `xs`, trying the elements in order. */
  function FirstSome<T, U(==)>(xs: seq<T>, f: T -> Option<U>): (r: Option<U>)
    ensures r.None? <==> forall i :: 0 <= i < |xs| ==> f(xs[i]).None?
    ensures r.Some? ==> exists i :: 0 <= i < |xs| && r == f(xs[i]) && FirstSomeAt(xs, f, i)
  {
    if |xs| == 0 then None
    else if f(xs[0]).Some? then
      assert FirstSomeAt(xs, f, 0);
      f(xs[0])
    else
      var r := FirstSome(xs[1..], f);
      assert forall i :: 1 <= i < |xs| ==> xs[i] == xs[1..][i - 1];
      if r.Some? then
        var i :| 0 <= i < |xs[1..]| && r == f(xs[1..][i]) && FirstSomeAt(xs[1..], f, i);
        assert FirstSomeAt(xs, f, i + 1);
        r
      else r
  }

  /** `f` gives nothing on the elements before index `i`. */
  predicate FirstSomeAt<T, U>(xs: seq<T>, f: T -> Option<U>, i: nat) {
    i <= |xs| && forall j :: 0 <= j < i ==> f(xs[j]).None?
  }

  /** The keys of the elements of `xs`. */
  function KeySet<T, K>(xs: seq<T>, key: T -> K): set<K> {
    set i | 0 <= i < |xs| :: key(xs[i])
  }

  /** One more element of a prefix adds its key. */
  lemma KeySetSnoc<T, K>(xs: seq<T>, i: nat, key: T -> K)
    requires i < |xs|
    ensures KeySet(xs[..i + 1], key) == KeySet(xs[..i], key) + {key(xs[i])}
  {
    var p := xs[..i + 1];
    forall k | k in KeySet(p, key)
      ensures k in KeySet(xs[..i], key) + {key(xs[i])}
    {
      var j :| 0 <= j < i + 1 && key(p[j]) == k;
      if j < i {
        assert p[j] == xs[..i][j];
      }
    }
    forall k | k in KeySet(xs[..i], key)
      ensures k in KeySet(p, key)
    {
      var j :| 0 <= j < i && key(xs[..i][j]) == k;
      assert p[j] == xs[..i][j];
    }
    assert p[i] == xs[i];
  }

  /** Element `i` of `xs` is new: its key is neither in `seen` nor the key
      of an earlier element. */
  predicate NewAt<T, K(==)>(seen: set<K>, xs: seq<T>, key: T -> K, i: nat)
    requires i < |xs|
  {
    key(xs[i]) !in seen && forall j :: 0 <= j < i ==> key(xs[j]) != key(xs[i])
  }

  /** The new elements of `xs`, in order: a de-duplication by key that keeps
      the first occurrence and drops the keys already in `seen`. */
  function Unseen<T, K(==)>(seen: set<K>, xs: seq<T>, key: T -> K): seq<T> {
    if |xs| == 0 then []
    else
      var n := |xs| - 1;
      Unseen(seen, xs[..n], key) + (if NewAt(seen, xs, key, n) then [xs[n]] else [])
  }

  /** One more element: it is appended exactly when its key is not among
      `seen` and the keys before it. */
  lemma UnseenStep<T, K>(seen: set<K>, xs: seq<T>, key: T -> K, i: nat)
    requires i < |xs|
    ensures Unseen(seen, xs[..i + 1], key)
      == Unseen(seen, xs[..i], key) + (if key(xs[i]) in seen + KeySet(xs[..i], key) then [] else [xs[i]])
    ensures KeySet(xs[..i + 1], key) == KeySet(xs[..i], key) + {key(xs[i])}
  {
    var prefix := xs[..i + 1];
    assert prefix[..i] == xs[..i];
    assert forall j :: 0 <= j < i ==> prefix[j] == xs[..i][j];
    if key(xs[i]) in KeySet(xs[..i], key) {
      var j :| 0 <= j < i && key(xs[..i][j]) == key(xs[i]);
      assert key(prefix[j]) == key(prefix[i]);
    }
  }

  /** Only elements of `xs` are kept, and none whose key is in `seen`. */
  lemma {:induction false} UnseenFrom<T, K>(seen: set<K>, xs: seq<T>, key: T -> K)
    ensures forall x :: x in Unseen(seen, xs, key) ==> x in xs && key(x) !in seen
    decreases |xs|
  {
    if |xs| > 0 {
      var n := |xs| - 1;
      UnseenFrom(seen, xs[..n], key);
      assert forall x :: x in xs[..n] ==> x in xs;
    }
  }

  /** The kept elements have pairwise distinct keys. */
  lemma {:induction false} UnseenNoRepeat<T, K>(seen: set<K>, xs: seq<T>, key: T -> K)
    ensures DistinctKeys(Unseen(seen, xs, key), key)
    decreases |xs|
  {
    if |xs| > 0 {
      var n := |xs| - 1;
      var init := xs[..n];
      UnseenNoRepeat(seen, init, key);
      UnseenFrom(seen, init, key);
      var u0 := Unseen(seen, init, key);
      if NewAt(seen, xs, key, n) {
        forall i | 0 <= i < |u0|
          ensures key(u0[i]) != key(xs[n])
        {
          assert u0[i] in init;
          var j :| 0 <= j < n && init[j] == u0[i];
        }
        var u := u0 + [xs[n]];
        assert forall i :: 0 <= i < |u0| ==> u[i] == u0[i];
      }
    }
  }

  /** Every element's key is in `seen` or the key of a kept element. */
  lemma {:induction false} UnseenCovers<T, K>(seen: set<K>, xs: seq<T>, key: T -> K)
    ensures seen + KeySet(xs, key) == seen + KeySet(Unseen(seen, xs, key), key)
    decreases |xs|
  {
    if |xs| > 0 {
      var n := |xs| - 1;
      var init := xs[..n];
      UnseenCovers(seen, init, key);
      assert xs[..n + 1] == xs;
      UnseenStep(seen, xs, key, n);
      var u0 := Unseen(seen, init, key);
      if NewAt(seen, xs, key, n) {
        var u := u0 + [xs[n]];
        assert u[..|u0|] == u0;
        UnseenStep(seen, u, key, |u0|);
        assert u[..|u0| + 1] == u;
      } else {
        assert key(xs[n]) in seen + KeySet(init, key) by {
          if key(xs[n]) !in seen {
            var j :| 0 <= j < n && key(xs[j]) == key(xs[n]);
            assert key(init[j]) in KeySet(init, key);
          }
        }
        assert Unseen(seen, xs, key) == u0;
      }
    }
  }

  /** What the de-duplication keeps: the kept elements have pairwise distinct
      keys, none of them in `seen`; every element's key is in `seen` or on a
      kept element; and only elements of `xs` are kept. */
  lemma UnseenKeys<T, K>(seen: set<K>, xs: seq<T>, key: T -> K)
    ensures var u := Unseen(seen, xs, key);
      forall i :: 0 <= i < |u| ==> key(u[i]) !in seen
    ensures var u := Unseen(seen, xs, key);
      forall i, j :: 0 <= i < j < |u| ==> key(u[i]) != key(u[j])
    ensures seen + KeySet(xs, key) == seen + KeySet(Unseen(seen, xs, key), key)
    ensures forall x :: x in Unseen(seen, xs, key) ==> x in xs
  {
    UnseenFrom(seen, xs, key);
    UnseenNoRepeat(seen, xs, key);
    UnseenCovers(seen, xs, key);
  }

  /** The keys of the elements of `xs` are pairwise distinct. */
  predicate DistinctKeys<T, K(==)>(xs: seq<T>, key: T -> K) {
    forall i, j :: 0 <= i < j < |xs| ==> key(xs[i]) != key(xs[j])
  }

  /** Two lists with distinct keys, none shared, concatenate to one with
      distinct keys holding the keys of both. */
  lemma AppendKeys<T, K>(a: seq<T>, b: seq<T>, key: T -> K)
    requires DistinctKeys(a, key) && DistinctKeys(b, key)
    requires forall i :: 0 <= i < |b| ==> key(b[i]) !in KeySet(a, key)
    ensures DistinctKeys(a + b, key)
    ensures KeySet(a + b, key) == KeySet(a, key) + KeySet(b, key)
  {
    var ab := a + b;
    forall i, j | 0 <= i < j < |ab|
      ensures key(ab[i]) != key(ab[j])
    {
      if j >= |a| && i < |a| {
        assert key(ab[i]) in KeySet(a, key);
        assert ab[j] == b[j - |a|];
      } else if i >= |a| {
        assert ab[i] == b[i - |a|] && ab[j] == b[j - |a|];
      }
    }
    forall k | k in KeySet(ab, key)
      ensures k in KeySet(a, key) + KeySet(b, key)
    {
      var i :| 0 <= i < |ab| && key(ab[i]) == k;
      if i >= |a| {
        assert ab[i] == b[i - |a|];
      }
    }
    forall k | k in KeySet(a, key) + KeySet(b, key)
      ensures k in KeySet(ab, key)
    {
      if k in KeySet(a, key) {
        var i :| 0 <= i < |a| && key(a[i]) == k;
        assert ab[i] == a[i];
      } else {
        var i :| 0 <= i < |b| && key(b[i]) == k;
        assert ab[|a| + i] == b[i];
      }
    }
  }

  /** On a list whose keys are already distinct, de-duplication only drops
      the elements whose key was seen before. */
  lemma {:induction false} UnseenDistinct<T(!new), K>(seen: set<K>, xs: seq<T>, key: T -> K, unseen: T -> bool)
    requires DistinctKeys(xs, key)
    requires forall x :: unseen(x) == (key(x) !in seen)
    ensures Unseen(seen, xs, key) == Filter(xs, unseen)
    decreases |xs|
  {
    if |xs| > 0 {
      var n := |xs| - 1;
      UnseenDistinct(seen, xs[..n], key, unseen);
      assert NewAt(seen, xs, key, n) <==> key(xs[n]) !in seen;
    }
  }

  /** The de-duplication loop: an element is appended, and its key recorded,
      when its key has not been seen. */
  method AppendUnseen<T, K(==)>(stored: seq<T>, seen: set<K>, items: seq<T>, key: T -> K)
    returns (all: seq<T>, keys: set<K>)
    ensures all == stored + Unseen(seen, items, key)
    ensures keys == seen + KeySet(items, key)
  {
    all, keys := stored, seen;
    for i := 0 to |items|
      invariant all == stored + Unseen(seen, items[..i], key)
      invariant keys == seen + KeySet(items[..i], key)
    {
      UnseenStep(seen, items, key, i);
      var k := key(items[i]);
      if k !in keys {
        all := all + [items[i]];
        keys := keys + {k};
      }
    }
    assert items[..|items|] == items;
  }

  /** The elements a test that may raise accepts: those it gives `Some(true)`. */
  function Accepts<T>(p: T -> Option<bool>): T -> bool {
    x => p(x) == Some(true)
  }

  /** A filter whose test may raise: the elements whose test gives
      `Some(true)`, in order, or `None` when the test raises on any element. */
  function FilterOpt<T(!new)>(s: seq<T>, p: T -> Option<bool>): (r: Option<seq<T>>)
    ensures r.None? <==> exists i :: 0 <= i < |s| && p(s[i]).None?
    ensures r.Some? ==> r.value == Filter(s, Accepts(p))
  {
    if |s| == 0 then Some([])
    else
      var n := |s| - 1;
      assert forall i :: 0 <= i < n ==> s[..n][i] == s[i];
      var init :- FilterOpt(s[..n], p);
      var keep :- p(s[n]);
      Some(init + (if keep then [s[n]] else []))
  }

  /** `[f(x) for x in xs]` where `f` may raise: `None` when it raises on
      some element, otherwise the results in order. */
  function MapOpt<T, U>(xs: seq<T>, f: T -> Option<U>): (r: Option<seq<U>>)
    ensures r.None? <==> exists i :: 0 <= i < |xs| && f(xs[i]).None?
    ensures r.Some? ==> |r.value| == |xs| && forall i :: 0 <= i < |xs| ==> f(xs[i]) == Some(r.value[i])
  {
    if |xs| == 0 then Some([])
    else
      var n := |xs| - 1;
      assert forall i :: 0 <= i < n ==> xs[..n][i] == xs[i];
      var init :- MapOpt(xs[..n], f);
      var last :- f(xs[n]);
      Some(init + [last])
  }

  /** The first position of `x` in `xs` (Python's `xs.index(x)`), `None`
      where `x` does not occur. */
  function FirstIndex<T(==)>(xs: seq<T>, x: T): (r: Option<nat>)
    ensures r.None? <==> x !in xs
    ensures r.Some? ==> r.value < |xs| && xs[r.value] == x && forall j :: 0 <= j < r.value ==> xs[j] != x
  {
    if |xs| == 0 then None
    else if xs[0] == x then Some(0)
    else
      var r := FirstIndex(xs[1..], x);
      assert forall j :: 1 <= j < |xs| ==> xs[j] == xs[1..][j - 1];
      assert x in xs[1..] ==> x in xs;
      if r.Some? then Some(r.value + 1) else None
  }

  /** The last position of `x` in `xs` (Python's `s.rfind(x)`), `None`
      where `x` does not occur. */
  function LastIndex<T(==)>(xs: seq<T>, x: T): (r: Option<nat>)
    ensures r.None? <==> x !in xs
    ensures r.Some? ==> r.value < |xs| && xs[r.value] == x && forall j :: r.value < j < |xs| ==> xs[j] != x
  {
    if |xs| == 0 then None
    else if xs[|xs| - 1] == x then Some(|xs| - 1)
    else
      var r := LastIndex(xs[..|xs| - 1], x);
      assert forall j :: 0 <= j < |xs| - 1 ==> xs[j] == xs[..|xs| - 1][j];
      assert x in xs ==> x in xs[..|xs| - 1];
      r
  }

  /** Two tests that never hold together keep, between them, at most the
      whole list. */
  lemma {:induction false} FilterDisjoint<T(!new)>(s: seq<T>, p: T -> bool, q: T -> bool)
    requires forall x :: !(p(x) && q(x))
    ensures |Filter(s, p)| + |Filter(s, q)| <= |s|
    decreases |s|
  {
    if |s| > 0 {
      FilterDisjoint(s[..|s| - 1], p, q);
    }
  }

  /** Two tests that agree position by position keep equally many elements. */
  lemma {:induction false} FilterCountPointwise<T(!new), U(!new)>(a: seq<T>, b: seq<U>, p: T -> bool, q: U -> bool)
    requires |a| == |b|
    requires forall i :: 0 <= i < |a| ==> p(a[i]) == q(b[i])
    ensures |Filter(a, p)| == |Filter(b, q)|
    decreases |a|
  {
    if |a| > 0 {
      var n := |a| - 1;
      assert forall i :: 0 <= i < n ==> a[..n][i] == a[i] && b[..n][i] == b[i];
      FilterCountPointwise(a[..n], b[..n], p, q);
      assert p(a[n]) == q(b[n]);
      assert Filter(a, p) == if p(a[n]) then Filter(a[..n], p) + [a[n]] else Filter(a[..n], p);
      assert Filter(b, q) == if q(b[n]) then Filter(b[..n], q) + [b[n]] else Filter(b[..n], q);
    }
  }

  /** Of three elements, keeping only the first. */
  lemma FilterFirstOfThree<T(!new)>(x: T, y: T, z: T, p: T -> bool)
    requires p(x) && !p(y) && !p(z)
    ensures Filter([x, y, z], p) == [x]
  {
    var s := [x, y, z];
    assert s[..0] == [] && s[..3] == s;
    FilterPrefixSnoc(s, 0, p);
    FilterPrefixSnoc(s, 1, p);
    FilterPrefixSnoc(s, 2, p);
  }

  /** Filtering one more element of a prefix appends it or not. */
  lemma FilterPrefixSnoc<T(!new)>(s: seq<T>, k: nat, p: T -> bool)
    requires k < |s|
    ensures Filter(s[..k + 1], p) == if p(s[k]) then Filter(s[..k], p) + [s[k]] else Filter(s[..k], p)
  {
    assert s[..k + 1][..k] == s[..k];
  }

  /** A test no element passes keeps nothing. */
  lemma FilterNone<T(!new)>(s: seq<T>, p: T -> bool)
    requires forall i :: 0 <= i < |s| ==> !p(s[i])
    ensures Filter(s, p) == []
  {
  }
}

=== FILE: maintenance.dfy ===
/** The maintenance scripts over the stored editais and items: removing the
    editais whose proposal period has closed together with their items,
    giving every edital a fresh identifier and linking the items to it,
    putting `_edital_id` first in every record, and removing the identifier
    fields again. */
module Maintenance {
  import opened Opt
  import opened Text
  import opened Lists
  import opened Values
  import opened Dicts

  /** The two files a script reads and rewrites. */
  datatype Store = Store(editais: seq<Json>, itens: seq<Json>)

  // ---------------------------------------------------------------------------
  // Removing closed editais
  // ---------------------------------------------------------------------------

  /** What the two parse attempts make of `dataEncerramentoProposta`: a time
      without an offset, or one with an offset (`fromisoformat` accepts
      those), as a number on one time line. */
  datatype Stamp = Naive(t: int) | Aware(t: int)

  /** Whether the loop keeps an edital whose closing date is `d`: a falsy
      date and a date neither format parses keep it; a parsed date keeps it
      when it is not before `now`; comparing a time with an offset with the
      naive `now` raises (`None`). */
  function StillOpen(d: Json, parse: Json -> Option<Stamp>, now: int): Option<bool> {
    if !Truthy(d) then Some(true)
    else match parse(d)
      case None => Some(true)
      case Some(Naive(t)) => Some(t >= now)
      case Some(Aware(_)) => None
  }

  /** The key recorded for a kept edital: the organisation's CNPJ or else
      `cnpjOrgao`, `anoCompra` or else `ano`, `numeroCompra` or else
      `numero`, with no default, so a missing part reads "None"; `None` where
      `orgaoEntidade` is stored but is not a dict. */
  function ActiveKey(r: Record): (key: Option<string>)
    ensures key.Some? <==> SubRecord(r, "orgaoEntidade").Some?
  {
    var org :- SubRecord(r, "orgaoEntidade");
    Some(Key3(Str(Or(Get(org, "cnpj"), Get(r, "cnpjOrgao"))),
              Str(Or(Get(r, "anoCompra"), Get(r, "ano"))),
              Str(Or(Get(r, "numeroCompra"), Get(r, "numero")))))
  }

  /** The loop's verdict on one edital: `Some(keep)`, or `None` where it
      raises (an edital that is not a dict, a time with an offset, or a kept
      edital whose key cannot be computed). */
  function Verdict(e: Json, parse: Json -> Option<Stamp>, now: int): Option<bool> {
    if !e.JObj? then None
    else
      var keep :- StillOpen(Get(e.fields, "dataEncerramentoProposta"), parse, now);
      if keep && ActiveKey(e.fields).None? then None else Some(keep)
  }

  function Verdicts(parse: Json -> Option<Stamp>, now: int): Json -> Option<bool> {
    e => Verdict(e, parse, now)
  }

  /** The recorded key of a kept edital. */
  function ActiveKeyOf(e: Json): string {
    if e.JObj? && ActiveKey(e.fields).Some? then ActiveKey(e.fields).value else ""
  }

  /** The key an item is looked up by: its three `edital_*` fields. */
  function ItemLinkKey(item: Json): string {
    if item.JObj? then
      Key3(Str(Get(item.fields, "edital_cnpj")), Str(Get(item.fields, "edital_ano")), Str(Get(item.fields, "edital_numero")))
    else ""
  }

  function LinkedTo(keys: set<string>): Json -> bool {
    it => ItemLinkKey(it) in keys
  }

  /** `remove_expired_editais.main` after loading, with the current time
      `now` and the two parse attempts `parse` as parameters: the editais the
      loop keeps, in order, and the items whose key is among the kept
      editais' keys; `None` where the script raises. */
  function RemoveExpired(editais: seq<Json>, itens: seq<Json>, parse: Json -> Option<Stamp>, now: int): (r: Option<Store>)
    ensures r.None? <==>
      (exists i :: 0 <= i < |editais| && Verdict(editais[i], parse, now).None?) || !AllDicts(itens)
    ensures r.Some? ==> r.value.editais == Filter(editais, Accepts(Verdicts(parse, now)))
    ensures r.Some? ==> r.value.itens == Filter(itens, LinkedTo(KeySet(r.value.editais, ActiveKeyOf)))
  {
    var ativos :- FilterOpt(editais, Verdicts(parse, now));
    var kept :- FilterRecords(itens, LinkedTo(KeySet(ativos, ActiveKeyOf)));
    Some(Store(ativos, kept))
  }

  /** The editais that survive: exactly those that are dicts whose closing
      date is falsy, unparsable, or a time without an offset not before
      `now`. */
  lemma RemoveExpiredKeepsEditais(editais: seq<Json>, itens: seq<Json>, parse: Json -> Option<Stamp>, now: int, e: Json)
    requires RemoveExpired(editais, itens, parse, now).Some?
    ensures e in RemoveExpired(editais, itens, parse, now).value.editais <==>
      && e in editais && e.JObj?
      && var d := Get(e.fields, "dataEncerramentoProposta");
         !Truthy(d) || parse(d).None? || (parse(d).value.Naive? && parse(d).value.t >= now)
  {
    if e in editais {
      var i :| 0 <= i < |editais| && editais[i] == e;
      assert Verdict(e, parse, now).Some?;
    }
  }

  /** The items that survive: exactly those whose key is the key of a kept
      edital. */
  lemma RemoveExpiredKeepsItens(editais: seq<Json>, itens: seq<Json>, parse: Json -> Option<Stamp>, now: int, it: Json)
    requires RemoveExpired(editais, itens, parse, now).Some?
    ensures var r := RemoveExpired(editais, itens, parse, now).value;
      it in r.itens <==> it in itens && exists e :: e in r.editais && e.JObj? && ActiveKey(e.fields) == Some(ItemLinkKey(it))
  {
    var r := RemoveExpired(editais, itens, parse, now).value;
    var keys := KeySet(r.editais, ActiveKeyOf);
    var k := ItemLinkKey(it);
    assert it in r.itens <==> it in itens && k in keys;
    if k in keys {
      var i :| 0 <= i < |r.editais| && ActiveKeyOf(r.editais[i]) == k;
      var e := r.editais[i];
      assert e in r.editais;
      KeptHasKey(e, parse, now);
    }
    if exists e :: e in r.editais && e.JObj? && ActiveKey(e.fields) == Some(k) {
      var e :| e in r.editais && e.JObj? && ActiveKey(e.fields) == Some(k);
      var i :| 0 <= i < |r.editais| && r.editais[i] == e;
      assert ActiveKeyOf(r.editais[i]) in keys;
    }
  }

  /** A kept edital is a dict whose key can be computed. */
  lemma KeptHasKey(e: Json, parse: Json -> Option<Stamp>, now: int)
    requires Accepts(Verdicts(parse, now))(e)
    ensures e.JObj? && ActiveKey(e.fields) == Some(ActiveKeyOf(e))
  {
  }

  /** Running the script again over its own output removes nothing more. */
  lemma RemoveExpiredIdempotent(editais: seq<Json>, itens: seq<Json>, parse: Json -> Option<Stamp>, now: int)
    requires RemoveExpired(editais, itens, parse, now).Some?
    ensures var r := RemoveExpired(editais, itens, parse, now).value;
      RemoveExpired(r.editais, r.itens, parse, now) == Some(r)
  {
    var r := RemoveExpired(editais, itens, parse, now).value;
    KeptEditaisStay(editais, r.editais, parse, now);
    KeptItensStay(itens, r.itens, LinkedTo(KeySet(r.editais, ActiveKeyOf)));
  }

  lemma KeptEditaisStay(editais: seq<Json>, kept: seq<Json>, parse: Json -> Option<Stamp>, now: int)
    requires kept == Filter(editais, Accepts(Verdicts(parse, now)))
    ensures FilterOpt(kept, Verdicts(parse, now)) == Some(kept)
  {
    var accepted := Accepts(Verdicts(parse, now));
    forall i | 0 <= i < |kept|
      ensures accepted(kept[i])
    {
      assert kept[i] in kept;
    }
    FilterAll(kept, accepted);
  }

  lemma KeptItensStay(itens: seq<Json>, kept: seq<Json>, linked: Json -> bool)
    requires AllDicts(itens) && kept == Filter(itens, linked)
    ensures FilterRecords(kept, linked) == Some(kept)
  {
    forall j | 0 <= j < |kept|
      ensures linked(kept[j]) && kept[j].JObj?
    {
      assert kept[j] in kept;
      var k :| 0 <= k < |itens| && itens[k] == kept[j];
    }
    FilterAll(kept, linked);
  }

  // ---------------------------------------------------------------------------
  // Fresh identifiers and links
  // ---------------------------------------------------------------------------

  /** `generate_edital_key`, which `padroniza_edital_id` computes the same
      way: the organisation's CNPJ, else `cnpjOrgao`, else `cnpj`; `anoCompra`
      else `ano`; `numeroCompra` else `numero`; joined by '_'. `None` where
      the edital is not a dict or its `orgaoEntidade` is not one. */
  function GenKey(e: Json): (key: Option<string>)
    ensures key.Some? <==> e.JObj? && SubRecord(e.fields, "orgaoEntidade").Some?
  {
    if !e.JObj? then None
    else
      var r := e.fields;
      var org :- SubRecord(r, "orgaoEntidade");
      Some(Key3(Str(Or(Or(Get(org, "cnpj"), Get(r, "cnpjOrgao")), Get(r, "cnpj"))),
                Str(Or(Get(r, "anoCompra"), Get(r, "ano"))),
                Str(Or(Get(r, "numeroCompra"), Get(r, "numero")))))
  }

  /** The key an item names its edital by: `edital_cnpj`, else `cnpjOrgao`,
      else `cnpj`, and likewise for the year and the number. */
  function ItemGenKey(r: Record): string {
    Key3(Str(Or(Or(Get(r, "edital_cnpj"), Get(r, "cnpjOrgao")), Get(r, "cnpj"))),
         Str(Or(Or(Get(r, "edital_ano"), Get(r, "anoCompra")), Get(r, "ano"))),
         Str(Or(Or(Get(r, "edital_numero"), Get(r, "numeroCompra")), Get(r, "numero"))))
  }

  /** The identifier an item with key `k` is given: that of the first edital
      with the key, or `None`. */
  function LinkFor(keys: seq<string>, k: string, uuid: nat -> string): Json {
    match FirstIndex(keys, k)
    case Some(i) => JStr(uuid(i))
    case None => JNull
  }

  /** Every edital with its own `ID_C_PNCP`, `uuid(i)` for the `i`-th. */
  function WithIds(editais: seq<Json>, uuid: nat -> string): (r: seq<Json>)
    requires AllDicts(editais)
    ensures |r| == |editais| && forall i :: 0 <= i < |editais| ==>
      && r[i].JObj?
      && Get(r[i].fields, "ID_C_PNCP") == JStr(uuid(i))
      && OnlyChanged(editais[i].fields, r[i].fields, {"ID_C_PNCP"})
  {
    seq(|editais|, i requires 0 <= i < |editais| => JObj(editais[i].fields["ID_C_PNCP" := JStr(uuid(i))]))
  }

  /** Every item with an `edital_ID_C_PNCP`, the link its key gives. */
  function WithLinks(itens: seq<Json>, keys: seq<string>, uuid: nat -> string): (r: seq<Json>)
    requires AllDicts(itens)
    ensures |r| == |itens| && forall j :: 0 <= j < |itens| ==>
      && r[j].JObj? && "edital_ID_C_PNCP" in r[j].fields
      && r[j].fields["edital_ID_C_PNCP"] == LinkFor(keys, ItemGenKey(itens[j].fields), uuid)
      && OnlyChanged(itens[j].fields, r[j].fields, {"edital_ID_C_PNCP"})
  {
    seq(|itens|, j requires 0 <= j < |itens| =>
      JObj(itens[j].fields["edital_ID_C_PNCP" := LinkFor(keys, ItemGenKey(itens[j].fields), uuid)]))
  }

  /** `generate_edital_unique_ids_absolute.main` after loading, where
      `uuid(i)` is the identifier drawn for the `i`-th edital: every edital
      gets its own `ID_C_PNCP` and every item an `edital_ID_C_PNCP`, nothing
      else changes; `None` where the script raises. */
  function GenerateIds(editais: seq<Json>, itens: seq<Json>, uuid: nat -> string): (r: Option<Store>)
    ensures r.None? <==> (exists i :: 0 <= i < |editais| && GenKey(editais[i]).None?) || !AllDicts(itens)
    ensures r.Some? ==> |r.value.editais| == |editais| && forall i :: 0 <= i < |editais| ==>
      && editais[i].JObj? && r.value.editais[i].JObj?
      && Get(r.value.editais[i].fields, "ID_C_PNCP") == JStr(uuid(i))
      && OnlyChanged(editais[i].fields, r.value.editais[i].fields, {"ID_C_PNCP"})
    ensures r.Some? ==> |r.value.itens| == |itens| && forall j :: 0 <= j < |itens| ==>
      && itens[j].JObj? && r.value.itens[j].JObj?
      && "edital_ID_C_PNCP" in r.value.itens[j].fields
      && OnlyChanged(itens[j].fields, r.value.itens[j].fields, {"edital_ID_C_PNCP"})
  {
    var keys :- MapOpt(editais, GenKey);
    if !AllDicts(itens) then None
    else
      assert AllDicts(editais) by {
        forall i | 0 <= i < |editais|
          ensures editais[i].JObj?
        {
          assert GenKey(editais[i]).Some?;
        }
      }
      Some(Store(WithIds(editais, uuid), WithLinks(itens, keys, uuid)))
  }

  /** An item's link is the identifier of the first edital with the item's
      key, and `None` exactly when no edital has that key. */
  lemma GeneratedLink(editais: seq<Json>, itens: seq<Json>, uuid: nat -> string, j: nat)
    requires GenerateIds(editais, itens, uuid).Some? && j < |itens|
    ensures var r := GenerateIds(editais, itens, uuid).value;
      var k := ItemGenKey(itens[j].fields);
      var link := r.itens[j].fields["edital_ID_C_PNCP"];
      && (link == JNull <==> forall i :: 0 <= i < |editais| ==> GenKey(editais[i]) != Some(k))
      && (link != JNull ==> exists i ::
            && 0 <= i < |editais| && GenKey(editais[i]) == Some(k)
            && link == r.editais[i].fields["ID_C_PNCP"]
            && forall h :: 0 <= h < i ==> GenKey(editais[h]) != Some(k))
  {
    var keys := MapOpt(editais, GenKey).value;
    var k := ItemGenKey(itens[j].fields);
    assert forall i :: 0 <= i < |editais| ==> (GenKey(editais[i]) == Some(k) <==> keys[i] == k);
    match FirstIndex(keys, k)
    case Some(i) =>
      assert GenKey(editais[i]) == Some(k);
    case None =>
  }

  // ---------------------------------------------------------------------------
  // `_edital_id` first
  // ---------------------------------------------------------------------------

  /** A JSON object as the ordered list of its entries, the way `json.load`
      builds it: where a key sits matters to `fix_edital_ids`. */
  type Entry = (string, Json)

  function Name(p: Entry): string {
    p.0
  }

  predicate NotId(p: Entry) {
    p.0 != "_edital_id"
  }

  /** The dict an entry list stands for: a later entry for a key wins. */
  function Fields(es: seq<Entry>): (r: Record)
    ensures forall k :: k in r <==> k in KeySet(es, Name)
    decreases |es|
  {
    if |es| == 0 then map[]
    else
      var n := |es| - 1;
      UnseenStep({}, es, Name, n);
      assert es[..n + 1] == es;
      Fields(es[..n])[es[n].0 := es[n].1]
  }

  /** With distinct keys every entry's value is the dict's value. */
  lemma {:induction false} FieldsOfDistinct(es: seq<Entry>)
    requires DistinctKeys(es, Name)
    ensures forall i :: 0 <= i < |es| ==> es[i].0 in Fields(es) && Fields(es)[es[i].0] == es[i].1
    decreases |es|
  {
    if |es| > 0 {
      var n := |es| - 1;
      var init := es[..n];
      assert forall i :: 0 <= i < n ==> init[i] == es[i];
      FieldsOfDistinct(init);
      forall i | 0 <= i < |es|
        ensures es[i].0 in Fields(es) && Fields(es)[es[i].0] == es[i].1
      {
        if i < n {
          assert Name(es[i]) != Name(es[n]);
        }
      }
    }
  }

  /** `new = {"_edital_id": v}; new.update(entries)`. */
  function IdFirst(v: Json, es: seq<Entry>): seq<Entry> {
    PutAll([("_edital_id", v)], es, Name)
  }

  /** The shape `fix_edital_ids` promises: `_edital_id` comes first, holding
      the record's own value when it had one and `v` otherwise, followed by
      the other entries in their order. */
  lemma IdFirstShape(v: Json, es: seq<Entry>)
    requires DistinctKeys(es, Name)
    ensures var r := IdFirst(v, es);
      && |r| > 0
      && r[0] == ("_edital_id", GetOr(Fields(es), "_edital_id", v))
      && r[1..] == Filter(es, NotId)
  {
    UpdateAfterHead(("_edital_id", v), es, Name, NotId);
    FieldsOfDistinct(es);
    if "_edital_id" in KeySet(es, Name) {
      var s := Slot(es, "_edital_id", Name);
      assert es[s] == ("_edital_id", Fields(es)["_edital_id"]);
    }
  }

  /** The rewritten record has distinct keys: those of the original and
      `_edital_id`. */
  lemma IdFirstKeys(v: Json, es: seq<Entry>)
    requires DistinctKeys(es, Name)
    ensures DistinctKeys(IdFirst(v, es), Name)
    ensures KeySet(IdFirst(v, es), Name) == KeySet(es, Name) + {"_edital_id"}
  {
    var h := ("_edital_id", v);
    PutAllKeys([h], es, Name);
    assert KeySet([h], Name) == {"_edital_id"} by {
      assert [h][0] == h;
    }
  }

  /** One key of the rewritten record: `_edital_id` holds the original value
      or `v`, every other key its original value. */
  lemma IdFirstValue(v: Json, es: seq<Entry>, k: string)
    requires DistinctKeys(es, Name)
    requires k in Fields(IdFirst(v, es))
    ensures k != "_edital_id" ==> k in Fields(es) && Fields(IdFirst(v, es))[k] == Fields(es)[k]
    ensures k == "_edital_id" ==> Fields(IdFirst(v, es))[k] == GetOr(Fields(es), "_edital_id", v)
  {
    var r := IdFirst(v, es);
    IdFirstKeys(v, es);
    IdFirstShape(v, es);
    FieldsOfDistinct(r);
    var i :| 0 <= i < |r| && Name(r[i]) == k;
    if k != "_edital_id" {
      assert r[i] == r[1..][i - 1];
      assert r[1..][i - 1] in Filter(es, NotId);
      assert r[i] in es;
      var j :| 0 <= j < |es| && es[j] == r[i];
      FieldsOfDistinct(es);
    }
  }

  /** As a dict, a record rewritten by `fix_edital_ids` differs from the
      original at most in `_edital_id`, which it keeps when present. */
  lemma IdFirstFields(v: Json, es: seq<Entry>)
    requires DistinctKeys(es, Name)
    ensures Fields(IdFirst(v, es)) == Fields(es)["_edital_id" := GetOr(Fields(es), "_edital_id", v)]
  {
    var f := Fields(IdFirst(v, es));
    var e := Fields(es);
    var want := e["_edital_id" := GetOr(e, "_edital_id", v)];
    IdFirstKeys(v, es);
    forall k
      ensures k in f <==> k in want
    {
      assert k in f <==> k in KeySet(IdFirst(v, es), Name);
      assert k in e <==> k in KeySet(es, Name);
    }
    forall k | k in f
      ensures f[k] == want[k]
    {
      IdFirstValue(v, es, k);
    }
    assert f == want;
  }

  /** `padroniza_edital_id`: `None` where the key computation raises. */
  function PadronizaEditalId(es: seq<Entry>): (r: Option<seq<Entry>>)
    ensures r.Some? <==> SubRecord(Fields(es), "orgaoEntidade").Some?
    ensures r.Some? ==> r.value == IdFirst(EditalIdOf(es), es)
  {
    var id :- GenKey(JObj(Fields(es)));
    Some(IdFirst(JStr(id), es))
  }

  /** `padroniza_item_id`. */
  function PadronizaItemId(es: seq<Entry>): seq<Entry> {
    IdFirst(JStr(ItemGenKey(Fields(es))), es)
  }

  /** The identifier `padroniza_edital_id` computes for an edital. */
  function EditalIdOf(es: seq<Entry>): Json
    requires SubRecord(Fields(es), "orgaoEntidade").Some?
  {
    JStr(GenKey(JObj(Fields(es))).value)
  }

  /** A stored record as `fix_edital_ids` meets it: a dict, given by its
      entries in order, or any other value, on which `.get` raises. */
  datatype Loaded = Obj(entries: seq<Entry>) | NonObj

  /** `padroniza_edital_id` on a stored record. */
  function FixEdital(l: Loaded): (r: Option<seq<Entry>>)
    ensures r.Some? <==> l.Obj? && SubRecord(Fields(l.entries), "orgaoEntidade").Some?
  {
    match l
    case NonObj => None
    case Obj(es) => PadronizaEditalId(es)
  }

  /** `padroniza_item_id` on a stored record. */
  function FixItem(l: Loaded): (r: Option<seq<Entry>>)
    ensures r.Some? <==> l.Obj?
  {
    match l
    case NonObj => None
    case Obj(es) => Some(PadronizaItemId(es))
  }

  /** `fix_edital_ids.main` after loading: every edital and item rewritten,
      in order; `None` where a record is not a dict or an edital's key
      computation raises. */
  function FixEditalIds(editais: seq<Loaded>, itens: seq<Loaded>): (r: Option<(seq<seq<Entry>>, seq<seq<Entry>>)>)
    ensures r.None? <==>
      || (exists i :: 0 <= i < |editais| && (editais[i].NonObj? || SubRecord(Fields(editais[i].entries), "orgaoEntidade").None?))
      || (exists j :: 0 <= j < |itens| && itens[j].NonObj?)
    ensures r.Some? ==> |r.value.0| == |editais| && |r.value.1| == |itens|
    ensures r.Some? ==> forall i :: 0 <= i < |editais| ==>
      && editais[i].Obj? && SubRecord(Fields(editais[i].entries), "orgaoEntidade").Some?
      && r.value.0[i] == IdFirst(EditalIdOf(editais[i].entries), editais[i].entries)
    ensures r.Some? ==> forall j :: 0 <= j < |itens| ==> itens[j].Obj? && r.value.1[j] == PadronizaItemId(itens[j].entries)
  {
    var fixed :- MapOpt(editais, FixEdital);
    var items :- MapOpt(itens, FixItem);
    Some((fixed, items))
  }

  /** Each rewritten edital starts with `_edital_id`, holding its own value
      when it had one and the computed key otherwise, followed by its other
      entries in their order; as a dict only `_edital_id` may differ. */
  lemma FixEditalIdsShape(editais: seq<Loaded>, itens: seq<Loaded>, i: nat)
    requires forall k :: 0 <= k < |editais| ==>
      editais[k].Obj? && SubRecord(Fields(editais[k].entries), "orgaoEntidade").Some?
    requires forall j :: 0 <= j < |itens| ==> itens[j].Obj?
    requires i < |editais| && DistinctKeys(editais[i].entries, Name)
    ensures FixEditalIds(editais, itens).Some?
    ensures var e := editais[i].entries;
      var r := FixEditalIds(editais, itens).value.0[i];
      && |r| > 0
      && r[0] == ("_edital_id", GetOr(Fields(e), "_edital_id", EditalIdOf(e)))
      && r[1..] == Filter(e, NotId)
      && Fields(r) == Fields(e)["_edital_id" := GetOr(Fields(e), "_edital_id", EditalIdOf(e))]
  {
    IdFirstShape(EditalIdOf(editais[i].entries), editais[i].entries);
    IdFirstFields(EditalIdOf(editais[i].entries), editais[i].entries);
  }

  /** A stored value that is not a dict, among the editais or the items,
      makes the script raise before anything is written. */
  lemma FixEditalIdsRejects(es: seq<Entry>)
    ensures FixEditalIds([NonObj], []).None?
    ensures FixEditalIds([], [Obj(es), NonObj]).None?
  {
    assert [Obj(es), NonObj][1].NonObj?;
  }

  // ---------------------------------------------------------------------------
  // Removing the identifier fields
  // ---------------------------------------------------------------------------

  const IdFields: set<string> := {"ID_C_PNCP", "edital_ID_C_PNCP", "_edital_id"}

  /** `remove_campos`: none of the identifier fields is left, and every
      other field is as it was. */
  function RemoveCampos(r: Record): (x: Record)
    ensures forall k :: k in IdFields ==> k !in x
    ensures OnlyChanged(r, x, IdFields)
  {
    r - IdFields
  }

  /** Python's `dict(v)` on a stored value: a dict is copied; an empty
      string gives `{}`; a list gives the dict of its pairs, a later pair for
      a key winning; `None` where `dict` raises (a number, a boolean, `null`,
      a non-empty string, or a list with an element that is not a pair). */
  function PyDict(v: Json): (d: Option<Record>)
    ensures v.JObj? ==> d == Some(v.fields)
    ensures v.JStr? ==> (d.Some? <==> v.s == "") && (d.Some? ==> d.value == map[])
    ensures v.JList? ==> d == PairsDict(v.items)
    ensures !v.JObj? && !v.JStr? && !v.JList? ==> d.None?
  {
    match v
    case JObj(m) => Some(m)
    case JStr(s) => if s == "" then Some(map[]) else None
    case JList(xs) => PairsDict(xs)
    case _ => None
  }

  /** One element of the list given to `dict`: a two-element list whose
      first element is a string key, or a two-character string (its first
      character is the key, its second the value). */
  function PairOf(x: Json): (p: Option<Entry>)
    ensures x.JList? && |x.items| == 2 && x.items[0].JStr? ==> p == Some((x.items[0].s, x.items[1]))
    ensures x.JStr? ==> (p.Some? <==> |x.s| == 2)
    ensures !x.JList? && !x.JStr? ==> p.None?
  {
    match x
    case JList(ys) => if |ys| == 2 && ys[0].JStr? then Some((ys[0].s, ys[1])) else None
    case JStr(s) => if |s| == 2 then Some((s[..1], JStr(s[1..]))) else None
    case _ => None
  }

  /** `dict(xs)` for a list: every element must be a pair. */
  function PairsDict(xs: seq<Json>): (d: Option<Record>)
    ensures d.None? <==> exists i :: 0 <= i < |xs| && PairOf(xs[i]).None?
    ensures d.Some? ==> forall k :: k in d.value <==> exists i :: 0 <= i < |xs| && PairOf(xs[i]).value.0 == k
    decreases |xs|
  {
    if |xs| == 0 then Some(map[])
    else
      var n := |xs| - 1;
      assert forall i :: 0 <= i < n ==> xs[..n][i] == xs[i];
      var init :- PairsDict(xs[..n]);
      var p :- PairOf(xs[n]);
      Some(init[p.0 := p.1])
  }

  /** The list of `[key, value]` pairs of an entry list. */
  function AsPairs(es: seq<Entry>): (xs: seq<Json>)
    ensures |xs| == |es|
    ensures forall i :: 0 <= i < |es| ==> xs[i] == JList([JStr(es[i].0), es[i].1])
  {
    seq(|es|, i requires 0 <= i < |es| => JList([JStr(es[i].0), es[i].1]))
  }

  /** `dict` of the pairs of an entry list is the dict that list stands for,
      with the same rule that a later entry for a key wins. */
  lemma {:induction false} PairsDictOfEntries(es: seq<Entry>)
    ensures PairsDict(AsPairs(es)) == Some(Fields(es))
    decreases |es|
  {
    if |es| > 0 {
      var n := |es| - 1;
      var xs := AsPairs(es);
      assert xs[..n] == AsPairs(es[..n]);
      PairsDictOfEntries(es[..n]);
      PairsDictSnoc(xs, Fields(es[..n]), es[n]);
      assert es[..n + 1] == es;
    }
  }

  /** The last pair of a list updates the dict of the pairs before it. */
  lemma PairsDictSnoc(xs: seq<Json>, init: Record, p: Entry)
    requires |xs| > 0 && PairsDict(xs[..|xs| - 1]) == Some(init)
    requires xs[|xs| - 1] == JList([JStr(p.0), p.1])
    ensures PairsDict(xs) == Some(init[p.0 := p.1])
  {
    assert PairOf(xs[|xs| - 1]) == Some(p);
  }

  /** Every stored record is something `dict` accepts. */
  predicate AllPyDicts(xs: seq<Json>) {
    forall i :: 0 <= i < |xs| ==> PyDict(xs[i]).Some?
  }

  /** `remove_campos(dict(e))`; `None` where `dict(e)` raises. */
  function Cleaned(e: Json): (c: Option<Json>)
    ensures c.Some? <==> PyDict(e).Some?
    ensures c.Some? ==> c.value == JObj(RemoveCampos(PyDict(e).value))
  {
    var d :- PyDict(e);
    Some(JObj(RemoveCampos(d)))
  }

  /** `remove_edital_ids.main` after loading. */
  function RemoveEditalIds(editais: seq<Json>, itens: seq<Json>): (r: Option<Store>)
    ensures r.None? <==> !AllPyDicts(editais) || !AllPyDicts(itens)
    ensures r.Some? ==> |r.value.editais| == |editais| && |r.value.itens| == |itens|
    ensures r.Some? ==> forall i :: 0 <= i < |editais| ==> r.value.editais[i] == JObj(RemoveCampos(PyDict(editais[i]).value))
    ensures r.Some? ==> forall j :: 0 <= j < |itens| ==> r.value.itens[j] == JObj(RemoveCampos(PyDict(itens[j]).value))
  {
    var e :- MapOpt(editais, Cleaned);
    var i :- MapOpt(itens, Cleaned);
    Some(Store(e, i))
  }

  /** Stored values that are not dicts but that `dict` accepts: an empty
      list, an empty string and a list of key-value pairs each become a
      dict. */
  lemma RemoveEditalIdsAcceptsPairs()
    ensures RemoveEditalIds([JList([]), JStr(""), JList([JList([JStr("k"), JInt(1)]), JStr("ab")])], [JStr("")])
      == Some(Store([JObj(map[]), JObj(map[]), JObj(map["k" := JInt(1), "a" := JStr("b")])], [JObj(map[])]))
  {
    var m: Record := map["k" := JInt(1), "a" := JStr("b")];
    PairsExample();
    assert RemoveCampos(map[]) == map[];
    var editais := [JList([]), JStr(""), JList([JList([JStr("k"), JInt(1)]), JStr("ab")])];
    assert PyDict(editais[0]) == Some(map[]) && PyDict(editais[1]) == Some(map[]);
    var r := RemoveEditalIds(editais, [JStr("")]);
    assert r.Some?;
    assert r.value.editais == [JObj(map[]), JObj(map[]), JObj(m)];
    assert r.value.itens == [JObj(map[])];
  }

  /** A list holding a two-element list and a two-character string is the
      dict of both pairs, which no identifier field touches. */
  lemma PairsExample()
    ensures PyDict(JList([JList([JStr("k"), JInt(1)]), JStr("ab")])) == Some(map["k" := JInt(1), "a" := JStr("b")])
    ensures RemoveCampos(map["k" := JInt(1), "a" := JStr("b")]) == map["k" := JInt(1), "a" := JStr("b")]
  {
    var pairs := [JList([JStr("k"), JInt(1)]), JStr("ab")];
    assert PairOf(pairs[0]) == Some(("k", JInt(1)));
    assert "ab"[..1] == "a" && "ab"[1..] == "b";
    assert PairOf(pairs[1]) == Some(("a", JStr("b")));
    assert pairs[..1] == [pairs[0]];
    assert PairsDict([pairs[0]]) == Some(map["k" := JInt(1)]);
    assert PairsDict(pairs) == Some(map["k" := JInt(1), "a" := JStr("b")]);
  }

  /** A number, or a string that is not two characters long inside the list,
      makes `dict` raise. */
  lemma RemoveEditalIdsRejects()
    ensures RemoveEditalIds([JInt(3)], []).None?
    ensures RemoveEditalIds([], [JList([JStr("abc")])]).None?
  {
    assert PyDict(JInt(3)).None?;
    assert PairOf(JStr("abc")).None?;
    assert PyDict(JList([JStr("abc")])).None?;
  }

  /** Records that differ at most in identifier fields are the same once
      those are removed. */
  lemma RemoveCamposOnlyChanged(e: Record, x: Record, changed: set<string>)
    requires OnlyChanged(e, x, changed) && changed <= IdFields
    ensures RemoveCampos(x) == RemoveCampos(e)
  {
    var a := RemoveCampos(x);
    var b := RemoveCampos(e);
    assert forall k :: k in a <==> k in b;
    assert forall k :: k in a ==> a[k] == b[k];
  }

  /** Removing the fields twice is removing them once. */
  lemma RemoveEditalIdsIdempotent(editais: seq<Json>, itens: seq<Json>)
    requires RemoveEditalIds(editais, itens).Some?
    ensures var r := RemoveEditalIds(editais, itens).value;
      RemoveEditalIds(r.editais, r.itens) == Some(r)
  {
    var r := RemoveEditalIds(editais, itens).value;
    var again := RemoveEditalIds(r.editais, r.itens).value;
    forall i | 0 <= i < |editais|
      ensures again.editais[i] == r.editais[i]
    {
      RemoveCamposOnlyChanged(PyDict(editais[i]).value, r.editais[i].fields, IdFields);
      RemoveCamposOnlyChanged(r.editais[i].fields, RemoveCampos(r.editais[i].fields), IdFields);
    }
    forall j | 0 <= j < |itens|
      ensures again.itens[j] == r.itens[j]
    {
      RemoveCamposOnlyChanged(PyDict(itens[j]).value, r.itens[j].fields, IdFields);
      RemoveCamposOnlyChanged(r.itens[j].fields, RemoveCampos(r.itens[j].fields), IdFields);
    }
    assert again.editais == r.editais;
    assert again.itens == r.itens;
  }

  /** Removing the identifier fields undoes `generate_edital_unique_ids_absolute`:
      the records come back as the original ones without identifier
      fields. */
  lemma RemoveUndoesGenerate(editais: seq<Json>, itens: seq<Json>, uuid: nat -> string)
    requires GenerateIds(editais, itens, uuid).Some?
    ensures var g := GenerateIds(editais, itens, uuid).value;
      RemoveEditalIds(g.editais, g.itens) == RemoveEditalIds(editais, itens)
  {
    var g := GenerateIds(editais, itens, uuid).value;
    var a := RemoveEditalIds(g.editais, g.itens).value;
    var b := RemoveEditalIds(editais, itens).value;
    forall i | 0 <= i < |editais|
      ensures a.editais[i] == b.editais[i]
    {
      RemoveCamposOnlyChanged(editais[i].fields, g.editais[i].fields, {"ID_C_PNCP"});
    }
    forall j | 0 <= j < |itens|
      ensures a.itens[j] == b.itens[j]
    {
      RemoveCamposOnlyChanged(itens[j].fields, g.itens[j].fields, {"edital_ID_C_PNCP"});
    }
    assert a.editais == b.editais;
    assert a.itens == b.itens;
  }

  /** Removing the identifier fields undoes `fix_edital_ids` as well: the
      dict a fixed record stands for loses exactly what was added. */
  lemma RemoveUndoesIdFirst(v: Json, es: seq<Entry>)
    requires DistinctKeys(es, Name)
    ensures RemoveCampos(Fields(IdFirst(v, es))) == RemoveCampos(Fields(es))
  {
    IdFirstFields(v, es);
    RemoveCamposOnlyChanged(Fields(es), Fields(IdFirst(v, es)), {"_edital_id"});
  }
}

=== FILE: manual_fetch.dfy ===
/** The manual fetch script: editais fetched from the API are given a
    string identifier `_edital_id` and string `cnpj`/`ano`/`numero` fields,
    merged into the stored editais by identifier, and the items of the new
    editais are fetched, standardised the same way and merged into the stored
    items by `(_edital_id, itemSequencial)`. */
module ManualFetch {
  import opened Opt
  import opened Text
  import opened Values
  import opened Lists
  import opened Dicts

  /** `generate_edital_id(cnpj, ano, numero)`. */
  function EditalId(cnpj: Json, ano: Json, numero: Json): string {
    Key3(Str(cnpj), Str(ano), Str(numero))
  }

  /** The record holds string fields `c`, `a` and `n` and an `_edital_id`
      that is their values joined by '_'. */
  predicate Standard(x: Json, c: string, a: string, n: string) {
    && x.JObj?
    && c in x.fields && a in x.fields && n in x.fields && "_edital_id" in x.fields
    && x.fields[c].JStr? && x.fields[a].JStr? && x.fields[n].JStr?
    && x.fields["_edital_id"] == JStr(Key3(x.fields[c].s, x.fields[a].s, x.fields[n].s))
  }

  predicate StandardEdital(x: Json) {
    Standard(x, "cnpj", "ano", "numero")
  }

  predicate StandardItem(x: Json) {
    Standard(x, "edital_cnpj", "edital_ano", "edital_numero")
  }

  const EditalFields: set<string> := {"_edital_id", "cnpj", "ano", "numero"}
  const ItemFields: set<string> := {"_edital_id", "edital_cnpj", "edital_ano", "edital_numero"}

  /** The three parts `padroniza_edital` reads: the organisation's CNPJ or
      else `cnpjOrgao`, `anoCompra` or else `ano`, `numeroCompra` or else
      `numero`, each defaulting to "". */
  function EditalParts(e: Record, org: Record): (Json, Json, Json) {
    (Or(Get(org, "cnpj"), GetOr(e, "cnpjOrgao", JStr(""))),
     Or(Get(e, "anoCompra"), GetOr(e, "ano", JStr(""))),
     Or(Get(e, "numeroCompra"), GetOr(e, "numero", JStr(""))))
  }

  /** `padroniza_edital(e.copy())`; `None` where it raises: the edital is
      not a dict, or its `orgaoEntidade` is not one. */
  function PadronizaEdital(e: Json): (r: Option<Json>)
    ensures r.Some? <==> e.JObj? && SubRecord(e.fields, "orgaoEntidade").Some?
    ensures r.Some? ==> StandardEdital(r.value) && OnlyChanged(e.fields, r.value.fields, EditalFields)
  {
    if !e.JObj? then None
    else
      var org :- SubRecord(e.fields, "orgaoEntidade");
      var (cnpj, ano, numero) := EditalParts(e.fields, org);
      Some(JObj(e.fields["_edital_id" := JStr(EditalId(cnpj, ano, numero))]
                        ["cnpj" := JStr(Str(cnpj))]["ano" := JStr(Str(ano))]["numero" := JStr(Str(numero))]))
  }

  /** The fallbacks, spelled out: a falsy `anoCompra` gives way to `ano`
      even when `ano` holds `None` (rendered "None"); only a missing `ano`
      gives "". Likewise for the CNPJ and the number. */
  lemma PadronizaEditalFields(e: Record)
    requires SubRecord(e, "orgaoEntidade").Some?
    ensures var x := PadronizaEdital(JObj(e)).value.fields;
      var org := SubRecord(e, "orgaoEntidade").value;
      && x["cnpj"] == JStr(if "cnpj" in org && Truthy(org["cnpj"]) then Str(org["cnpj"])
                           else if "cnpjOrgao" in e then Str(e["cnpjOrgao"]) else "")
      && x["ano"] == JStr(if "anoCompra" in e && Truthy(e["anoCompra"]) then Str(e["anoCompra"])
                          else if "ano" in e then Str(e["ano"]) else "")
      && x["numero"] == JStr(if "numeroCompra" in e && Truthy(e["numeroCompra"]) then Str(e["numeroCompra"])
                             else if "numero" in e then Str(e["numero"]) else "")
  {
  }

  /** Writing back the values a standard record already holds leaves it as
      it was. */
  lemma RewriteStandard(f: Record, c: string, a: string, n: string)
    requires Standard(JObj(f), c, a, n)
    ensures var sc, sa, sn := f[c].s, f[a].s, f[n].s;
      f["_edital_id" := JStr(Key3(sc, sa, sn))][c := JStr(sc)][a := JStr(sa)][n := JStr(sn)] == f
  {
  }

  /** Standardising a standardised edital changes nothing. */
  lemma PadronizaEditalIdempotent(e: Json)
    requires PadronizaEdital(e).Some?
    ensures PadronizaEdital(PadronizaEdital(e).value) == PadronizaEdital(e)
  {
    var x := PadronizaEdital(e).value;
    var f := x.fields;
    var org := SubRecord(e.fields, "orgaoEntidade").value;
    assert SubRecord(f, "orgaoEntidade") == Some(org);
    var (c, a, n) := EditalParts(e.fields, org);
    assert f["cnpj"] == JStr(Str(c)) && f["ano"] == JStr(Str(a)) && f["numero"] == JStr(Str(n));
    var (c2, a2, n2) := EditalParts(f, org);
    assert Str(c2) == Str(c) && Str(a2) == Str(a) && Str(n2) == Str(n);
    RewriteStandard(f, "cnpj", "ano", "numero");
  }

  /** `padroniza_item(i.copy())`: the item's `edital_cnpj`, `edital_ano`
      and `edital_numero` (each defaulting to "") as strings, and
      `_edital_id` built from them; `None` where the item is not a dict. */
  function PadronizaItem(i: Json): (r: Option<Json>)
    ensures r.Some? <==> i.JObj?
    ensures r.Some? ==> StandardItem(r.value) && OnlyChanged(i.fields, r.value.fields, ItemFields)
    ensures r.Some? ==> forall k :: k in {"edital_cnpj", "edital_ano", "edital_numero"} ==>
      r.value.fields[k] == JStr(Str(GetOr(i.fields, k, JStr(""))))
  {
    if !i.JObj? then None
    else
      var f := i.fields;
      var cnpj := GetOr(f, "edital_cnpj", JStr(""));
      var ano := GetOr(f, "edital_ano", JStr(""));
      var numero := GetOr(f, "edital_numero", JStr(""));
      Some(JObj(f["_edital_id" := JStr(EditalId(cnpj, ano, numero))]
                 ["edital_cnpj" := JStr(Str(cnpj))]["edital_ano" := JStr(Str(ano))]["edital_numero" := JStr(Str(numero))]))
  }

  /** Standardising a standardised item changes nothing. */
  lemma PadronizaItemIdempotent(i: Json)
    requires PadronizaItem(i).Some?
    ensures PadronizaItem(PadronizaItem(i).value) == PadronizaItem(i)
  {
    var x := PadronizaItem(i).value;
    assert PadronizaItem(x).value.fields == x.fields;
  }

  /** An item points at an edital exactly when its three identifying strings
      equal the edital's, provided none of them holds '_' (otherwise
      different parts can join to the same identifier). */
  lemma ItemLinksToEdital(item: Json, edital: Json)
    requires StandardItem(item) && StandardEdital(edital)
    requires var f := item.fields;
      '_' !in f["edital_cnpj"].s && '_' !in f["edital_ano"].s && '_' !in f["edital_numero"].s
    requires var g := edital.fields;
      '_' !in g["cnpj"].s && '_' !in g["ano"].s && '_' !in g["numero"].s
    ensures item.fields["_edital_id"] == edital.fields["_edital_id"] <==>
      && item.fields["edital_cnpj"] == edital.fields["cnpj"]
      && item.fields["edital_ano"] == edital.fields["ano"]
      && item.fields["edital_numero"] == edital.fields["numero"]
  {
    var f := item.fields;
    var g := edital.fields;
    Key3Split(f["edital_cnpj"].s, f["edital_ano"].s, f["edital_numero"].s);
    Key3Split(g["cnpj"].s, g["ano"].s, g["numero"].s);
  }

  /** Two identifiers that differ only in where the '_' falls. */
  lemma IdCollision()
    ensures Key3("1_2", "3", "4") == Key3("1", "2_3", "4")
  {
  }

  // ---------------------------------------------------------------------------
  // The merge in `main`
  // ---------------------------------------------------------------------------

  /** `e.get("_edital_id")` as the stored-editais dict files it, with
      `True` and `1` (and `False` and `0`) one key. */
  function IdOf(e: Json): Json {
    if e.JObj? then Norm(Get(e.fields, "_edital_id")) else JNull
  }

  /** `(i.get("_edital_id"), i.get("itemSequencial"))` as the stored-items
      dict files it; tuples compare element by element. */
  function ItemKeyOf(i: Json): (Json, Json) {
    if i.JObj? then (Norm(Get(i.fields, "_edital_id")), Norm(Get(i.fields, "itemSequencial"))) else (JNull, JNull)
  }

  /** The editais saved: the stored ones indexed by identifier, followed by
      the standardised fetched ones whose identifier is new. */
  function SavedEditais(stored: seq<Json>, standard: seq<Json>): seq<Json> {
    PutAll([], stored, IdOf) + Unseen(KeySet(stored, IdOf), standard, IdOf)
  }

  /** The strings an edital's items are requested with. */
  function ItemQuery(e: Json): (string, string, string) {
    if e.JObj? then (Str(Get(e.fields, "cnpj")), Str(Get(e.fields, "ano")), Str(Get(e.fields, "numero")))
    else ("", "", "")
  }

  /** The items returned for the new editais, one edital after another;
      `itemsOf` is `fetch_itens_for_edital`. */
  function NewEditaisItems(novos: seq<Json>, itemsOf: ((string, string, string)) -> seq<Json>): seq<Json> {
    Flatten(seq(|novos|, i requires 0 <= i < |novos| => itemsOf(ItemQuery(novos[i]))))
  }

  /** The outcome of `main`: the editais saved, the new ones among them, and
      the items saved, where `None` means the items file is left as it was
      (items not requested, or their stage raised and was logged). */
  datatype ManualRun = ManualRun(editais: seq<Json>, novos: seq<Json>, items: Option<seq<Json>>)

  /** `main(fetch_items)`, given the editais returned by the API, the stored
      editais and items, and `itemsOf` for the item requests; `None` where
      `main` raises before saving (a fetched edital that cannot be
      standardised, or a stored edital that is not a dict). */
  method ManualFetch(fetched: seq<Json>, stored: seq<Json>, storedItems: seq<Json>, fetchItems: bool,
                     itemsOf: ((string, string, string)) -> seq<Json>)
    returns (run: Option<ManualRun>)
    ensures run.None? <==> MapOpt(fetched, PadronizaEdital).None? || !AllDicts(stored)
    ensures run.Some? ==>
      var standard := MapOpt(fetched, PadronizaEdital).value;
      && run.value.novos == Unseen(KeySet(stored, IdOf), standard, IdOf)
      && run.value.editais == SavedEditais(stored, standard)
    ensures run.Some? && !fetchItems ==> run.value.items.None?
    ensures run.Some? && fetchItems ==>
      var standardItems := MapOpt(NewEditaisItems(run.value.novos, itemsOf), PadronizaItem);
      (run.value.items.Some? <==> AllDicts(storedItems) && standardItems.Some?)
      && (run.value.items.Some? ==>
            run.value.items.value == PutAll([], storedItems, ItemKeyOf)
                                     + Unseen(KeySet(storedItems, ItemKeyOf), standardItems.value, ItemKeyOf))
  {
    var standard := MapOpt(fetched, PadronizaEdital);
    if standard.None? || !AllDicts(stored) {
      return None;
    }
    var existing := PutAll([], stored, IdOf);
    DictOf(stored, IdOf);
    var all, _ := AppendUnseen(existing, KeySet(existing, IdOf), standard.value, IdOf);
    var novos := Unseen(KeySet(stored, IdOf), standard.value, IdOf);
    if !fetchItems {
      return Some(ManualRun(all, novos, None));
    }
    if !AllDicts(storedItems) {
      return Some(ManualRun(all, novos, None));
    }
    var standardItems := MapOpt(NewEditaisItems(novos, itemsOf), PadronizaItem);
    if standardItems.None? {
      return Some(ManualRun(all, novos, None));
    }
    var itemsDict := PutAll([], storedItems, ItemKeyOf);
    DictOf(storedItems, ItemKeyOf);
    var items, _ := AppendUnseen(itemsDict, KeySet(itemsDict, ItemKeyOf), standardItems.value, ItemKeyOf);
    return Some(ManualRun(all, novos, Some(items)));
  }

  /** The editais saved have distinct identifiers, and their identifiers are
      those of the stored and the fetched editais; the new ones are
      standardised and their identifiers were not stored. */
  lemma SavedEditaisIds(stored: seq<Json>, standard: seq<Json>)
    requires forall i :: 0 <= i < |standard| ==> StandardEdital(standard[i])
    ensures DistinctKeys(SavedEditais(stored, standard), IdOf)
    ensures KeySet(SavedEditais(stored, standard), IdOf) == KeySet(stored, IdOf) + KeySet(standard, IdOf)
    ensures forall x :: x in Unseen(KeySet(stored, IdOf), standard, IdOf) ==>
      StandardEdital(x) && IdOf(x) !in KeySet(stored, IdOf)
  {
    var d := PutAll([], stored, IdOf);
    var u := Unseen(KeySet(stored, IdOf), standard, IdOf);
    DictOf(stored, IdOf);
    UnseenKeys(KeySet(stored, IdOf), standard, IdOf);
    AppendKeys(d, u, IdOf);
    UnseenCovers(KeySet(stored, IdOf), standard, IdOf);
    assert KeySet(stored, IdOf) + KeySet(u, IdOf) == KeySet(stored, IdOf) + KeySet(standard, IdOf);
    forall x | x in u
      ensures StandardEdital(x)
    {
      var i :| 0 <= i < |standard| && standard[i] == x;
    }
  }

  /** Stored editais sharing an identifier (in particular all those without
      one, which share `None`) collapse to one record, the last of them,
      kept at the place of the first. */
  lemma StoredCollapse(stored: seq<Json>)
    ensures var d := PutAll([], stored, IdOf);
      && Keys(d, IdOf) == Keys(Unseen({}, stored, IdOf), IdOf)
      && forall i :: 0 <= i < |d| ==> LastWithKey(stored, IdOf, d[i])
  {
    DictOf(stored, IdOf);
  }

  /** Two stored editais filed under one key leave only the second. */
  lemma StoredSameKey(a: Json, b: Json)
    requires IdOf(a) == IdOf(b)
    ensures PutAll([], [a, b], IdOf) == [b]
  {
    assert PutAll([], [a], IdOf) == [a] by {
      assert [a][..0] == [];
      assert KeySet([], IdOf) == {};
      assert Put([], a, IdOf) == [a];
    }
    assert [a, b][..1] == [a];
    assert IdOf(a) in KeySet([a], IdOf);
    assert Slot([a], IdOf(a), IdOf) == 0;
    assert Put([a], b, IdOf) == [b];
  }

  /** Two stored editais without an identifier leave only the second. */
  lemma StoredWithoutIdExample(a: Json, b: Json)
    requires a.JObj? && b.JObj? && "_edital_id" !in a.fields && "_edital_id" !in b.fields
    ensures PutAll([], [a, b], IdOf) == [b]
  {
    StoredSameKey(a, b);
  }

  /** Identifiers `True` and `1` are one dict key, so the second edital
      replaces the first. */
  lemma StoredTrueAndOne(a: Json, b: Json)
    requires a.JObj? && b.JObj?
    requires Get(a.fields, "_edital_id") == JBool(true) && Get(b.fields, "_edital_id") == JInt(1)
    ensures PutAll([], [a, b], IdOf) == [b]
  {
    StoredSameKey(a, b);
  }

  /** A store holding the raw records the API returned (no `_edital_id`):
      they collapse to the last one, and every standardised edital with a
      fresh identifier counts as new and is appended after it. */
  lemma RawStoreExample(a: Json, b: Json, sa: Json, sb: Json)
    requires a.JObj? && b.JObj? && "_edital_id" !in a.fields && "_edital_id" !in b.fields
    requires PadronizaEdital(a) == Some(sa) && PadronizaEdital(b) == Some(sb)
    requires IdOf(sa) != IdOf(sb)
    ensures Unseen(KeySet([a, b], IdOf), [sa, sb], IdOf) == [sa, sb]
    ensures SavedEditais([a, b], [sa, sb]) == [b, sa, sb]
  {
    StoredSameKey(a, b);
    assert KeySet([a, b], IdOf) == {JNull} by {
      assert IdOf([a, b][0]) == JNull && IdOf([a, b][1]) == JNull;
    }
    assert IdOf(sa).JStr? && IdOf(sb).JStr?;
    var seen := KeySet([a, b], IdOf);
    assert [sa, sb][..1] == [sa];
    assert Unseen(seen, [sa], IdOf) == [sa] by {
      assert [sa][..0] == [];
      assert NewAt(seen, [sa], IdOf, 0);
    }
    assert NewAt(seen, [sa, sb], IdOf, 1);
  }
}

=== FILE: option.dfy ===
/** The optional value used throughout the model: a Python `None` return, a
    missing dictionary entry, or an operation that raised an exception. */
module Opt {

  datatype Option<+T> = None | Some(value: T) {

    predicate IsFailure() {
      None?
    }

    function PropagateFailure<U>(): Option<U>
      requires None?
    {
      None
    }

    function Extract(): T
      requires Some?
    {
      value
    }

    /** The wrapped value, or `default` when there is none. */
    function GetOr(default: T): T {
      match this
      case Some(v) => v
      case None => default
    }
  }
}

=== FILE: paginators.dfy ===
/** The sequential paginators of the three PNCP clients (`get_all_contratos`
    in every client, `get_all_editais` in the root and Asset-Manager clients)
    and the checkpoint file they resume from. A run is driven by `pages`,
    the scripted results of `get_contratos` / `get_editais`: page `p` returns
    `pages[p - 1]`, and a page beyond the script fails (returns `None`). */
module Paginators {
  import opened Opt
  import opened Values
  import opened Http

  /** Consecutive failed pages after which a paginator gives up. */
  const MaxErrors: nat := 3

  /** Data pages between two checkpoints of the root editais paginator. */
  const RootCheckpointInterval: nat := 10

  /** Which paginator: `Contratos` is `get_all_contratos` of the backend and
      root clients (identical code); the others are named by client. */
  datatype Variant = Contratos | AssetContratos | AssetEditais | RootEditais

  /** Why a run ended. `Crashed` is the `TypeError` raised when `totalPaginas`
      is not a number: the exception escapes and nothing is returned. */
  datatype Stop = TooManyErrors | UnexpectedType | NoData | ShortPage | LastPage | Crashed

  /** The outcome of a run: the collected records, the pages requested in
      order, why it stopped, the pages at which a checkpoint was saved and,
      for each, the collection handed to the checkpoint callback there. */
  datatype Run = Run(records: seq<Json>, requested: seq<int>, stop: Stop, checkpoints: seq<int>,
                     saved: seq<seq<Json>>)

  function PageAt(pages: seq<Json>, p: int): Json {
    if 1 <= p <= |pages| then pages[p - 1] else JNull
  }

  /** `get_contratos` / `get_editais` returned `None`. */
  predicate FailedPage(pages: seq<Json>, p: int) {
    PageAt(pages, p) == JNull
  }

  function DataKey(v: Variant): string {
    if v == Contratos || v == AssetContratos then "contratos" else "contratacoes"
  }

  /** The records of a page result: a list is itself, a dict gives `data`
      (else the variant's second key) when that is a list and `[]`
      otherwise; `None` for any other type. */
  function PageData(v: Variant, r: Json): (data: Option<seq<Json>>)
    ensures data.None? <==> !r.JList? && !r.JObj?
    ensures r.JList? ==> data == Some(r.items)
    ensures r.JObj? && "data" in r.fields ==> data == Some(ListOrEmpty(r.fields["data"]))
    ensures r.JObj? && "data" !in r.fields && v in {Contratos, AssetContratos} ==>
      data == Some(if "contratos" in r.fields then ListOrEmpty(r.fields["contratos"]) else [])
    ensures r.JObj? && "data" !in r.fields && v in {AssetEditais, RootEditais} ==>
      data == Some(if "contratacoes" in r.fields then ListOrEmpty(r.fields["contratacoes"]) else [])
  {
    match r
    case JList(xs) => Some(xs)
    case JObj(d) =>
      FirstPresentPair(d, "data", DataKey(v), JList([]));
      Some(ListOrEmpty(FirstPresent(d, ["data", DataKey(v)], JList([]))))
    case _ => None
  }

  /** `totalPaginas` (else `totalPages`, else 1) of a dict page; 1 for a list. */
  function TotalPages(r: Json): Json {
    match r
    case JObj(d) => FirstPresent(d, ["totalPaginas", "totalPages"], JInt(1))
    case _ => JInt(1)
  }

  /** The records page `p` contributes to the collection. */
  function Fetched(v: Variant, pages: seq<Json>, p: int): seq<Json> {
    var r := PageAt(pages, p);
    if r == JNull then [] else PageData(v, r).GetOr([])
  }

  /** One iteration of a paginator loop: either it stops, having added
      `data` to the collection, or it moves on to the next page with the
      updated error counter and checkpoint counter. */
  datatype Step =
    | Halt(data: seq<Json>, reason: Stop, cps: seq<int>)
    | Next(data: seq<Json>, cps: seq<int>, errors: nat, since: nat)

  function StepAt(v: Variant, pages: seq<Json>, page: int, errors: nat, since: nat): (s: Step)
    ensures s.Next? && FailedPage(pages, page) ==> s.errors == errors + 1 && s.errors < MaxErrors
    ensures s.Halt? ==> (s.reason == TooManyErrors <==> FailedPage(pages, page))
    ensures s.Halt? && s.reason == TooManyErrors ==> errors + 1 >= MaxErrors
    ensures s.Next? && !FailedPage(pages, page) ==> s.errors == 0
  {
    var r := PageAt(pages, page);
    if r == JNull then
      if errors + 1 >= MaxErrors then Halt([], TooManyErrors, [])
      else Next([], [], errors + 1, since)
    else match PageData(v, r)
      case None => Halt([], UnexpectedType, [])
      case Some(data) =>
        if |data| == 0 then Halt([], NoData, [])
        else match v
          case Contratos =>
            if |data| < PageSize then Halt(data, ShortPage, [])
            else (match Numeric(TotalPages(r))
              case None => Halt(data, Crashed, [])
              case Some(t) => if page >= t then Halt(data, LastPage, []) else Next(data, [], 0, since))
          case AssetContratos =>
            (match Numeric(TotalPages(r))
            case None => Halt(data, Crashed, [])
            case Some(t) =>
              if page >= t then Halt(data, LastPage, [])
              else if |data| < PageSize then Halt(data, ShortPage, [])
              else Next(data, [], 0, since))
          case AssetEditais => Next(data, [], 0, since)
          case RootEditais =>
            var due := since + 1 >= RootCheckpointInterval;
            var cps := if due then [page] else [];
            var next := if due then 0 else since + 1;
            if |data| < PageSize then Halt(data, ShortPage, cps)
            else Next(data, cps, 0, next)
  }

  /** A step adds to the collection exactly the records of its page. */
  lemma StepData(v: Variant, pages: seq<Json>, page: int, errors: nat, since: nat)
    ensures StepAt(v, pages, page, errors, since).data == Fetched(v, pages, page)
  {
  }

  /** Page `p` was a proper page of records: a full one in the variants with
      a short-page stop, a non-empty one otherwise, below `totalPaginas` in
      the contract variants. */
  predicate ProperPage(v: Variant, pages: seq<Json>, p: int) {
    && PageData(v, PageAt(pages, p)).Some?
    && |Fetched(v, pages, p)| >= (if v == AssetEditais then 1 else PageSize)
    && (v in {Contratos, AssetContratos} ==>
          Numeric(TotalPages(PageAt(pages, p))).Some? && p < Numeric(TotalPages(PageAt(pages, p))).value)
  }

  /** A step that moves on from a page that did not fail saw a proper page. */
  lemma StepPastProperPage(v: Variant, pages: seq<Json>, page: int, errors: nat, since: nat)
    ensures var s := StepAt(v, pages, page, errors, since);
      s.Next? && !FailedPage(pages, page) ==> ProperPage(v, pages, page)
  {
  }

  /** The checkpoint bookkeeping of one step: only the root editais variant
      saves, on the tenth page with records since the last save. */
  lemma StepCheckpoint(v: Variant, pages: seq<Json>, page: int, errors: nat, since: nat)
    ensures var s := StepAt(v, pages, page, errors, since);
      && (v == RootEditais ==>
            s.cps == (if |Fetched(v, pages, page)| > 0 && since + 1 >= RootCheckpointInterval then [page] else []))
      && (s.Next? && v == RootEditais ==>
            s.since == (if |Fetched(v, pages, page)| == 0 then since else if since + 1 >= RootCheckpointInterval then 0 else since + 1))
      && (v != RootEditais ==> s.cps == [])
  {
  }

  /** The paginator loop from page `page`, with `errors` consecutive failures
      already counted and, for the root editais variant, `since` data pages
      since the last checkpoint. */
  function Paginate(v: Variant, pages: seq<Json>, page: int, errors: nat, since: nat): (run: Run)
    requires page >= 1 && errors < MaxErrors
    ensures |run.requested| >= 1 && run.requested[|run.requested| - 1] == page + |run.requested| - 1
    decreases if page <= |pages| then |pages| - page + 4 else MaxErrors - errors
  {
    match StepAt(v, pages, page, errors, since)
    case Halt(data, reason, cps) => Run(data, [page], reason, cps, if |cps| > 0 then [data] else [])
    case Next(data, cps, e, s) =>
      var rest := Paginate(v, pages, page + 1, e, s);
      var requested := [page] + rest.requested;
      assert requested[|requested| - 1] == rest.requested[|rest.requested| - 1];
      Run(data + rest.records, requested, rest.stop, cps + rest.checkpoints,
          (if |cps| > 0 then [data] else []) + Prefixed(data, rest.saved))
  }

  /** One step of the loop, for the records: a halting step's records are
      the run's; otherwise they precede those of the rest of the run. */
  lemma PaginateRecords(v: Variant, pages: seq<Json>, page: int, errors: nat, since: nat)
    requires page >= 1 && errors < MaxErrors
    ensures var st := StepAt(v, pages, page, errors, since);
      var run := Paginate(v, pages, page, errors, since);
      && (st.Halt? ==> run.records == st.data)
      && (st.Next? ==>
            && st.errors < MaxErrors
            && run.records == st.data + Paginate(v, pages, page + 1, st.errors, st.since).records)
  {
  }

  /** One step of the loop, for the pages requested. */
  lemma PaginateRequested(v: Variant, pages: seq<Json>, page: int, errors: nat, since: nat)
    requires page >= 1 && errors < MaxErrors
    ensures var st := StepAt(v, pages, page, errors, since);
      var run := Paginate(v, pages, page, errors, since);
      && (st.Halt? ==> run.requested == [page])
      && (st.Next? ==>
            && st.errors < MaxErrors
            && run.requested == [page] + Paginate(v, pages, page + 1, st.errors, st.since).requested)
  {
  }

  /** One step of the loop, for the checkpoints saved. */
  lemma PaginateCheckpoints(v: Variant, pages: seq<Json>, page: int, errors: nat, since: nat)
    requires page >= 1 && errors < MaxErrors
    ensures var st := StepAt(v, pages, page, errors, since);
      var run := Paginate(v, pages, page, errors, since);
      && (st.Halt? ==> run.checkpoints == st.cps)
      && (st.Next? ==>
            && st.errors < MaxErrors
            && run.checkpoints == st.cps + Paginate(v, pages, page + 1, st.errors, st.since).checkpoints)
  {
  }

  /** Each collection of `xs` with `data` in front of it. */
  function Prefixed(data: seq<Json>, xs: seq<seq<Json>>): (r: seq<seq<Json>>)
    ensures |r| == |xs|
    ensures forall i :: 0 <= i < |xs| ==> r[i] == data + xs[i]
  {
    seq(|xs|, i requires 0 <= i < |xs| => data + xs[i])
  }

  /** One step of the loop, for the collections handed to the checkpoint
      callback: a step that saves hands over its own records, and every
      later one is handed over after them. */
  lemma PaginateSaved(v: Variant, pages: seq<Json>, page: int, errors: nat, since: nat)
    requires page >= 1 && errors < MaxErrors
    ensures var st := StepAt(v, pages, page, errors, since);
      var run := Paginate(v, pages, page, errors, since);
      var now: seq<seq<Json>> := if |st.cps| > 0 then [st.data] else [];
      && (st.Halt? ==> run.saved == now)
      && (st.Next? ==>
            && st.errors < MaxErrors
            && run.saved == now + Prefixed(st.data, Paginate(v, pages, page + 1, st.errors, st.since).saved))
  {
  }

  /** The shape of a run after one step: how many pages it requests, the
      last of them and why it stops. */
  lemma PaginateTail(v: Variant, pages: seq<Json>, page: int, errors: nat, since: nat)
    requires page >= 1 && errors < MaxErrors
    ensures var st := StepAt(v, pages, page, errors, since);
      var run := Paginate(v, pages, page, errors, since);
      && (st.Halt? ==> |run.requested| == 1 && LastRequested(run) == page && run.stop == st.reason)
      && (st.Next? ==>
            && st.errors < MaxErrors
            && (var rest := Paginate(v, pages, page + 1, st.errors, st.since);
                && |run.requested| == |rest.requested| + 1
                && LastRequested(run) == LastRequested(rest)
                && run.stop == rest.stop))
  {
  }

  /** `req` counts up by one from `page`. */
  predicate Consecutive(req: seq<int>, page: int) {
    forall i :: 0 <= i < |req| ==> req[i] == page + i
  }

  /** The pages a run requests are consecutive from the start page. */
  lemma {:induction false} RequestedConsecutive(v: Variant, pages: seq<Json>, page: int, errors: nat, since: nat, run: Run)
    requires page >= 1 && errors < MaxErrors && run == Paginate(v, pages, page, errors, since)
    ensures Consecutive(run.requested, page)
    decreases if page <= |pages| then |pages| - page + 4 else MaxErrors - errors
  {
    var st := StepAt(v, pages, page, errors, since);
    PaginateRequested(v, pages, page, errors, since);
    if st.Next? {
      var rest := Paginate(v, pages, page + 1, st.errors, st.since);
      RequestedConsecutive(v, pages, page + 1, st.errors, st.since, rest);
      ConsecutiveCons(page, rest.requested, run.requested);
    } else {
      ConsecutiveCons(page, [], run.requested);
    }
  }

  /** Prepending `page` to pages counting up from `page + 1`. */
  lemma ConsecutiveCons(page: int, rest: seq<int>, req: seq<int>)
    requires Consecutive(rest, page + 1) && req == [page] + rest
    ensures Consecutive(req, page)
  {
    forall i | 0 <= i < |req|
      ensures req[i] == page + i
    {
      if i > 0 {
        assert req[i] == rest[i - 1];
      }
    }
  }

  /** The last page a run requested. */
  function LastRequested(run: Run): int
    requires |run.requested| >= 1
  {
    run.requested[|run.requested| - 1]
  }

  /** What the caller receives: the collection, or `None` when the run
      ended in an exception. */
  function Collected(run: Run): Option<seq<Json>> {
    if run.stop == Crashed then None else Some(run.records)
  }

  // ---------------------------------------------------------------------------
  // Properties of a run
  // ---------------------------------------------------------------------------

  /** The records `n` consecutive pages from `page` contribute, in page order. */
  function Harvest(v: Variant, pages: seq<Json>, page: int, n: nat): seq<Json>
    decreases n
  {
    if n == 0 then [] else Fetched(v, pages, page) + Harvest(v, pages, page + 1, n - 1)
  }

  /** The collection is the concatenation of the requested pages' records,
      in page order: nothing is dropped, reordered or duplicated. */
  lemma {:induction false} RecordsAreHarvest(v: Variant, pages: seq<Json>, page: int, errors: nat, since: nat, run: Run)
    requires page >= 1 && errors < MaxErrors && run == Paginate(v, pages, page, errors, since)
    ensures run.records == Harvest(v, pages, page, |run.requested|)
    decreases if page <= |pages| then |pages| - page + 4 else MaxErrors - errors
  {
    var st := StepAt(v, pages, page, errors, since);
    PaginateRecords(v, pages, page, errors, since);
    PaginateTail(v, pages, page, errors, since);
    StepData(v, pages, page, errors, since);
    if st.Next? {
      var rest := Paginate(v, pages, page + 1, st.errors, st.since);
      RecordsAreHarvest(v, pages, page + 1, st.errors, st.since, rest);
      HarvestStep(v, pages, page, |rest.requested|, st.data, rest.records);
    } else {
      HarvestStep(v, pages, page, 0, st.data, []);
    }
  }

  /** Prepending a page's records to the harvest of the pages after it. */
  lemma HarvestStep(v: Variant, pages: seq<Json>, page: int, n: nat, data: seq<Json>, rest: seq<Json>)
    requires data == Fetched(v, pages, page) && rest == Harvest(v, pages, page + 1, n)
    ensures data + rest == Harvest(v, pages, page, n + 1)
    ensures n == 0 ==> data == Harvest(v, pages, page, 1)
  {
    if n == 0 {
      assert data + rest == data;
    }
  }

  /** At every checkpoint the callback is handed the whole collection so
      far: the records of the pages from `page` up to the checkpoint page. */
  lemma {:induction false} CheckpointsSaved(v: Variant, pages: seq<Json>, page: int, errors: nat, since: nat, run: Run)
    requires page >= 1 && errors < MaxErrors && run == Paginate(v, pages, page, errors, since)
    ensures SavedHarvest(v, pages, page, run.checkpoints, run.saved)
    decreases if page <= |pages| then |pages| - page + 4 else MaxErrors - errors
  {
    var st := StepAt(v, pages, page, errors, since);
    PaginateSaved(v, pages, page, errors, since);
    PaginateCheckpoints(v, pages, page, errors, since);
    StepSavesOwnPage(v, pages, page, errors, since);
    var now: seq<seq<Json>> := if |st.cps| > 0 then [st.data] else [];
    if st.Next? {
      var rest := Paginate(v, pages, page + 1, st.errors, st.since);
      CheckpointsSaved(v, pages, page + 1, st.errors, st.since, rest);
      SavedPrepend(v, pages, page, st.data, st.cps, now, rest.checkpoints, rest.saved, run.checkpoints, run.saved);
    } else {
      SavedPrepend(v, pages, page, st.data, st.cps, now, [], [], run.checkpoints, run.saved);
    }
  }

  /** A step saves at most one checkpoint, at its own page, and hands over
      its page's records. */
  lemma StepSavesOwnPage(v: Variant, pages: seq<Json>, page: int, errors: nat, since: nat)
    ensures var st := StepAt(v, pages, page, errors, since);
      (st.cps == [] || st.cps == [page]) && st.data == Fetched(v, pages, page)
  {
  }

  /** `saved[i]` is the harvest from `page` through checkpoint page `cps[i]`. */
  predicate SavedHarvest(v: Variant, pages: seq<Json>, page: int, cps: seq<int>, saved: seq<seq<Json>>) {
    && |saved| == |cps|
    && forall i :: 0 <= i < |saved| ==> page <= cps[i] && saved[i] == Harvest(v, pages, page, cps[i] - page + 1)
  }

  /** A step that may save at its own page, followed by the rest of a run. */
  lemma SavedPrepend(v: Variant, pages: seq<Json>, page: int, data: seq<Json>, cps: seq<int>, now: seq<seq<Json>>,
                     restCps: seq<int>, restSaved: seq<seq<Json>>, runCps: seq<int>, runSaved: seq<seq<Json>>)
    requires data == Fetched(v, pages, page)
    requires cps == [] || cps == [page]
    requires now == if |cps| > 0 then [data] else []
    requires SavedHarvest(v, pages, page + 1, restCps, restSaved)
    requires runCps == cps + restCps
    requires runSaved == now + Prefixed(data, restSaved)
    ensures SavedHarvest(v, pages, page, runCps, runSaved)
  {
    HarvestStep(v, pages, page, 0, data, []);
    assert SavedHarvest(v, pages, page, cps, now);
    SavedShift(v, pages, page, data, restCps, restSaved);
    SavedConcat(v, pages, page, cps, now, restCps, Prefixed(data, restSaved));
  }

  /** The records of `page` in front of harvests from `page + 1` give the
      harvests from `page`. */
  lemma SavedShift(v: Variant, pages: seq<Json>, page: int, data: seq<Json>, cps: seq<int>, saved: seq<seq<Json>>)
    requires data == Fetched(v, pages, page)
    requires SavedHarvest(v, pages, page + 1, cps, saved)
    ensures SavedHarvest(v, pages, page, cps, Prefixed(data, saved))
  {
    var r := Prefixed(data, saved);
    forall i | 0 <= i < |r|
      ensures page <= cps[i] && r[i] == Harvest(v, pages, page, cps[i] - page + 1)
    {
      HarvestStep(v, pages, page, cps[i] - page, data, saved[i]);
    }
  }

  lemma SavedConcat(v: Variant, pages: seq<Json>, page: int, c1: seq<int>, s1: seq<seq<Json>>,
                    c2: seq<int>, s2: seq<seq<Json>>)
    requires SavedHarvest(v, pages, page, c1, s1) && SavedHarvest(v, pages, page, c2, s2)
    ensures SavedHarvest(v, pages, page, c1 + c2, s1 + s2)
  {
    var c, s := c1 + c2, s1 + s2;
    forall i | 0 <= i < |s|
      ensures page <= c[i] && s[i] == Harvest(v, pages, page, c[i] - page + 1)
    {
      if i < |s1| {
        assert c[i] == c1[i] && s[i] == s1[i];
      } else {
        assert c[i] == c2[i - |c1|] && s[i] == s2[i - |s1|];
      }
    }
  }

  /** Every page in `[a, b)` failed. */
  predicate AllFailed(pages: seq<Json>, a: int, b: int) {
    forall p :: a <= p < b ==> FailedPage(pages, p)
  }

  /** A run ends on a failed page exactly when it gives up on errors. */
  lemma {:induction false} GiveUpOnFailure(v: Variant, pages: seq<Json>, page: int, errors: nat, since: nat, run: Run)
    requires page >= 1 && errors < MaxErrors && run == Paginate(v, pages, page, errors, since)
    ensures run.stop == TooManyErrors <==> FailedPage(pages, LastRequested(run))
    decreases if page <= |pages| then |pages| - page + 4 else MaxErrors - errors
  {
    var st := StepAt(v, pages, page, errors, since);
    PaginateTail(v, pages, page, errors, since);
    if st.Next? {
      GiveUpOnFailure(v, pages, page + 1, st.errors, st.since, Paginate(v, pages, page + 1, st.errors, st.since));
    }
  }

  /** A run of `n` pages from `page` ending on `last` that `gaveUp` did so
      only after `MaxErrors` failures in a row, counting `carried` earlier
      ones: every page from the `MaxErrors`-th last (or from `page`) failed. */
  predicate LongStreak(pages: seq<Json>, page: int, carried: nat, n: nat, last: int, gaveUp: bool) {
    gaveUp ==>
      && n + carried >= MaxErrors
      && AllFailed(pages, if last - (MaxErrors - 1) > page then last - (MaxErrors - 1) else page, last + 1)
  }

  /** A run gives up only after `MaxErrors` consecutive failed pages,
      counting the `errors` failures carried in. */
  lemma {:induction false} GiveUpStreak(v: Variant, pages: seq<Json>, page: int, errors: nat, since: nat, run: Run)
    requires page >= 1 && errors < MaxErrors && run == Paginate(v, pages, page, errors, since)
    ensures LongStreak(pages, page, errors, |run.requested|, LastRequested(run), run.stop == TooManyErrors)
    decreases if page <= |pages| then |pages| - page + 4 else MaxErrors - errors
  {
    var st := StepAt(v, pages, page, errors, since);
    PaginateTail(v, pages, page, errors, since);
    if st.Next? {
      var rest := Paginate(v, pages, page + 1, st.errors, st.since);
      GiveUpStreak(v, pages, page + 1, st.errors, st.since, rest);
      StreakStep(pages, page, errors, st.errors, |rest.requested|, LastRequested(rest), rest.stop == TooManyErrors,
                 |run.requested|, LastRequested(run), run.stop == TooManyErrors);
    } else {
      StreakStart(pages, page, errors, st.reason == TooManyErrors);
    }
  }

  /** A run that halts on its first page gave up only if that page failed
      with the last error the loop allows. */
  lemma StreakStart(pages: seq<Json>, page: int, errors: nat, gaveUp: bool)
    requires gaveUp ==> FailedPage(pages, page) && errors + 1 >= MaxErrors
    ensures LongStreak(pages, page, errors, 1, page, gaveUp)
  {
  }

  /** One step of the failure streak: a streak ending at `last`, the `n`-th
      page from `page + 1`, extends to page `page` when that page failed. */
  lemma StreakStep(pages: seq<Json>, page: int, errors: nat, e: nat, n: nat, last: int, gaveUp: bool,
                   n': nat, last': int, gaveUp': bool)
    requires FailedPage(pages, page) ==> e == errors + 1
    requires !FailedPage(pages, page) ==> e == 0
    requires n >= 1 && last == page + n
    requires LongStreak(pages, page + 1, e, n, last, gaveUp)
    requires n' == n + 1 && last' == last && gaveUp' == gaveUp
    ensures LongStreak(pages, page, errors, n', last', gaveUp')
  {
  }

  /** No streak of failed pages within `[page, last]` reaches `MaxErrors`,
      counting `carried` earlier failures for a streak that starts at `page`. */
  predicate ShortStreaks(pages: seq<Json>, page: int, carried: nat, last: int) {
    forall a, b :: page <= a < b <= last && AllFailed(pages, a, b) ==>
      (b - a) + (if a == page then carried else 0) < MaxErrors
  }

  /** No streak of failures before the last page reaches `MaxErrors`
      (counting the `errors` carried in when the streak starts the run). */
  lemma {:induction false} NoEarlyGiveUp(v: Variant, pages: seq<Json>, page: int, errors: nat, since: nat, run: Run)
    requires page >= 1 && errors < MaxErrors && run == Paginate(v, pages, page, errors, since)
    ensures ShortStreaks(pages, page, errors, LastRequested(run))
    decreases if page <= |pages| then |pages| - page + 4 else MaxErrors - errors
  {
    var st := StepAt(v, pages, page, errors, since);
    PaginateTail(v, pages, page, errors, since);
    if st.Next? {
      var rest := Paginate(v, pages, page + 1, st.errors, st.since);
      NoEarlyGiveUp(v, pages, page + 1, st.errors, st.since, rest);
      ShortStreaksStep(pages, page, errors, st.errors, LastRequested(rest));
    }
  }

  /** One step of the streak bound: if page `page` failed it extends the
      carried streak by one, otherwise it resets it. */
  lemma ShortStreaksStep(pages: seq<Json>, page: int, errors: nat, e: nat, last: int)
    requires last > page
    requires FailedPage(pages, page) ==> e == errors + 1 && e < MaxErrors
    requires !FailedPage(pages, page) ==> e == 0
    requires ShortStreaks(pages, page + 1, e, last)
    ensures ShortStreaks(pages, page, errors, last)
  {
    forall a, b | page <= a < b <= last && AllFailed(pages, a, b)
      ensures (b - a) + (if a == page then errors else 0) < MaxErrors
    {
      if a == page && b > page + 1 {
        assert AllFailed(pages, page + 1, b);
      }
    }
  }

  /** Stopping with `stop` on page `last` is explained by that page: its
      type, its records and its `totalPaginas`, as the variant's loop tests
      them. */
  predicate StopExplained(v: Variant, pages: seq<Json>, last: int, stop: Stop) {
    var r := PageAt(pages, last);
    && (stop == UnexpectedType <==> r != JNull && PageData(v, r).None?)
    && (stop == NoData <==> r != JNull && PageData(v, r) == Some([]))
    && (stop == ShortPage ==> 0 < |Fetched(v, pages, last)| < PageSize)
    && (stop == LastPage ==>
          v in {Contratos, AssetContratos} && Numeric(TotalPages(r)).Some? && last >= Numeric(TotalPages(r)).value)
    && (stop == Crashed ==> v in {Contratos, AssetContratos} && Numeric(TotalPages(r)).None?)
    && (v == AssetEditais ==> stop in {TooManyErrors, UnexpectedType, NoData})
    && (v == RootEditais ==> stop in {TooManyErrors, UnexpectedType, NoData, ShortPage})
  }

  /** A halting step's reason is explained by the page it halted on. */
  lemma HaltExplained(v: Variant, pages: seq<Json>, page: int, errors: nat, since: nat)
    ensures var st := StepAt(v, pages, page, errors, since);
      st.Halt? ==> StopExplained(v, pages, page, st.reason)
  {
  }

  /** The page on which a run stops explains why it stopped. */
  lemma {:induction false} StopReason(v: Variant, pages: seq<Json>, page: int, errors: nat, since: nat, run: Run)
    requires page >= 1 && errors < MaxErrors && run == Paginate(v, pages, page, errors, since)
    ensures StopExplained(v, pages, LastRequested(run), run.stop)
    decreases if page <= |pages| then |pages| - page + 4 else MaxErrors - errors
  {
    var st := StepAt(v, pages, page, errors, since);
    PaginateTail(v, pages, page, errors, since);
    if st.Halt? {
      HaltExplained(v, pages, page, errors, since);
    } else {
      StopReason(v, pages, page + 1, st.errors, st.since, Paginate(v, pages, page + 1, st.errors, st.since));
    }
  }

  /** Every page in `[a, b)` failed or was a proper page. */
  predicate ProperOrFailed(v: Variant, pages: seq<Json>, a: int, b: int) {
    forall p :: a <= p < b && !FailedPage(pages, p) ==> ProperPage(v, pages, p)
  }

  /** Every page before the last either failed or was a proper page of
      records: a full one (at least `PageSize` records) in the variants with a
      short-page stop, a non-empty one in the Asset-Manager editais variant;
      the contract variants also saw it below `totalPaginas`. */
  lemma {:induction false} NonFinalPages(v: Variant, pages: seq<Json>, page: int, errors: nat, since: nat, run: Run)
    requires page >= 1 && errors < MaxErrors && run == Paginate(v, pages, page, errors, since)
    ensures ProperOrFailed(v, pages, page, LastRequested(run))
    decreases if page <= |pages| then |pages| - page + 4 else MaxErrors - errors
  {
    var st := StepAt(v, pages, page, errors, since);
    PaginateTail(v, pages, page, errors, since);
    StepPastProperPage(v, pages, page, errors, since);
    if st.Next? {
      var rest := Paginate(v, pages, page + 1, st.errors, st.since);
      NonFinalPages(v, pages, page + 1, st.errors, st.since, rest);
      ProperStep(v, pages, page, LastRequested(rest));
    }
  }

  /** Extending the range by a page that failed or was proper. */
  lemma ProperStep(v: Variant, pages: seq<Json>, page: int, last: int)
    requires !FailedPage(pages, page) ==> ProperPage(v, pages, page)
    requires ProperOrFailed(v, pages, page + 1, last)
    ensures ProperOrFailed(v, pages, page, last)
  {
  }

  /** The pages among `n` consecutive ones from `page` that added records. */
  function DataPages(v: Variant, pages: seq<Json>, page: int, n: nat): (d: seq<int>)
    decreases n
  {
    if n == 0 then []
    else (if |Fetched(v, pages, page)| > 0 then [page] else []) + DataPages(v, pages, page + 1, n - 1)
  }

  /** `cps` holds exactly every tenth page of `d`, counting `since` pages
      before `d` starts. */
  predicate SavedEveryTenth(cps: seq<int>, d: seq<int>, since: nat) {
    && since < RootCheckpointInterval
    && |cps| == (|d| + since) / RootCheckpointInterval
    && forall i :: 0 <= i < |cps| ==> cps[i] == d[RootCheckpointInterval * (i + 1) - 1 - since]
  }

  /** The root editais paginator saves a checkpoint at every tenth page that
      added records (counting the `since` pages carried in), and nowhere else. */
  lemma {:induction false} RootCheckpoints(pages: seq<Json>, page: int, errors: nat, since: nat, run: Run)
    requires page >= 1 && errors < MaxErrors && since < RootCheckpointInterval
    requires run == Paginate(RootEditais, pages, page, errors, since)
    ensures SavedEveryTenth(run.checkpoints, DataPages(RootEditais, pages, page, |run.requested|), since)
    decreases if page <= |pages| then |pages| - page + 4 else MaxErrors - errors
  {
    var st := StepAt(RootEditais, pages, page, errors, since);
    if st.Halt? {
      RootHaltAligned(pages, page, errors, since, run);
    } else {
      PaginateCheckpoints(RootEditais, pages, page, errors, since);
      StepCheckpoint(RootEditais, pages, page, errors, since);
      var rest := Paginate(RootEditais, pages, page + 1, st.errors, st.since);
      RootCheckpoints(pages, page + 1, st.errors, st.since, rest);
      RootNextAligned(pages, page, errors, since, run, rest);
    }
  }

  /** The last page of the root editais paginator keeps the checkpoint rule. */
  lemma RootHaltAligned(pages: seq<Json>, page: int, errors: nat, since: nat, run: Run)
    requires page >= 1 && errors < MaxErrors && since < RootCheckpointInterval
    requires run == Paginate(RootEditais, pages, page, errors, since)
    requires StepAt(RootEditais, pages, page, errors, since).Halt?
    ensures SavedEveryTenth(run.checkpoints, DataPages(RootEditais, pages, page, |run.requested|), since)
  {
    var st := StepAt(RootEditais, pages, page, errors, since);
    var head := if |Fetched(RootEditais, pages, page)| > 0 then [page] else [];
    PaginateCheckpoints(RootEditais, pages, page, errors, since);
    PaginateTail(RootEditais, pages, page, errors, since);
    StepCheckpoint(RootEditais, pages, page, errors, since);
    DataPagesStep(RootEditais, pages, page, 0, |run.requested|, head, []);
    var s := if |head| == 0 then since else if since + 1 >= RootCheckpointInterval then 0 else since + 1;
    assert SavedEveryTenth([], [], s);
    CheckpointAlign(head, st.cps, [], [], since, s,
                    run.checkpoints, DataPages(RootEditais, pages, page, |run.requested|));
  }

  /** A page the root editais paginator moves past prepends its own
      checkpoint, if any, to those of the pages after it. */
  lemma RootNextAligned(pages: seq<Json>, page: int, errors: nat, since: nat, run: Run, rest: Run)
    requires page >= 1 && errors < MaxErrors && since < RootCheckpointInterval
    requires run == Paginate(RootEditais, pages, page, errors, since)
    requires var st := StepAt(RootEditais, pages, page, errors, since);
      && st.Next?
      && rest == Paginate(RootEditais, pages, page + 1, st.errors, st.since)
      && SavedEveryTenth(rest.checkpoints, DataPages(RootEditais, pages, page + 1, |rest.requested|), st.since)
    ensures SavedEveryTenth(run.checkpoints, DataPages(RootEditais, pages, page, |run.requested|), since)
  {
    var st := StepAt(RootEditais, pages, page, errors, since);
    var head := if |Fetched(RootEditais, pages, page)| > 0 then [page] else [];
    PaginateCheckpoints(RootEditais, pages, page, errors, since);
    PaginateTail(RootEditais, pages, page, errors, since);
    StepCheckpoint(RootEditais, pages, page, errors, since);
    var d' := DataPages(RootEditais, pages, page + 1, |rest.requested|);
    DataPagesStep(RootEditais, pages, page, |rest.requested|, |run.requested|, head, d');
    CheckpointAlign(head, st.cps, rest.checkpoints, d', since, st.since,
                    run.checkpoints, DataPages(RootEditais, pages, page, |run.requested|));
  }

  /** Prepending a page to the data pages of the pages after it. */
  lemma DataPagesStep(v: Variant, pages: seq<Json>, page: int, n: nat, m: nat, head: seq<int>, rest: seq<int>)
    requires head == (if |Fetched(v, pages, page)| > 0 then [page] else [])
    requires rest == DataPages(v, pages, page + 1, n) && m == n + 1
    ensures DataPages(v, pages, page, m) == head + rest
  {
  }

  /** One step of the checkpoint arithmetic: prepending a page (`head`, empty
      when it added nothing) to the data pages keeps checkpoints at every
      tenth data page. */
  lemma CheckpointAlign(head: seq<int>, hc: seq<int>, rest: seq<int>, d': seq<int>, since: nat, s: nat,
                         cps: seq<int>, d: seq<int>)
    requires since < RootCheckpointInterval && |head| <= 1
    requires hc == (if |head| == 1 && since + 1 >= RootCheckpointInterval then head else [])
    requires s == (if |head| == 0 then since else if since + 1 >= RootCheckpointInterval then 0 else since + 1)
    requires SavedEveryTenth(rest, d', s)
    requires cps == hc + rest && d == head + d'
    ensures SavedEveryTenth(cps, d, since)
  {
    forall i | 0 <= i < |cps|
      ensures cps[i] == d[RootCheckpointInterval * (i + 1) - 1 - since]
    {
      if |hc| == 1 && i > 0 {
        assert cps[i] == rest[i - 1];
      }
    }
  }

  // ---------------------------------------------------------------------------
  // Entry points
  // ---------------------------------------------------------------------------

  /** What a run from page 1 promises its caller: the pages requested are
      1, 2, ... in turn, the collection is their records in page order, and
      the last page requested explains the stop. */
  predicate FromFirstPage(v: Variant, pages: seq<Json>, run: Run) {
    && |run.requested| >= 1
    && Consecutive(run.requested, 1)
    && run.records == Harvest(v, pages, 1, |run.requested|)
    && StopExplained(v, pages, LastRequested(run), run.stop)
  }

  lemma RunFromFirstPage(v: Variant, pages: seq<Json>)
    ensures FromFirstPage(v, pages, Paginate(v, pages, 1, 0, 0))
  {
    var run := Paginate(v, pages, 1, 0, 0);
    RequestedConsecutive(v, pages, 1, 0, 0, run);
    RecordsAreHarvest(v, pages, 1, 0, 0, run);
    StopReason(v, pages, 1, 0, 0, run);
  }

  /** `get_all_contratos` of the backend and root clients. */
  function GetAllContratos(pages: seq<Json>): (run: Run)
    ensures FromFirstPage(Contratos, pages, run)
  {
    RunFromFirstPage(Contratos, pages);
    Paginate(Contratos, pages, 1, 0, 0)
  }

  /** `get_all_contratos` of the Asset-Manager client. */
  function AssetGetAllContratos(pages: seq<Json>): (run: Run)
    ensures FromFirstPage(AssetContratos, pages, run)
  {
    RunFromFirstPage(AssetContratos, pages);
    Paginate(AssetContratos, pages, 1, 0, 0)
  }

  /** `get_all_editais` of the Asset-Manager client: it stops only on three
      failures, a response of an unexpected type or an empty page. */
  function AssetGetAllEditais(pages: seq<Json>): (run: Run)
    ensures FromFirstPage(AssetEditais, pages, run)
    ensures run.stop in {TooManyErrors, UnexpectedType, NoData}
  {
    RunFromFirstPage(AssetEditais, pages);
    Paginate(AssetEditais, pages, 1, 0, 0)
  }

  // ---------------------------------------------------------------------------
  // Checkpoint file
  // ---------------------------------------------------------------------------

  /** The checkpoint file as `_get_last_checkpoint_page` finds it. */
  datatype CheckpointFile = Missing | Unreadable | Parsed(content: Json)

  const CheckpointKey: string := "last_checkpoint_page"

  /** `_get_last_checkpoint_page`: the stored value (whatever its type), or 1
      when the file is missing or unreadable, is not a dict, or lacks the key. */
  function LastCheckpointPage(f: CheckpointFile): (p: Json)
    ensures !(f.Parsed? && f.content.JObj? && CheckpointKey in f.content.fields) ==> p == JInt(1)
    ensures f.Parsed? && f.content.JObj? && CheckpointKey in f.content.fields ==> p == f.content.fields[CheckpointKey]
  {
    match f
    case Parsed(JObj(d)) => GetOr(d, CheckpointKey, JInt(1))
    case _ => JInt(1)
  }

  /** `_save_checkpoint_page`: the file content written for `page`. */
  function SaveCheckpoint(page: int): CheckpointFile {
    Parsed(JObj(map[CheckpointKey := JInt(page)]))
  }

  /** Saving a page and reading the checkpoint back gives that page. */
  lemma CheckpointRoundTrip(page: int)
    ensures LastCheckpointPage(SaveCheckpoint(page)) == JInt(page)
  {
  }

  /** The root editais paginator's first page: one page before the
      checkpoint when the checkpoint is above 1, else page 1; `None` when the
      stored value cannot be compared with an integer. */
  function RootStartPage(checkpoint: Json): (start: Option<int>)
    ensures start.Some? <==> Numeric(checkpoint).Some?
    ensures start.Some? ==> start.value >= 1
    ensures start.Some? && Numeric(checkpoint).value > 1 ==> start.value == Numeric(checkpoint).value - 1
    ensures start.Some? && Numeric(checkpoint).value <= 1 ==> start.value == 1
  {
    match Numeric(checkpoint)
    case None => None
    case Some(cp) => Some(if cp > 1 then (if 1 > cp - 1 then 1 else cp - 1) else 1)
  }

  /** `get_all_editais` of the root client: resume from the checkpoint file,
      then paginate; `None` when the start page cannot be computed. */
  function RootGetAllEditais(pages: seq<Json>, f: CheckpointFile): (r: Option<Run>)
    ensures r.Some? <==> Numeric(LastCheckpointPage(f)).Some?
  {
    match RootStartPage(LastCheckpointPage(f))
    case None => None
    case Some(start) => Some(Paginate(RootEditais, pages, start, 0, 0))
  }

  /** Each time the root client saves a checkpoint, its callback is handed
      the whole collection so far: the records of every page from the start
      page through the checkpoint page. */
  lemma RootCheckpointCallbacks(pages: seq<Json>, f: CheckpointFile, start: int, run: Option<Run>)
    requires RootStartPage(LastCheckpointPage(f)) == Some(start)
    requires run == RootGetAllEditais(pages, f)
    ensures run.Some?
    ensures SavedHarvest(RootEditais, pages, start, run.value.checkpoints, run.value.saved)
  {
    CheckpointsSaved(RootEditais, pages, start, 0, 0, run.value);
  }
}

=== FILE: services.dfy ===
/** The contratos side of the backend services: items of contratos annotated
    with the contrato's identifiers, the lookup of stored items by contrato,
    and the update methods that fetch a list and store it. */
module Services {
  import opened Opt
  import opened Values
  import opened Lists
  import opened Http
  import opened Keys

  // ---------------------------------------------------------------------------
  // Items of contratos
  // ---------------------------------------------------------------------------

  /** The identifiers `fetch_itens_for_all_contratos` reads from a contrato. */
  datatype ContratoIds = ContratoIds(cnpj: Json, ano: Json, sequencial: Json) {
    predicate Complete() {
      Truthy(cnpj) && Truthy(ano) && Truthy(sequencial)
    }
  }

  /** The CNPJ as the key method reads it, `anoContrato` and
      `sequencialContrato` defaulting to ""; `None` where `orgaoEntidade` is
      not a dict and the nested `.get` raises. */
  function ContratoIdsOf(r: Record): Option<ContratoIds> {
    var cnpj :- CnpjPart(r);
    Some(ContratoIds(cnpj, GetOr(r, "anoContrato", JStr("")), GetOr(r, "sequencialContrato", JStr(""))))
  }

  /** `item["contrato_cnpj"] = cnpj` and the two assignments after it. */
  function AnnotateContrato(f: Record, ids: ContratoIds): Record {
    f["contrato_cnpj" := ids.cnpj]["contrato_ano" := ids.ano]["contrato_sequencial" := ids.sequencial]
  }

  /** The item is a dict holding the contrato's identifiers. */
  predicate CarriesContrato(item: Json, ids: ContratoIds) {
    && item.JObj?
    && Get(item.fields, "contrato_cnpj") == ids.cnpj
    && Get(item.fields, "contrato_ano") == ids.ano
    && Get(item.fields, "contrato_sequencial") == ids.sequencial
  }

  /** The items one contrato contributes, given the outcome `out` of its item
      request: nothing when an identifier is falsy; otherwise the items of the
      response, each annotated. `None` where the loop raises: a contrato that
      is not a dict, or a truthy response that is not a list of dicts (the
      loop then assigns into a key, character or number). */
  function ContratoItems(c: Json, out: Outcome): (items: Option<seq<Json>>)
    ensures items.Some? && |items.value| > 0 ==>
      && c.JObj? && ContratoIdsOf(c.fields).Some? && ContratoIdsOf(c.fields).value.Complete()
      && var body := ItemsOfContrato(out);
         body.JList? && |items.value| == |body.items|
         && forall i :: 0 <= i < |body.items| ==>
              body.items[i].JObj? && items.value[i] == JObj(AnnotateContrato(body.items[i].fields, ContratoIdsOf(c.fields).value))
    ensures items.Some? ==> forall i :: 0 <= i < |items.value| ==> CarriesContrato(items.value[i], ContratoIdsOf(c.fields).value)
  {
    if !c.JObj? then None
    else
      var ids :- ContratoIdsOf(c.fields);
      if !ids.Complete() then Some([])
      else
        var body := ItemsOfContrato(out);
        if body.JList? && AllDicts(body.items) then
          Some(seq(|body.items|, i requires 0 <= i < |body.items| => JObj(AnnotateContrato(body.items[i].fields, ids))))
        else None
  }

  /** What each contrato contributes, in order; nothing where it raises. */
  function Contributions(contratos: seq<Json>, api: Json -> Outcome): (lists: seq<seq<Json>>)
    ensures |lists| == |contratos|
    ensures forall i :: 0 <= i < |contratos| ==> lists[i] == ContratoItems(contratos[i], api(contratos[i])).GetOr([])
  {
    seq(|contratos|, i requires 0 <= i < |contratos| => ContratoItems(contratos[i], api(contratos[i])).GetOr([]))
  }

  /** `fetch_itens_for_all_contratos`, where `api(c)` is the outcome of the
      item request for contrato `c`: the contributions of the contratos in
      order, or `None` when one of them raises. */
  function ItemsForAllContratos(contratos: seq<Json>, api: Json -> Outcome): (items: Option<seq<Json>>)
    ensures items.None? <==> exists i :: 0 <= i < |contratos| && ContratoItems(contratos[i], api(contratos[i])).None?
    ensures items.Some? ==> items.value == Flatten(Contributions(contratos, api))
  {
    var contribution := (c: Json) => ContratoItems(c, api(c));
    assert Outputs(contratos, contribution) == Contributions(contratos, api);
    CollectAll(contratos, contribution)
  }

  /** Every collected item carries the identifiers of the contrato whose
      response it came from. */
  lemma ContratoItemsAnnotated(contratos: seq<Json>, api: Json -> Outcome, x: Json)
    requires ItemsForAllContratos(contratos, api).Some?
    requires x in ItemsForAllContratos(contratos, api).value
    ensures exists i ::
      && 0 <= i < |contratos| && contratos[i].JObj? && ContratoIdsOf(contratos[i].fields).Some?
      && ContratoIdsOf(contratos[i].fields).value.Complete()
      && CarriesContrato(x, ContratoIdsOf(contratos[i].fields).value)
  {
    var lists := Contributions(contratos, api);
    FlattenMember(lists, x);
    var i :| 0 <= i < |lists| && x in lists[i];
    assert ContratoItems(contratos[i], api(contratos[i])).Some?;
  }

  // ---------------------------------------------------------------------------
  // Stored items of one contrato
  // ---------------------------------------------------------------------------

  /** The test of `get_itens_by_contrato`: `contrato_cnpj == cnpj` and the
      year and sequence number equal once rendered with `str()`. */
  predicate OfContrato(item: Json, cnpj: Json, ano: Json, sequencial: Json) {
    && item.JObj?
    && PyEq(Get(item.fields, "contrato_cnpj"), cnpj)
    && Str(Get(item.fields, "contrato_ano")) == Str(ano)
    && Str(Get(item.fields, "contrato_sequencial")) == Str(sequencial)
  }

  /** `get_itens_by_contrato(cnpj, ano, sequencial)` over the stored items. */
  function ItemsByContrato(items: seq<Json>, cnpj: Json, ano: Json, sequencial: Json): Option<seq<Json>> {
    FilterRecords(items, it => OfContrato(it, cnpj, ano, sequencial))
  }

  /** The lookup keeps, in order, exactly the stored items of the contrato. */
  lemma ItemsByContratoKeeps(items: seq<Json>, cnpj: Json, ano: Json, sequencial: Json, x: Json)
    requires ItemsByContrato(items, cnpj, ano, sequencial).Some?
    ensures x in ItemsByContrato(items, cnpj, ano, sequencial).value <==> x in items && OfContrato(x, cnpj, ano, sequencial)
  {
  }

  /** Items collected for a contrato are all found again by that contrato's
      identifiers. */
  lemma ContratoItemsFound(c: Json, out: Outcome)
    requires ContratoItems(c, out).Some? && c.JObj? && ContratoIdsOf(c.fields).Some?
    ensures var ids := ContratoIdsOf(c.fields).value;
      ItemsByContrato(ContratoItems(c, out).value, ids.cnpj, ids.ano, ids.sequencial) == ContratoItems(c, out)
  {
    var ids := ContratoIdsOf(c.fields).value;
    FilterAll(ContratoItems(c, out).value, it => OfContrato(it, ids.cnpj, ids.ano, ids.sequencial));
  }

  // ---------------------------------------------------------------------------
  // Updates
  // ---------------------------------------------------------------------------

  /** `update_contratos` and the Asset-Manager's `update_editais`: the fetched
      list replaces the stored file only when it is non-empty, and is
      returned either way. The result is the list returned and the file's
      contents afterwards. */
  function Update(stored: seq<Json>, fetched: seq<Json>): (r: (seq<Json>, seq<Json>))
    ensures r.0 == fetched
    ensures |fetched| == 0 ==> r.1 == stored
    ensures |fetched| > 0 ==> r.1 == fetched
  {
    (fetched, if |fetched| > 0 then fetched else stored)
  }

  /** An empty fetch never empties the store, and repeating an update with
      the same fetched list changes nothing more. */
  lemma UpdateKeepsData(stored: seq<Json>, fetched: seq<Json>)
    ensures |stored| > 0 ==> |Update(stored, fetched).1| > 0
    ensures Update(Update(stored, fetched).1, fetched) == Update(stored, fetched)
  {
  }
}

=== FILE: settings.dfy ===
/** The two pure helpers of the backend configuration: reading an
    environment variable, and resolving a relative SQLite database path
    against the backend directory. The environment and the backend
    directory are parameters; paths follow POSIX rules. */
module Settings {
  import opened Opt
  import opened Text

  // ---------------------------------------------------------------------------
  // _get_env
  // ---------------------------------------------------------------------------

  /** The process environment. */
  type Env = map<string, string>

  /** `_get_env(name, default, required)`: the variable's value, else the
      default; `None` where it raises because a required value is missing
      or empty. */
  function GetEnv(env: Env, name: string, default: Option<string>, required: bool): (r: Option<Option<string>>)
    ensures r.None? <==>
      required && (if name in env then env[name] == "" else default.None? || default.value == "")
    ensures r.Some? && name in env ==> r.value == Some(env[name])
    ensures r.Some? && name !in env ==> r.value == default
    ensures r.Some? && required ==> r.value.Some? && r.value.value != ""
  {
    var value := if name in env then Some(env[name]) else default;
    if required && (value.None? || value.value == "") then None else Some(value)
  }

  // ---------------------------------------------------------------------------
  // _normalize_sqlite_url
  // ---------------------------------------------------------------------------

  const SqlitePrefix: string := "sqlite:///"

  /** `os.path.isabs` on POSIX. */
  predicate IsAbs(p: string) { |p| > 0 && p[0] == '/' }

  /** A Windows drive letter such as "C:". */
  predicate HasDrive(p: string) { |p| >= 2 && p[1] == ':' }

  /** A path the normaliser leaves alone. */
  predicate Settled(p: string) { IsAbs(p) || HasDrive(p) }

  /** `os.path.join(base, p)` on POSIX for a relative `p`: a '/' is inserted
      unless `base` is empty or already ends with one. */
  function JoinPath(base: string, p: string): (r: string)
    ensures EndsWith(r, p)
    ensures IsAbs(base) ==> IsAbs(r)
  {
    var r := if base == "" || EndsWith(base, "/") then base + p else base + "/" + p;
    assert r[|r| - |p|..] == p;
    r
  }

  /** `_normalize_sqlite_url`: URLs of other databases, and SQLite URLs
      whose path is absolute or carries a drive letter, are returned as
      they are; a relative SQLite path is joined to the backend directory. */
  function NormalizeSqliteUrl(baseDir: string, url: string): (r: string)
    ensures !StartsWith(url, SqlitePrefix) ==> r == url
    ensures StartsWith(url, SqlitePrefix) && Settled(url[|SqlitePrefix|..]) ==> r == url
    ensures StartsWith(url, SqlitePrefix) ==> StartsWith(r, SqlitePrefix) && EndsWith(r, url[|SqlitePrefix|..])
    ensures StartsWith(url, SqlitePrefix) && IsAbs(baseDir) ==> Settled(r[|SqlitePrefix|..])
  {
    if !StartsWith(url, SqlitePrefix) then url
    else
      var path := url[|SqlitePrefix|..];
      if Settled(path) then
        assert url[|url| - |path|..] == path;
        url
      else
        var r := SqlitePrefix + JoinPath(baseDir, path);
        assert r[|SqlitePrefix|..] == JoinPath(baseDir, path);
        assert r[|r| - |path|..] == JoinPath(baseDir, path)[|JoinPath(baseDir, path)| - |path|..];
        r
  }

  /** Normalising twice is normalising once: the backend directory is
      absolute, so a normalised SQLite URL already has a settled path. */
  lemma NormalizeIdempotent(baseDir: string, url: string)
    requires IsAbs(baseDir)
    ensures NormalizeSqliteUrl(baseDir, NormalizeSqliteUrl(baseDir, url)) == NormalizeSqliteUrl(baseDir, url)
  {
    var r := NormalizeSqliteUrl(baseDir, url);
    if StartsWith(url, SqlitePrefix) {
      assert StartsWith(r, SqlitePrefix) && Settled(r[|SqlitePrefix|..]);
    }
  }

  /** A relative path lands under the backend directory, separated by one
      '/'. */
  lemma NormalizeRelative(baseDir: string, rel: string)
    requires IsAbs(baseDir) && !EndsWith(baseDir, "/") && !Settled(rel)
    ensures NormalizeSqliteUrl(baseDir, SqlitePrefix + rel) == SqlitePrefix + baseDir + "/" + rel
  {
    var url := SqlitePrefix + rel;
    assert StartsWith(url, SqlitePrefix) by { assert url[..|SqlitePrefix|] == SqlitePrefix; }
    assert url[|SqlitePrefix|..] == rel;
    assert SqlitePrefix + (baseDir + "/" + rel) == SqlitePrefix + baseDir + "/" + rel;
  }

  /** `DATABASE_URL`: the required `PNCP_DATABASE_URL`, normalised. */
  function DatabaseUrl(env: Env, baseDir: string): (r: Option<string>)
    ensures r.None? <==> "PNCP_DATABASE_URL" !in env || env["PNCP_DATABASE_URL"] == ""
    ensures r.Some? ==> r.value == NormalizeSqliteUrl(baseDir, env["PNCP_DATABASE_URL"])
  {
    var v :- GetEnv(env, "PNCP_DATABASE_URL", None, true);
    Some(NormalizeSqliteUrl(baseDir, v.value))
  }
}

=== FILE: sync.dfy ===
/** `sync_editais`: the incremental merge of a freshly fetched batch of
    editais into the stored list. Every stored edital is indexed by its key
    (a later record with the same key shadows an earlier one); a remote
    edital whose key is indexed replaces the stored record at that index when
    its timestamp is newer, and any other remote edital is appended. The
    backend and root services implement the same merge. */
module Sync {
  import opened Opt
  import opened Values
  import opened Keys

  /** `r.get("dataPublicacaoPncp") or r.get("dataAtualizacao") or
      r.get("dataPublicacao") or r.get("dataInclusao")`. */
  function StampField(e: Json): Json {
    match e
    case JObj(r) =>
      Or(Get(r, "dataPublicacaoPncp"), Or(Get(r, "dataAtualizacao"), Or(Get(r, "dataPublicacao"), Get(r, "dataInclusao"))))
    case _ => JNull
  }

  /** `to_ts`: a falsy value has no timestamp, a number (a `bool` included)
      is its own timestamp, a string goes through the date parser `parse`
      (which stands for `fromisoformat` with the `float` fallback), and
      anything else has none. */
  function ToTs(parse: string -> Option<int>, v: Json): (ts: Option<int>)
    ensures !Truthy(v) ==> ts.None?
    ensures v.JInt? && v.i != 0 ==> ts == Some(v.i)
    ensures v.JStr? && |v.s| > 0 ==> ts == parse(v.s)
    ensures v == JBool(true) ==> ts == Some(1)
    ensures v.JList? || v.JObj? ==> ts.None?
  {
    if !Truthy(v) then None
    else
      match v
      case JInt(i) => Some(i)
      case JBool(_) => Some(1)
      case JStr(s) => parse(s)
      case _ => None
  }

  /** `remote_ts and (not local_ts or remote_ts > local_ts)`: timestamps are
      tested by truthiness, so a timestamp of 0 counts as absent. */
  predicate Newer(remote: Option<int>, local: Option<int>) {
    && remote.Some? && remote.value != 0
    && (local.None? || local.value == 0 || remote.value > local.value)
  }

  /** A zero timestamp never wins, and a record always wins over a stored one
      whose timestamp is zero or missing; otherwise it is a strict comparison. */
  lemma NewerZero(remote: Option<int>, local: Option<int>)
    ensures remote == Some(0) ==> !Newer(remote, local)
    ensures remote.Some? && remote.value != 0 && (local.None? || local == Some(0)) ==> Newer(remote, local)
    ensures remote.Some? && remote.value != 0 && local.Some? && local.value != 0 ==>
      (Newer(remote, local) <==> remote.value > local.value)
    ensures !Newer(remote, remote)
  {
  }

  /** `local_map`: each key of the stored list mapped to the LAST index that
      holds it, as the dict assignment in index order leaves it. */
  function IndexOf(keys: seq<string>): (index: map<string, nat>)
    ensures forall k :: k in index <==> k in keys
    ensures forall k :: k in index ==> index[k] < |keys| && keys[index[k]] == k
    ensures forall k, j :: k in index && index[k] < j < |keys| ==> keys[j] != k
  {
    if |keys| == 0 then map[]
    else
      var init := keys[..|keys| - 1];
      var prev := IndexOf(init);
      assert forall j :: 0 <= j < |init| ==> keys[j] == init[j];
      prev[keys[|keys| - 1] := |keys| - 1]
  }

  /** The merge state: the list being built, the counters and the records
      scheduled for item collection. */
  datatype Merge = Merge(editais: seq<Json>, added: nat, updated: nat, newEditais: seq<Json>)

  predicate IndexWithin(index: map<string, nat>, n: nat) {
    forall k :: k in index ==> index[k] < n
  }

  /** One remote edital: its key is computed (which raises on a record that
      is not a dict); an indexed key compares the remote timestamp with that
      of the ORIGINAL stored record at the index, since the map keeps the
      records it was built from; an unindexed key is appended, and the map is
      not told about it. */
  function MergeStep(local: seq<Json>, index: map<string, nat>, parse: string -> Option<int>,
                     m: Merge, r: Json): (next: Option<Merge>)
    requires IndexWithin(index, |local|) && |m.editais| >= |local|
    ensures next.Some? <==> RecordKey(Edital, r).Some?
    ensures next.Some? ==> |next.value.editais| - next.value.added == |m.editais| - m.added
  {
    var key :- RecordKey(Edital, r);
    if key in index then
      var idx := index[key];
      if Newer(ToTs(parse, StampField(r)), ToTs(parse, StampField(local[idx]))) then
        Some(m.(editais := m.editais[idx := r], updated := m.updated + 1))
      else Some(m)
    else Some(m.(editais := m.editais + [r], added := m.added + 1, newEditais := m.newEditais + [r]))
  }

  /** The loop over the remote editais, in order. */
  function MergeAll(local: seq<Json>, index: map<string, nat>, parse: string -> Option<int>,
                    remote: seq<Json>): (m: Option<Merge>)
    requires IndexWithin(index, |local|)
    ensures m.Some? ==> |m.value.editais| == |local| + m.value.added
    ensures m.Some? ==> |m.value.newEditais| == m.value.added
    decreases |remote|
  {
    if |remote| == 0 then Some(Merge(local, 0, 0, []))
    else
      var prev :- MergeAll(local, index, parse, remote[..|remote| - 1]);
      MergeStep(local, index, parse, prev, remote[|remote| - 1])
  }

  /** What `sync_editais` reports and does: the counters, the list it saves
      (only when something changed) and the editais whose items it fetches. */
  datatype SyncResult = SyncResult(added: nat, updated: nat, saved: Option<seq<Json>>, fetchItemsFor: seq<Json>)

  /** `sync_editais` over the fetched batch `remote` and the stored list
      `local`; `None` where it raises (a record whose key cannot be computed). */
  function SyncEditais(remote: seq<Json>, local: seq<Json>, parse: string -> Option<int>): (res: Option<SyncResult>)
    ensures |remote| == 0 ==> res == Some(SyncResult(0, 0, None, []))
    ensures res.Some? ==> (res.value.saved.Some? <==> res.value.added + res.value.updated > 0)
    ensures res.Some? ==> |res.value.fetchItemsFor| == res.value.added
    ensures res.Some? && res.value.saved.Some? ==> |res.value.saved.value| == |local| + res.value.added
  {
    if |remote| == 0 then Some(SyncResult(0, 0, None, []))
    else
      var keys :- AllKeys(Edital, local);
      var index := IndexOf(keys);
      var m :- MergeAll(local, index, parse, remote);
      Some(SyncResult(m.added, m.updated, if m.added + m.updated > 0 then Some(m.editais) else None, m.newEditais))
  }

  // ---------------------------------------------------------------------------
  // Reference definitions of the merge's outcome, one remote at a time
  // ---------------------------------------------------------------------------

  /** The remote editais whose key is not indexed, in remote order (each
      one, duplicates included). */
  function Unindexed(index: map<string, nat>, remote: seq<Json>): seq<Json>
    requires forall i :: 0 <= i < |remote| ==> RecordKey(Edital, remote[i]).Some?
  {
    if |remote| == 0 then []
    else
      var init := Unindexed(index, remote[..|remote| - 1]);
      var r := remote[|remote| - 1];
      if RecordKey(Edital, r).value in index then init else init + [r]
  }

  /** The remote edital `r` replaces the stored record at index `i`. */
  predicate Replaces(local: seq<Json>, index: map<string, nat>, parse: string -> Option<int>, r: Json, i: nat)
    requires RecordKey(Edital, r).Some? && i < |local|
  {
    var k := RecordKey(Edital, r).value;
    k in index && index[k] == i && Newer(ToTs(parse, StampField(r)), ToTs(parse, StampField(local[i])))
  }

  /** The last remote edital that replaces the stored record at index `i`. */
  function LastReplacement(local: seq<Json>, index: map<string, nat>, parse: string -> Option<int>,
                           remote: seq<Json>, i: nat): Option<Json>
    requires forall j :: 0 <= j < |remote| ==> RecordKey(Edital, remote[j]).Some?
    requires i < |local|
  {
    if |remote| == 0 then None
    else
      var r := remote[|remote| - 1];
      if Replaces(local, index, parse, r, i) then Some(r)
      else LastReplacement(local, index, parse, remote[..|remote| - 1], i)
  }

  /** The number of remote editais that replace a stored record. */
  function Replacements(local: seq<Json>, index: map<string, nat>, parse: string -> Option<int>,
                        remote: seq<Json>): nat
    requires IndexWithin(index, |local|)
    requires forall j :: 0 <= j < |remote| ==> RecordKey(Edital, remote[j]).Some?
  {
    if |remote| == 0 then 0
    else
      var r := remote[|remote| - 1];
      var k := RecordKey(Edital, r).value;
      Replacements(local, index, parse, remote[..|remote| - 1])
        + (if k in index && Replaces(local, index, parse, r, index[k]) then 1 else 0)
  }

  /** The merge fails exactly when some remote edital's key cannot be computed. */
  lemma {:induction false} MergeAllFails(local: seq<Json>, index: map<string, nat>, parse: string -> Option<int>,
                                         remote: seq<Json>, run: Option<Merge>)
    requires IndexWithin(index, |local|) && run == MergeAll(local, index, parse, remote)
    ensures run.None? <==> exists j :: 0 <= j < |remote| && RecordKey(Edital, remote[j]).None?
    decreases |remote|
  {
    if |remote| > 0 {
      var init := remote[..|remote| - 1];
      var last := remote[|remote| - 1];
      var prev := MergeAll(local, index, parse, init);
      MergeAllFails(local, index, parse, init, prev);
      if prev.None? {
        assert run.None?;
        var j :| 0 <= j < |init| && RecordKey(Edital, init[j]).None?;
        assert remote[j] == init[j];
      } else {
        assert run == MergeStep(local, index, parse, prev.value, last);
        if run.Some? {
          forall j | 0 <= j < |remote|
            ensures RecordKey(Edital, remote[j]).Some?
          {
            if j < |init| {
              assert remote[j] == init[j];
              assert !RecordKey(Edital, init[j]).None?;
            } else {
              assert remote[j] == last;
            }
          }
        }
      }
    }
  }

  /** The merged list is the stored list with each record replaced by the
      last remote edital that is newer than it under its key, followed by
      every remote edital with an unindexed key, in remote order; the
      counters count those replacements and appends. */
  lemma {:induction false} MergeAllOutcome(local: seq<Json>, index: map<string, nat>, parse: string -> Option<int>,
                                           remote: seq<Json>)
    requires IndexWithin(index, |local|)
    requires forall j :: 0 <= j < |remote| ==> RecordKey(Edital, remote[j]).Some?
    ensures var m := MergeAll(local, index, parse, remote);
      && m.Some?
      && m.value.newEditais == Unindexed(index, remote)
      && m.value.editais[|local|..] == m.value.newEditais
      && m.value.updated == Replacements(local, index, parse, remote)
      && forall i :: 0 <= i < |local| ==>
           m.value.editais[i] == LastReplacement(local, index, parse, remote, i).GetOr(local[i])
    decreases |remote|
  {
    if |remote| > 0 {
      var init := remote[..|remote| - 1];
      assert forall j :: 0 <= j < |init| ==> remote[j] == init[j];
      MergeAllOutcome(local, index, parse, init);
      var prev := MergeAll(local, index, parse, init).value;
      var m := MergeAll(local, index, parse, remote).value;
      MergeStepAppended(local, index, parse, remote, prev, m);
      MergeStepReplaced(local, index, parse, remote, prev, m);
    }
  }

  /** The appended records and the counters after one more remote edital,
      from those before it. */
  lemma MergeStepAppended(local: seq<Json>, index: map<string, nat>, parse: string -> Option<int>,
                          remote: seq<Json>, prev: Merge, m: Merge)
    requires IndexWithin(index, |local|) && |remote| > 0
    requires forall j :: 0 <= j < |remote| ==> RecordKey(Edital, remote[j]).Some?
    requires |prev.editais| >= |local|
    requires MergeStep(local, index, parse, prev, remote[|remote| - 1]) == Some(m)
    requires var init := remote[..|remote| - 1];
      && prev.newEditais == Unindexed(index, init)
      && prev.editais[|local|..] == prev.newEditais
      && prev.updated == Replacements(local, index, parse, init)
    ensures |m.editais| >= |local|
    ensures m.newEditais == Unindexed(index, remote)
    ensures m.editais[|local|..] == m.newEditais
    ensures m.updated == Replacements(local, index, parse, remote)
  {
    var r := remote[|remote| - 1];
    if RecordKey(Edital, r).value in index {
      assert m.editais[|local|..] == prev.editais[|local|..];
    } else {
      assert m.editais[|local|..] == prev.editais[|local|..] + [r];
    }
  }

  /** The stored positions after one more remote edital, from those before
      it. */
  lemma MergeStepReplaced(local: seq<Json>, index: map<string, nat>, parse: string -> Option<int>,
                          remote: seq<Json>, prev: Merge, m: Merge)
    requires IndexWithin(index, |local|) && |remote| > 0
    requires forall j :: 0 <= j < |remote| ==> RecordKey(Edital, remote[j]).Some?
    requires |prev.editais| >= |local|
    requires MergeStep(local, index, parse, prev, remote[|remote| - 1]) == Some(m)
    requires forall i :: 0 <= i < |local| ==>
      prev.editais[i] == LastReplacement(local, index, parse, remote[..|remote| - 1], i).GetOr(local[i])
    ensures |m.editais| >= |local|
    ensures forall i :: 0 <= i < |local| ==>
      m.editais[i] == LastReplacement(local, index, parse, remote, i).GetOr(local[i])
  {
    var r := remote[|remote| - 1];
    var k := RecordKey(Edital, r).value;
    forall i | 0 <= i < |local|
      ensures m.editais[i] == LastReplacement(local, index, parse, remote, i).GetOr(local[i])
    {
      if k !in index || i != index[k] {
        assert !Replaces(local, index, parse, r, i);
        assert m.editais[i] == prev.editais[i];
      }
    }
  }

  /** Nothing stored is removed: each stored position keeps its record or
      holds a remote edital with the same key; no remote edital is lost
      either, except an older one under a stored key. */
  lemma SyncKeepsKeys(remote: seq<Json>, local: seq<Json>, parse: string -> Option<int>)
    requires |remote| > 0
    requires SyncEditais(remote, local, parse).Some?
    ensures var keys := AllKeys(Edital, local).value;
      var m := MergeAll(local, IndexOf(keys), parse, remote).value;
      forall i :: 0 <= i < |local| ==>
        m.editais[i] == local[i] || (m.editais[i] in remote && RecordKey(Edital, m.editais[i]) == Some(keys[i]))
  {
    var keys := AllKeys(Edital, local).value;
    var index := IndexOf(keys);
    MergeAllFails(local, index, parse, remote, MergeAll(local, index, parse, remote));
    MergeAllOutcome(local, index, parse, remote);
    var m := MergeAll(local, index, parse, remote).value;
    forall i | 0 <= i < |local|
      ensures m.editais[i] == local[i] || (m.editais[i] in remote && RecordKey(Edital, m.editais[i]) == Some(keys[i]))
    {
      LastReplacementFrom(local, index, parse, remote, i);
    }
  }

  /** A replacement comes from the remote batch and carries the key of the
      stored record it replaces. */
  lemma {:induction false} LastReplacementFrom(local: seq<Json>, index: map<string, nat>, parse: string -> Option<int>,
                                               remote: seq<Json>, i: nat)
    requires forall j :: 0 <= j < |remote| ==> RecordKey(Edital, remote[j]).Some?
    requires i < |local|
    requires forall k :: k in index ==> index[k] < |local|
    ensures var rep := LastReplacement(local, index, parse, remote, i);
      rep.Some? ==> (rep.value in remote && RecordKey(Edital, rep.value).value in index
                     && index[RecordKey(Edital, rep.value).value] == i)
    decreases |remote|
  {
    if |remote| > 0 {
      var init := remote[..|remote| - 1];
      assert forall j :: 0 <= j < |init| ==> remote[j] == init[j];
      LastReplacementFrom(local, index, parse, init, i);
    }
  }

  /** `sync_editais` as a whole: an empty batch changes nothing; otherwise it
      raises exactly when a stored or a fetched record has no key, and else
      appends the unindexed remote editais (each one, in remote order),
      fetches items for exactly those, counts the replacements, and saves
      the merged list when anything was added or replaced. */
  lemma SyncOutcome(remote: seq<Json>, local: seq<Json>, parse: string -> Option<int>)
    requires |remote| > 0
    ensures var res := SyncEditais(remote, local, parse);
      res.None? <==> ((exists i :: 0 <= i < |local| && RecordKey(Edital, local[i]).None?)
                      || (exists j :: 0 <= j < |remote| && RecordKey(Edital, remote[j]).None?))
    ensures var res := SyncEditais(remote, local, parse);
      res.Some? ==>
        var index := IndexOf(AllKeys(Edital, local).value);
        && res.value.fetchItemsFor == Unindexed(index, remote)
        && res.value.added == |Unindexed(index, remote)|
        && res.value.updated == Replacements(local, index, parse, remote)
  {
    var keys := AllKeys(Edital, local);
    if keys.Some? {
      var index := IndexOf(keys.value);
      MergeAllFails(local, index, parse, remote, MergeAll(local, index, parse, remote));
      if MergeAll(local, index, parse, remote).Some? {
        MergeAllOutcome(local, index, parse, remote);
      }
    }
  }

  /** Syncing a batch that the stored list already holds, each record at the
      last index of its key, adds, replaces and saves nothing: a record is
      never newer than itself. */
  lemma {:induction false} MergeAllUnchanged(local: seq<Json>, keys: seq<string>, parse: string -> Option<int>,
                                             remote: seq<Json>)
    requires AllKeys(Edital, local) == Some(keys)
    requires forall j :: 0 <= j < |remote| ==> RecordKey(Edital, remote[j]).Some?
    requires forall j :: 0 <= j < |remote| ==>
      var k := RecordKey(Edital, remote[j]).value;
      k in IndexOf(keys) && local[IndexOf(keys)[k]] == remote[j]
    ensures MergeAll(local, IndexOf(keys), parse, remote) == Some(Merge(local, 0, 0, []))
    decreases |remote|
  {
    if |remote| > 0 {
      var init := remote[..|remote| - 1];
      assert forall j :: 0 <= j < |init| ==> remote[j] == init[j];
      MergeAllUnchanged(local, keys, parse, init);
      var r := remote[|remote| - 1];
      NewerZero(ToTs(parse, StampField(r)), ToTs(parse, StampField(r)));
    }
  }

  lemma SyncUnchanged(remote: seq<Json>, local: seq<Json>, parse: string -> Option<int>)
    requires AllKeys(Edital, local).Some?
    requires forall j :: 0 <= j < |remote| ==> RecordKey(Edital, remote[j]).Some?
    requires var index := IndexOf(AllKeys(Edital, local).value);
      forall j :: 0 <= j < |remote| ==>
        var k := RecordKey(Edital, remote[j]).value;
        k in index && local[index[k]] == remote[j]
    ensures SyncEditais(remote, local, parse) == Some(SyncResult(0, 0, None, []))
  {
    if |remote| > 0 {
      MergeAllUnchanged(local, AllKeys(Edital, local).value, parse, remote);
    }
  }

  // ---------------------------------------------------------------------------
  // Two fetched editais with the same new key
  // ---------------------------------------------------------------------------

  /** An edital identified only by `cnpjOrgao`, `anoCompra` and `numeroCompra`. */
  function Plain(cnpj: string, ano: string, numero: string): Json {
    JObj(map["cnpjOrgao" := JStr(cnpj), "anoCompra" := JStr(ano), "numeroCompra" := JStr(numero)])
  }

  lemma PlainKey(cnpj: string, ano: string, numero: string)
    ensures RecordKey(Edital, Plain(cnpj, ano, numero)) == Some(cnpj + "_" + ano + "_" + numero)
    ensures StampField(Plain(cnpj, ano, numero)) == JNull
  {
    var r := Plain(cnpj, ano, numero).fields;
    assert "orgaoEntidade" !in r;
    assert CnpjPart(r) == Some(JStr(cnpj));
  }

  /** As written, the map is never told about appended keys, so a batch that
      holds the same new edital twice appends it twice and counts two
      additions. */
  lemma SyncAppendsDuplicates(a: Json, b: Json, parse: string -> Option<int>)
    requires RecordKey(Edital, a).Some? && RecordKey(Edital, b).Some?
    requires RecordKey(Edital, a) != RecordKey(Edital, b)
    ensures SyncEditais([b, b], [a], parse) == Some(SyncResult(2, 0, Some([a, b, b]), [b, b]))
  {
    var keys := [RecordKey(Edital, a).value];
    OneKey(Edital, a);
    var index := IndexOf(keys);
    MergeTwice(a, b, parse, index, MergeAll([a], index, parse, [b, b]));
  }

  /** The merge over one more remote edital is one more step. */
  lemma MergeAllSnoc(local: seq<Json>, index: map<string, nat>, parse: string -> Option<int>,
                     remote: seq<Json>, prev: Merge)
    requires IndexWithin(index, |local|) && |remote| > 0
    requires MergeAll(local, index, parse, remote[..|remote| - 1]) == Some(prev)
    ensures MergeAll(local, index, parse, remote) == MergeStep(local, index, parse, prev, remote[|remote| - 1])
  {
  }

  /** A remote edital whose key is not indexed is appended. */
  lemma MergeStepAppends(local: seq<Json>, index: map<string, nat>, parse: string -> Option<int>, m: Merge, r: Json)
    requires IndexWithin(index, |local|) && |m.editais| >= |local|
    requires RecordKey(Edital, r).Some? && RecordKey(Edital, r).value !in index
    ensures MergeStep(local, index, parse, m, r)
      == Some(m.(editais := m.editais + [r], added := m.added + 1, newEditais := m.newEditais + [r]))
  {
  }

  /** The merge of `[b]` into `[a]` appends `b`. */
  lemma MergeOnce(a: Json, b: Json, parse: string -> Option<int>, index: map<string, nat>, run: Option<Merge>)
    requires RecordKey(Edital, a).Some? && RecordKey(Edital, b).Some?
    requires RecordKey(Edital, a) != RecordKey(Edital, b)
    requires index == IndexOf([RecordKey(Edital, a).value])
    requires run == MergeAll([a], index, parse, [b])
    ensures run == Some(Merge([a, b], 1, 0, [b]))
  {
    var m0 := Merge([a], 0, 0, []);
    assert [b][..0] == [] && [b][0] == b;
    assert MergeAll([a], index, parse, []) == Some(m0);
    MergeAllSnoc([a], index, parse, [b], m0);
    MergeStepAppends([a], index, parse, m0, b);
    assert [a] + [b] == [a, b] && [] + [b] == [b];
  }

  /** The merge of `[b, b]` into `[a]` appends `b` twice. */
  lemma MergeTwice(a: Json, b: Json, parse: string -> Option<int>, index: map<string, nat>, run: Option<Merge>)
    requires RecordKey(Edital, a).Some? && RecordKey(Edital, b).Some?
    requires RecordKey(Edital, a) != RecordKey(Edital, b)
    requires index == IndexOf([RecordKey(Edital, a).value])
    requires run == MergeAll([a], index, parse, [b, b])
    ensures run == Some(Merge([a, b, b], 2, 0, [b, b]))
  {
    var m1 := Merge([a, b], 1, 0, [b]);
    MergeOnce(a, b, parse, index, MergeAll([a], index, parse, [b]));
    assert [b, b][..1] == [b] && [b, b][1] == b;
    MergeAllSnoc([a], index, parse, [b, b], m1);
    MergeStepAppends([a], index, parse, m1, b);
    assert [a, b] + [b] == [a, b, b] && [b] + [b] == [b, b];
  }

  /** Two editais with different keys, for instance `1_2024_1` and `2_2024_2`. */
  lemma DuplicateExample()
    ensures RecordKey(Edital, Plain("1", "2024", "1")).Some? && RecordKey(Edital, Plain("2", "2024", "2")).Some?
    ensures RecordKey(Edital, Plain("1", "2024", "1")) != RecordKey(Edital, Plain("2", "2024", "2"))
  {
    PlainKey("1", "2024", "1");
    PlainKey("2", "2024", "2");
    assert ("1" + "_" + "2024" + "_" + "1")[0] == '1';
    assert ("2" + "_" + "2024" + "_" + "2")[0] == '2';
  }

  // ---------------------------------------------------------------------------
  // The merge with appended keys indexed
  // ---------------------------------------------------------------------------

  /** The merge state when every appended edital is also entered in the map:
      `keys` lists the key of each record in `editais`. */
  datatype KeyedMerge = KeyedMerge(editais: seq<Json>, keys: seq<string>, index: map<string, nat>,
                                   added: nat, updated: nat, newEditais: seq<Json>)

  predicate Distinct(s: seq<string>) {
    forall i, j :: 0 <= i < j < |s| ==> s[i] != s[j]
  }

  /** The map holds every key of the list, each at a position holding it. */
  predicate KeyedInv(local: seq<Json>, m: KeyedMerge) {
    && |m.editais| == |m.keys| == |local| + |m.newEditais|
    && (forall i :: 0 <= i < |m.keys| ==> RecordKey(Edital, m.editais[i]) == Some(m.keys[i]))
    && (forall k :: k in m.index ==> m.index[k] < |m.keys| && m.keys[m.index[k]] == k)
    && (forall i :: 0 <= i < |m.keys| ==> m.keys[i] in m.index)
  }

  /** One remote edital, with `local_map[key] = (len(local_editais) - 1, remote)`
      after an append: a later edital with the same key is compared with the
      appended one instead of being appended again. */
  function KeyedStep(local: seq<Json>, parse: string -> Option<int>, m: KeyedMerge, r: Json): (next: Option<KeyedMerge>)
    requires KeyedInv(local, m)
    ensures next.Some? <==> RecordKey(Edital, r).Some?
    ensures next.Some? ==> KeyedInv(local, next.value)
    ensures next.Some? ==>
      || next.value.keys == m.keys
      || (RecordKey(Edital, r).value !in m.index && next.value.keys == m.keys + [RecordKey(Edital, r).value])
  {
    var key :- RecordKey(Edital, r);
    if key in m.index then
      var idx := m.index[key];
      var held := (local + m.newEditais)[idx];
      if Newer(ToTs(parse, StampField(r)), ToTs(parse, StampField(held))) then
        KeyedReplace(local, m, r, key);
        Some(m.(editais := m.editais[idx := r], updated := m.updated + 1))
      else Some(m)
    else
      KeyedAppend(local, m, r, key);
      Some(m.(editais := m.editais + [r], keys := m.keys + [key], index := m.index[key := |m.editais|],
              added := m.added + 1, newEditais := m.newEditais + [r]))
  }

  /** Replacing the record at a key's position by another with that key
      keeps the map right. */
  lemma KeyedReplace(local: seq<Json>, m: KeyedMerge, r: Json, key: string)
    requires KeyedInv(local, m) && RecordKey(Edital, r) == Some(key) && key in m.index
    ensures KeyedInv(local, m.(editais := m.editais[m.index[key] := r], updated := m.updated + 1))
  {
  }

  /** Appending a record under a new key, and entering the key, keeps the
      map right. */
  lemma KeyedAppend(local: seq<Json>, m: KeyedMerge, r: Json, key: string)
    requires KeyedInv(local, m) && RecordKey(Edital, r) == Some(key) && key !in m.index
    ensures KeyedInv(local, m.(editais := m.editais + [r], keys := m.keys + [key], index := m.index[key := |m.editais|],
                               added := m.added + 1, newEditais := m.newEditais + [r]))
  {
    var keys := m.keys + [key];
    var index := m.index[key := |m.editais|];
    var editais := m.editais + [r];
    assert forall i :: 0 <= i < |m.keys| ==> keys[i] == m.keys[i] && editais[i] == m.editais[i];
    assert forall i :: 0 <= i < |m.keys| ==> m.keys[i] != key;
    forall k | k in index
      ensures index[k] < |keys| && keys[index[k]] == k
    {
      if k != key {
        assert keys[index[k]] == m.keys[m.index[k]];
      }
    }
  }

  /** The merge state before the first remote edital: the stored list with
      `local_map` built from its keys. */
  function KeyedStart(local: seq<Json>, keys: seq<string>): (m: KeyedMerge)
    requires |keys| == |local|
    requires forall i :: 0 <= i < |local| ==> RecordKey(Edital, local[i]) == Some(keys[i])
    ensures KeyedInv(local, m)
    ensures m.editais == local && m.keys == keys && m.added == 0 && m.updated == 0 && m.newEditais == []
  {
    KeyedMerge(local, keys, IndexOf(keys), 0, 0, [])
  }

  /** The loop over the remote editais, starting from `local_map` as built
      from the stored list, repeated keys included. */
  function KeyedAll(local: seq<Json>, keys: seq<string>, parse: string -> Option<int>, remote: seq<Json>): (m: Option<KeyedMerge>)
    requires |keys| == |local|
    requires forall i :: 0 <= i < |local| ==> RecordKey(Edital, local[i]) == Some(keys[i])
    ensures m.Some? ==> KeyedInv(local, m.value)
    decreases |remote|
  {
    if |remote| == 0 then Some(KeyedStart(local, keys))
    else
      var prev :- KeyedAll(local, keys, parse, remote[..|remote| - 1]);
      KeyedStep(local, parse, prev, remote[|remote| - 1])
  }

  /** `sync_editais` with appended keys indexed. */
  function SyncEditaisKeyed(remote: seq<Json>, local: seq<Json>, parse: string -> Option<int>): (res: Option<SyncResult>)
    ensures |remote| == 0 ==> res == Some(SyncResult(0, 0, None, []))
    ensures res.Some? ==> (res.value.saved.Some? <==> res.value.added + res.value.updated > 0)
  {
    if |remote| == 0 then Some(SyncResult(0, 0, None, []))
    else
      var keys :- AllKeys(Edital, local);
      var m :- KeyedAll(local, keys, parse, remote);
      Some(SyncResult(m.added, m.updated, if m.added + m.updated > 0 then Some(m.editais) else None, m.newEditais))
  }

  /** With appended keys indexed, a stored list with distinct keys stays
      with distinct keys, whatever the fetched batch repeats. */
  lemma SyncKeyedDistinct(remote: seq<Json>, local: seq<Json>, parse: string -> Option<int>)
    requires AllKeys(Edital, local).Some? && Distinct(AllKeys(Edital, local).value)
    requires SyncEditaisKeyed(remote, local, parse).Some?
    requires SyncEditaisKeyed(remote, local, parse).value.saved.Some?
    ensures var saved := SyncEditaisKeyed(remote, local, parse).value.saved.value;
      AllKeys(Edital, saved).Some? && Distinct(AllKeys(Edital, saved).value)
  {
    var keys := AllKeys(Edital, local).value;
    var m := KeyedAll(local, keys, parse, remote).value;
    var saved := m.editais;
    var sk := AllKeys(Edital, saved);
    assert sk.Some?;
    assert sk.value == m.keys;
    KeyedAllDistinct(local, keys, parse, remote, m);
  }

  /** Appending only under keys the map does not hold, the merge keeps a
      list with distinct keys distinct. */
  lemma {:induction false} KeyedAllDistinct(local: seq<Json>, keys: seq<string>, parse: string -> Option<int>,
                                            remote: seq<Json>, m: KeyedMerge)
    requires |keys| == |local| && Distinct(keys)
    requires forall i :: 0 <= i < |local| ==> RecordKey(Edital, local[i]) == Some(keys[i])
    requires KeyedAll(local, keys, parse, remote) == Some(m)
    ensures Distinct(m.keys)
    decreases |remote|
  {
    if |remote| == 0 {
      KeyedAllNil(local, keys, parse);
    } else {
      var init := remote[..|remote| - 1];
      var prev := KeyedAll(local, keys, parse, init).value;
      KeyedAllDistinct(local, keys, parse, init, prev);
      KeyedAllSnoc(local, keys, parse, remote, prev);
      KeyedStepDistinct(local, parse, prev, remote[|remote| - 1], m);
    }
  }

  /** One step keeps distinct keys distinct: a replacement leaves the keys
      alone, and an append adds a key the list does not hold. */
  lemma KeyedStepDistinct(local: seq<Json>, parse: string -> Option<int>, prev: KeyedMerge, r: Json, m: KeyedMerge)
    requires KeyedInv(local, prev) && Distinct(prev.keys)
    requires KeyedStep(local, parse, prev, r) == Some(m)
    ensures Distinct(m.keys)
  {
    var key := RecordKey(Edital, r).value;
    if m.keys != prev.keys {
      assert key !in prev.index && m.keys == prev.keys + [key];
      forall i, j | 0 <= i < j < |m.keys|
        ensures m.keys[i] != m.keys[j]
      {
        assert m.keys[i] == prev.keys[i];
        if j < |prev.keys| {
          assert m.keys[j] == prev.keys[j];
        } else {
          assert prev.keys[i] in prev.index;
        }
      }
    }
  }

  /** A stored list holding a key twice is merged, not refused: a newer
      remote edital under that key replaces the later copy, the one
      `local_map` keeps. */
  lemma SyncKeyedRepeatedStore(b: Json, b': Json, parse: string -> Option<int>)
    requires RecordKey(Edital, b).Some? && RecordKey(Edital, b') == RecordKey(Edital, b)
    requires Newer(ToTs(parse, StampField(b')), ToTs(parse, StampField(b)))
    ensures SyncEditaisKeyed([b'], [b, b], parse) == Some(SyncResult(0, 1, Some([b, b']), []))
  {
    var kb := RecordKey(Edital, b).value;
    var keys := [kb, kb];
    TwoKeys(Edital, b);
    var m := KeyedRepeated(b, b', parse, KeyedAll([b, b], keys, parse, [b']));
    SyncKeyedOf([b'], [b, b], parse, keys, m);
  }

  lemma KeyedRepeated(b: Json, b': Json, parse: string -> Option<int>, run: Option<KeyedMerge>) returns (m: KeyedMerge)
    requires RecordKey(Edital, b).Some? && RecordKey(Edital, b') == RecordKey(Edital, b)
    requires Newer(ToTs(parse, StampField(b')), ToTs(parse, StampField(b)))
    requires run == KeyedAll([b, b], [RecordKey(Edital, b).value, RecordKey(Edital, b).value], parse, [b'])
    ensures run == Some(m)
    ensures m.editais == [b, b'] && m.newEditais == [] && m.added == 0 && m.updated == 1
  {
    var kb := RecordKey(Edital, b).value;
    var keys := [kb, kb];
    KeyedAllNil([b, b], keys, parse);
    var m0 := KeyedMerge([b, b], keys, IndexOf(keys), 0, 0, []);
    assert IndexOf(keys) == map[kb := 1];
    KeyedAllAppend([b, b], keys, parse, [], b', m0);
    assert [] + [b'] == [b'];
    m := KeyedReplaceLast(b, b', parse, m0);
  }

  lemma KeyedReplaceLast(b: Json, b': Json, parse: string -> Option<int>, m0: KeyedMerge) returns (m: KeyedMerge)
    requires RecordKey(Edital, b).Some? && RecordKey(Edital, b') == RecordKey(Edital, b)
    requires Newer(ToTs(parse, StampField(b')), ToTs(parse, StampField(b)))
    requires var kb := RecordKey(Edital, b).value;
      m0 == KeyedMerge([b, b], [kb, kb], map[kb := 1], 0, 0, [])
    ensures KeyedInv([b, b], m0) && KeyedStep([b, b], parse, m0, b') == Some(m)
    ensures m.editais == [b, b'] && m.newEditais == [] && m.added == 0 && m.updated == 1
  {
    assert ([b, b] + [])[1] == b;
    m := m0.(editais := [b, b][1 := b'], updated := 1);
    assert [b, b][1 := b'] == [b, b'];
  }

  /** With appended keys indexed, the same batch adds its edital once. */
  lemma SyncKeyedAppendsOnce(a: Json, b: Json, parse: string -> Option<int>)
    requires RecordKey(Edital, a).Some? && RecordKey(Edital, b).Some?
    requires RecordKey(Edital, a) != RecordKey(Edital, b)
    ensures SyncEditaisKeyed([b, b], [a], parse) == Some(SyncResult(1, 0, Some([a, b]), [b]))
  {
    var keys := [RecordKey(Edital, a).value];
    OneKey(Edital, a);
    var m := KeyedTwice(a, b, parse, KeyedAll([a], keys, parse, [b, b]));
    SyncKeyedOf([b, b], [a], parse, keys, m);
  }

  lemma KeyedTwice(a: Json, b: Json, parse: string -> Option<int>, run: Option<KeyedMerge>) returns (m: KeyedMerge)
    requires RecordKey(Edital, a).Some? && RecordKey(Edital, b).Some?
    requires RecordKey(Edital, a) != RecordKey(Edital, b)
    requires run == KeyedAll([a], [RecordKey(Edital, a).value], parse, [b, b])
    ensures run == Some(m)
    ensures m.editais == [a, b] && m.newEditais == [b] && m.added == 1 && m.updated == 0
  {
    var keys := [RecordKey(Edital, a).value];
    m := KeyedFirst(a, b, parse, KeyedAll([a], keys, parse, [b]));
    KeyedAllAppend([a], keys, parse, [b], b, m);
    assert [b] + [b] == [b, b];
    KeyedSecond(a, b, parse, m);
  }

  /** The merge over one more remote edital is one more step. */
  lemma KeyedAllAppend(local: seq<Json>, keys: seq<string>, parse: string -> Option<int>, init: seq<Json>, y: Json, prev: KeyedMerge)
    requires |keys| == |local|
    requires forall i :: 0 <= i < |local| ==> RecordKey(Edital, local[i]) == Some(keys[i])
    requires KeyedAll(local, keys, parse, init) == Some(prev)
    ensures KeyedAll(local, keys, parse, init + [y]) == KeyedStep(local, parse, prev, y)
  {
    assert (init + [y])[..|init|] == init && (init + [y])[|init|] == y;
    KeyedAllSnoc(local, keys, parse, init + [y], prev);
  }

  /** What `sync_editais` with appended keys indexed reports, given the
      merge. */
  lemma SyncKeyedOf(remote: seq<Json>, local: seq<Json>, parse: string -> Option<int>, keys: seq<string>, m: KeyedMerge)
    requires |remote| > 0 && AllKeys(Edital, local) == Some(keys)
    requires KeyedAll(local, keys, parse, remote) == Some(m)
    ensures SyncEditaisKeyed(remote, local, parse)
      == Some(SyncResult(m.added, m.updated, if m.added + m.updated > 0 then Some(m.editais) else None, m.newEditais))
  {
  }

  /** The merge over no remote editais starts from the stored list. */
  lemma KeyedAllNil(local: seq<Json>, keys: seq<string>, parse: string -> Option<int>)
    requires |keys| == |local|
    requires forall i :: 0 <= i < |local| ==> RecordKey(Edital, local[i]) == Some(keys[i])
    ensures KeyedAll(local, keys, parse, []) == Some(KeyedMerge(local, keys, IndexOf(keys), 0, 0, []))
    ensures KeyedAll(local, keys, parse, []) == Some(KeyedStart(local, keys))
  {
  }

  /** The merge over one more remote edital is one more step. */
  lemma KeyedAllSnoc(local: seq<Json>, keys: seq<string>, parse: string -> Option<int>, remote: seq<Json>, prev: KeyedMerge)
    requires |keys| == |local|
    requires forall i :: 0 <= i < |local| ==> RecordKey(Edital, local[i]) == Some(keys[i])
    requires |remote| > 0 && KeyedAll(local, keys, parse, remote[..|remote| - 1]) == Some(prev)
    ensures KeyedAll(local, keys, parse, remote) == KeyedStep(local, parse, prev, remote[|remote| - 1])
  {
    var init := remote[..|remote| - 1];
    assert KeyedInv(local, prev);
    match KeyedAll(local, keys, parse, init)
    case Some(p) =>
      assert p == prev;
  }

  /** A remote edital under a key the map does not hold is appended and its
      key entered. */
  lemma KeyedStepAppends(local: seq<Json>, parse: string -> Option<int>, m: KeyedMerge, r: Json, key: string)
    requires KeyedInv(local, m) && RecordKey(Edital, r) == Some(key) && key !in m.index
    ensures KeyedStep(local, parse, m, r) ==
      Some(m.(editais := m.editais + [r], keys := m.keys + [key], index := m.index[key := |m.editais|],
              added := m.added + 1, newEditais := m.newEditais + [r]))
  {
  }

  lemma KeyedFirst(a: Json, b: Json, parse: string -> Option<int>, run: Option<KeyedMerge>) returns (m1: KeyedMerge)
    requires RecordKey(Edital, a).Some? && RecordKey(Edital, b).Some?
    requires RecordKey(Edital, a) != RecordKey(Edital, b)
    requires run == KeyedAll([a], [RecordKey(Edital, a).value], parse, [b])
    ensures run == Some(m1)
    ensures KeyedInv([a], m1)
    ensures m1.editais == [a, b] && m1.newEditais == [b] && m1.added == 1 && m1.updated == 0
    ensures RecordKey(Edital, b).value in m1.index && m1.index[RecordKey(Edital, b).value] == 1
  {
    var keys := [RecordKey(Edital, a).value];
    var kb := RecordKey(Edital, b).value;
    KeyedAllNil([a], keys, parse);
    var m0 := KeyedMerge([a], keys, IndexOf(keys), 0, 0, []);
    KeyedAllAppend([a], keys, parse, [], b, m0);
    assert [] + [b] == [b];
    assert kb !in m0.index;
    KeyedStepAppends([a], parse, m0, b, kb);
    m1 := KeyedMerge([a] + [b], keys + [kb], m0.index[kb := 1], 1, 0, [] + [b]);
    assert [a] + [b] == [a, b] && [] + [b] == [b];
  }

  lemma KeyedSecond(a: Json, b: Json, parse: string -> Option<int>, m1: KeyedMerge)
    requires RecordKey(Edital, a).Some? && RecordKey(Edital, b).Some?
    requires KeyedInv([a], m1)
    requires m1.editais == [a, b] && m1.newEditais == [b] && m1.added == 1 && m1.updated == 0
    requires RecordKey(Edital, b).value in m1.index && m1.index[RecordKey(Edital, b).value] == 1
    ensures KeyedStep([a], parse, m1, b) == Some(m1)
  {
    assert ([a] + [b])[1] == b;
    NewerZero(ToTs(parse, StampField(b)), ToTs(parse, StampField(b)));
  }
}

=== FILE: text.dfy ===
/** String helpers shared by the services, scripts and the web layer:
    Python's `str.split`, `str.strip`, `int(str)`, the decimal rendering of
    integers, and the ASCII character classes the validators use. */
module Text {
  import opened Opt

  // ---------------------------------------------------------------------------
  // Character classes
  // ---------------------------------------------------------------------------

  predicate IsAsciiDigit(c: char) { '0' <= c <= '9' }
  predicate IsAsciiUpper(c: char) { 'A' <= c <= 'Z' }
  predicate IsAsciiLower(c: char) { 'a' <= c <= 'z' }
  predicate IsAsciiLetter(c: char) { IsAsciiUpper(c) || IsAsciiLower(c) }
  predicate IsAsciiAlnum(c: char) { IsAsciiLetter(c) || IsAsciiDigit(c) }

  /** The characters Python's `str.isspace` accepts (and `str.strip` removes). */
  predicate IsSpace(c: char) {
    || '\t' <= c <= '\r'
    || '\U{1c}' <= c <= '\U{1f}'
    || c == ' ' || c == '\U{85}' || c == '\U{a0}' || c == '\U{1680}'
    || '\U{2000}' <= c <= '\U{200a}'
    || c == '\U{2028}' || c == '\U{2029}' || c == '\U{202f}' || c == '\U{205f}' || c == '\U{3000}'
  }

  predicate AllChars(s: string, p: char -> bool) {
    forall i :: 0 <= i < |s| ==> p(s[i])
  }

  predicate SomeChar(s: string, p: char -> bool) {
    exists i :: 0 <= i < |s| && p(s[i])
  }

  // ---------------------------------------------------------------------------
  // Prefixes, suffixes, substrings, case
  // ---------------------------------------------------------------------------

  predicate StartsWith(s: string, prefix: string) {
    |prefix| <= |s| && s[..|prefix|] == prefix
  }

  predicate EndsWith(s: string, suffix: string) {
    |suffix| <= |s| && s[|s| - |suffix|..] == suffix
  }

  predicate OccursAt(hay: string, needle: string, i: int) {
    0 <= i <= |hay| - |needle| && hay[i..i + |needle|] == needle
  }

  /** `needle in hay` for strings (JavaScript `hay.includes(needle)`). */
  predicate Contains(hay: string, needle: string) {
    exists i :: 0 <= i <= |hay| - |needle| && OccursAt(hay, needle, i)
  }

  function LowerChar(c: char): char {
    if IsAsciiUpper(c) then (c as int + 32) as char else c
  }

  /** Lower-casing restricted to ASCII letters. */
  function ToLower(s: string): (r: string)
    ensures |r| == |s|
    ensures forall i :: 0 <= i < |s| ==> r[i] == LowerChar(s[i])
  {
    if |s| == 0 then "" else [LowerChar(s[0])] + ToLower(s[1..])
  }

  // ---------------------------------------------------------------------------
  // strip
  // ---------------------------------------------------------------------------

  function LStrip(s: string): (r: string)
    ensures |r| <= |s| && r == s[|s| - |r|..]
    ensures |r| > 0 ==> !IsSpace(r[0])
    ensures forall i :: 0 <= i < |s| - |r| ==> IsSpace(s[i])
  {
    if |s| > 0 && IsSpace(s[0]) then LStrip(s[1..]) else s
  }

  function RStrip(s: string): (r: string)
    ensures |r| <= |s| && r == s[..|r|]
    ensures |r| > 0 ==> !IsSpace(r[|r| - 1])
    ensures forall i :: |r| <= i < |s| ==> IsSpace(s[i])
  {
    if |s| > 0 && IsSpace(s[|s| - 1]) then RStrip(s[..|s| - 1]) else s
  }

  /** Python `s.strip()`: drop leading and trailing whitespace. */
  function Strip(s: string): string {
    RStrip(LStrip(s))
  }

  lemma StripNoSpaceEnds(s: string)
    requires |s| > 0 && !IsSpace(s[0]) && !IsSpace(s[|s| - 1])
    ensures Strip(s) == s
  {}

  // ---------------------------------------------------------------------------
  // split
  // ---------------------------------------------------------------------------

  function CountChar(s: string, c: char): nat {
    if |s| == 0 then 0 else (if s[0] == c then 1 else 0) + CountChar(s[1..], c)
  }

  /** Python `s.split(sep)` for a one-character separator: always one more
      part than there are separators, empty parts included. */
  function Split(s: string, sep: char): (parts: seq<string>)
    ensures |parts| == CountChar(s, sep) + 1
    ensures forall i :: 0 <= i < |parts| ==> sep !in parts[i]
  {
    if |s| == 0 then [""]
    else
      var rest := Split(s[1..], sep);
      if s[0] == sep then [""] + rest
      else [[s[0]] + rest[0]] + rest[1..]
  }

  /** The inverse of `Split`: the parts glued back with the separator. */
  function JoinWith(parts: seq<string>, sep: char): string {
    if |parts| == 0 then ""
    else if |parts| == 1 then parts[0]
    else parts[0] + [sep] + JoinWith(parts[1..], sep)
  }

  lemma {:induction false} SplitNoSeparator(s: string, sep: char)
    requires sep !in s
    ensures Split(s, sep) == [s]
  {
    if |s| > 0 {
      assert sep !in s[1..];
      SplitNoSeparator(s[1..], sep);
      assert [s[0]] + s[1..] == s;
    }
  }

  /** Splitting distributes over a separator placed between two strings. */
  lemma {:induction false} SplitAround(a: string, b: string, sep: char)
    ensures Split(a + [sep] + b, sep) == Split(a, sep) + Split(b, sep)
  {
    if |a| == 0 {
      assert a + [sep] + b == [sep] + b;
      assert ([sep] + b)[1..] == b;
    } else {
      var s := a + [sep] + b;
      assert s[0] == a[0];
      assert s[1..] == a[1..] + [sep] + b;
      SplitAround(a[1..], b, sep);
      var ra := Split(a[1..], sep);
      assert |ra| >= 1;
      if a[0] == sep {
      } else {
        assert Split(a, sep) == [[a[0]] + ra[0]] + ra[1..];
      }
    }
  }

  /** Splitting and joining are inverse: `s.split(sep)` glued with `sep` is `s`. */
  lemma {:induction false} JoinSplit(s: string, sep: char)
    ensures JoinWith(Split(s, sep), sep) == s
  {
    if |s| > 0 {
      JoinSplit(s[1..], sep);
      var rest := Split(s[1..], sep);
      if s[0] == sep {
        assert Split(s, sep) == [""] + rest;
        assert ([""] + rest)[1..] == rest;
        assert JoinWith([""] + rest, sep) == "" + [sep] + JoinWith(rest, sep);
        assert [s[0]] + s[1..] == s;
      } else {
        JoinHead(rest, sep, s[0]);
        assert [s[0]] + s[1..] == s;
      }
    }
  }

  lemma JoinHead(parts: seq<string>, sep: char, c: char)
    requires |parts| >= 1
    ensures JoinWith([[c] + parts[0]] + parts[1..], sep) == [c] + JoinWith(parts, sep)
  {
    var q := [[c] + parts[0]] + parts[1..];
    assert q[1..] == parts[1..];
  }

  // ---------------------------------------------------------------------------
  // Composite keys
  // ---------------------------------------------------------------------------

  /** The `f"{a}_{b}_{c}"` keys the services and scripts build. */
  function Key3(a: string, b: string, c: string): string {
    a + "_" + b + "_" + c
  }

  /** A three-part key whose parts hold no '_' splits back into its parts. */
  lemma Key3Split(a: string, b: string, c: string)
    requires '_' !in a && '_' !in b && '_' !in c
    ensures Split(Key3(a, b, c), '_') == [a, b, c]
  {
    assert Key3(a, b, c) == a + ['_'] + (b + ['_'] + c);
    SplitAround(a, b + ['_'] + c, '_');
    SplitAround(b, c, '_');
    SplitNoSeparator(a, '_');
    SplitNoSeparator(b, '_');
    SplitNoSeparator(c, '_');
  }

  // ---------------------------------------------------------------------------
  // Decimal integers
  // ---------------------------------------------------------------------------

  function DigitChar(d: nat): char
    requires d < 10
  {
    ('0' as int + d) as char
  }

  function DigitValue(c: char): nat
    requires IsAsciiDigit(c)
  {
    c as int - '0' as int
  }

  /** Decimal rendering of a natural number, most significant digit first. */
  function NatToString(n: nat): (s: string)
    ensures |s| > 0 && AllChars(s, IsAsciiDigit)
  {
    if n < 10 then [DigitChar(n)] else NatToString(n / 10) + [DigitChar(n % 10)]
  }

  /** Python `str(i)` / JavaScript `String(i)` for an integer. */
  function IntToString(i: int): string {
    if i < 0 then "-" + NatToString(-i) else NatToString(i)
  }

  /** The value of a string of decimal digits. */
  function DigitsValue(s: string): nat
    requires AllChars(s, IsAsciiDigit)
  {
    if |s| == 0 then 0 else DigitsValue(s[..|s| - 1]) * 10 + DigitValue(s[|s| - 1])
  }

  /** No '_' is directly followed by another. */
  predicate NoDoubleUnderscore(b: string) {
    |b| < 2 || (!(b[0] == '_' && b[1] == '_') && NoDoubleUnderscore(b[1..]))
  }

  /** The digits of an integer literal, with single '_' allowed between digits. */
  predicate ValidIntBody(b: string) {
    && |b| > 0
    && IsAsciiDigit(b[0]) && IsAsciiDigit(b[|b| - 1])
    && (forall i :: 0 <= i < |b| ==> IsAsciiDigit(b[i]) || b[i] == '_')
    && NoDoubleUnderscore(b)
  }

  lemma {:induction false} NoDoubleUnderscoreOfDigits(s: string)
    requires AllChars(s, IsAsciiDigit)
    ensures NoDoubleUnderscore(s)
  {
    if |s| >= 2 {
      assert IsAsciiDigit(s[0]);
      NoDoubleUnderscoreOfDigits(s[1..]);
    }
  }

  function DropUnderscores(b: string): (r: string)
    requires forall i :: 0 <= i < |b| ==> IsAsciiDigit(b[i]) || b[i] == '_'
    ensures AllChars(r, IsAsciiDigit)
  {
    if |b| == 0 then ""
    else if b[0] == '_' then DropUnderscores(b[1..])
    else [b[0]] + DropUnderscores(b[1..])
  }

  function ParseBody(b: string): Option<nat> {
    if ValidIntBody(b) then Some(DigitsValue(DropUnderscores(b))) else None
  }

  /** An optionally signed literal with no surrounding whitespace. */
  function ParseSigned(t: string): Option<int> {
    if |t| > 0 && (t[0] == '-' || t[0] == '+') then
      match ParseBody(t[1..])
      case None => None
      case Some(n) => Some(if t[0] == '-' then -(n as int) else n as int)
    else
      match ParseBody(t)
      case None => None
      case Some(n) => Some(n as int)
  }

  /** Python `int(s)` for a string: surrounding whitespace, one optional sign,
      ASCII digits with single underscores between them; `None` where Python
      raises `ValueError`. */
  function ParseInt(s: string): Option<int> {
    ParseSigned(Strip(s))
  }

  lemma {:induction false} DigitsValueOfNatToString(n: nat)
    ensures DigitsValue(NatToString(n)) == n
  {
    if n >= 10 {
      var s := NatToString(n);
      assert s[..|s| - 1] == NatToString(n / 10);
      DigitsValueOfNatToString(n / 10);
    }
  }

  lemma {:induction false} DropUnderscoresOfDigits(s: string)
    requires AllChars(s, IsAsciiDigit)
    ensures DropUnderscores(s) == s
  {
    if |s| > 0 {
      DropUnderscoresOfDigits(s[1..]);
      assert [s[0]] + s[1..] == s;
    }
  }

  lemma ParseBodyOfDigits(d: string)
    requires |d| > 0 && AllChars(d, IsAsciiDigit)
    ensures ParseBody(d) == Some(DigitsValue(d))
  {
    DropUnderscoresOfDigits(d);
    NoDoubleUnderscoreOfDigits(d);
    assert ValidIntBody(d);
  }

  lemma StripDigits(d: string)
    requires |d| > 0 && AllChars(d, IsAsciiDigit)
    ensures Strip(d) == d && Strip("-" + d) == "-" + d
  {
    assert IsAsciiDigit(d[0]) && IsAsciiDigit(d[|d| - 1]);
    StripNoSpaceEnds(d);
    var s := "-" + d;
    assert s[|s| - 1] == d[|d| - 1];
    StripNoSpaceEnds(s);
  }

  lemma ParseSignedDigits(d: string)
    requires |d| > 0 && AllChars(d, IsAsciiDigit)
    ensures ParseSigned(d) == Some(DigitsValue(d) as int)
  {
    assert IsAsciiDigit(d[0]);
    ParseBodyOfDigits(d);
  }

  /** `int(d)` for a non-empty string of decimal digits is its value. */
  lemma ParseIntOfDigits(d: string)
    requires |d| > 0 && AllChars(d, IsAsciiDigit)
    ensures ParseInt(d) == Some(DigitsValue(d) as int)
  {
    StripDigits(d);
    ParseSignedDigits(d);
  }

  /** A minus sign negates the value of the literal after it. */
  lemma ParseSignedNegative(d: string, v: nat)
    requires ParseBody(d) == Some(v)
    ensures ParseSigned("-" + d) == Some(-(v as int))
  {
    var t := "-" + d;
    assert t[0] == '-' && t[1..] == d;
  }

  /** `int(str(i)) == i`: parsing the decimal rendering gives the integer back. */
  lemma ParseIntToString(i: int)
    ensures ParseInt(IntToString(i)) == Some(i)
  {
    var m: nat := if i < 0 then -i else i;
    DigitsValueOfNatToString(m);
    StripDigits(NatToString(m));
    ParseSignedDigits(NatToString(m));
    ParseBodyOfDigits(NatToString(m));
    ParseSignedNegative(NatToString(m), m);
  }
}

=== FILE: values.dfy ===
/** The JSON values the collector stores and exchanges, and the pieces of
    Python and JavaScript semantics the services apply to them: truthiness,
    `dict.get`, `or`, `str()`, `int()`, and JavaScript's `String()`. */
module Values {
  import opened Opt
  import opened Text
  import opened Lists

  datatype Json =
    | JNull
    | JBool(b: bool)
    | JInt(i: int)
    | JStr(s: string)
    | JList(items: seq<Json>)
    | JObj(fields: map<string, Json>)

  /** A decoded JSON object (a Python `dict` with string keys). */
  type Record = map<string, Json>

  // ---------------------------------------------------------------------------
  // Python
  // ---------------------------------------------------------------------------

  /** Python truthiness: `None`, `False`, `0`, `""`, `[]` and `{}` are false. */
  predicate Truthy(v: Json) {
    match v
    case JNull => false
    case JBool(b) => b
    case JInt(i) => i != 0
    case JStr(s) => |s| > 0
    case JList(xs) => |xs| > 0
    case JObj(m) => |m| > 0
  }

  /** `r.get(k)`: the stored value, `None` when the key is missing. */
  function Get(r: Record, k: string): Json {
    if k in r then r[k] else JNull
  }

  /** `r.get(k, d)`. */
  function GetOr(r: Record, k: string, d: Json): Json {
    if k in r then r[k] else d
  }

  /** `a or b`: the first operand when truthy, else the second. */
  function Or(a: Json, b: Json): Json {
    if Truthy(a) then a else b
  }

  /** The dictionary `v`, if a `.get` call on it succeeds; `None` where Python
      raises `AttributeError` (calling `.get` on a non-dict). */
  function AsRecord(v: Json): Option<Record> {
    if v.JObj? then Some(v.fields) else None
  }

  /** `r.get(k, {})` followed by `.get`: a missing key gives `{}`, a stored
      non-dict (including `None`) makes the following `.get` raise. */
  function SubRecord(r: Record, k: string): Option<Record> {
    if k in r then AsRecord(r[k]) else Some(map[])
  }

  /** `(r.get(k) or {})` followed by `.get`: any falsy value becomes `{}`. */
  function SubRecordOrEmpty(r: Record, k: string): Option<Record> {
    var v := Get(r, k);
    if Truthy(v) then AsRecord(v) else Some(map[])
  }

  /** Python `str(v)` as used in f-strings. Containers are rendered by a fixed
      placeholder: their keys never contain one. */
  function Str(v: Json): string {
    match v
    case JNull => "None"
    case JBool(b) => if b then "True" else "False"
    case JInt(i) => IntToString(i)
    case JStr(s) => s
    case JList(_) => "[...]"
    case JObj(_) => "{...}"
  }

  /** Python `int(v)`; `None` where it raises (`ValueError`, `TypeError`). */
  function PyInt(v: Json): Option<int> {
    match v
    case JInt(i) => Some(i)
    case JBool(b) => Some(if b then 1 else 0)
    case JStr(s) => ParseInt(s)
    case _ => None
  }

  /** The number an integer comparison sees; `None` where comparing with an
      `int` raises `TypeError`. */
  function Numeric(v: Json): Option<int> {
    match v
    case JInt(i) => Some(i)
    case JBool(b) => Some(if b then 1 else 0)
    case _ => None
  }

  /** Python `==` between JSON values at the top level: `True == 1` and
      `False == 0`; otherwise structural equality. */
  predicate PyEq(a: Json, b: Json) {
    if Numeric(a).Some? && Numeric(b).Some? then Numeric(a) == Numeric(b) else a == b
  }

  /** The key a dict files a value under: `True` and `1` (and `False` and
      `0`) are one key. */
  function Norm(v: Json): Json {
    if v.JBool? then JInt(if v.b then 1 else 0) else v
  }

  /** `x` is `e` with at most the fields in `changed` set: nothing else
      appears, disappears or changes. */
  ghost predicate OnlyChanged(e: Record, x: Record, changed: set<string>) {
    forall k :: k !in changed ==> (k in x <==> k in e) && (k in e ==> x[k] == e[k])
  }

  /** Every element is a dict. */
  predicate AllDicts(xs: seq<Json>) {
    forall i :: 0 <= i < |xs| ==> xs[i].JObj?
  }

  /** A list comprehension over records whose test calls `.get`: the records
      passing `keep`, in order, or `None` when a record is not a dict and
      `.get` raises. */
  function FilterRecords(xs: seq<Json>, keep: Json -> bool): (r: Option<seq<Json>>)
    ensures r.None? <==> !AllDicts(xs)
    ensures r.Some? ==> r.value == Filter(xs, keep)
  {
    if |xs| == 0 then Some([])
    else
      var init := xs[..|xs| - 1];
      var last := xs[|xs| - 1];
      assert forall i :: 0 <= i < |init| ==> init[i] == xs[i];
      var kept :- FilterRecords(init, keep);
      if !last.JObj? then None
      else Some(kept + (if keep(last) then [last] else []))
  }

  /** `str(int(s)) == s` fails in general, but the other direction holds. */
  lemma PyIntOfStr(i: int)
    ensures PyInt(JStr(Str(JInt(i)))) == Some(i)
  {
    ParseIntToString(i);
  }

  // ---------------------------------------------------------------------------
  // JavaScript
  // ---------------------------------------------------------------------------

  /** JavaScript truthiness: unlike Python, empty arrays and objects are true. */
  predicate JsTruthy(v: Json) {
    match v
    case JNull => false
    case JBool(b) => b
    case JInt(i) => i != 0
    case JStr(s) => |s| > 0
    case JList(_) => true
    case JObj(_) => true
  }

  /** `o.f` / `o?.f`: `None` models `undefined`. */
  function JsField(o: Option<Json>, f: string): Option<Json> {
    match o
    case Some(JObj(m)) => if f in m then Some(m[f]) else None
    case _ => None
  }

  /** `a || b` over possibly-undefined operands. */
  function JsOr(a: Option<Json>, b: Option<Json>): Option<Json> {
    if a.Some? && JsTruthy(a.value) then a else b
  }

  /** `a ?? b`: `b` only when `a` is `null` or `undefined`. */
  function JsCoalesce(a: Option<Json>, b: Option<Json>): Option<Json> {
    if a.Some? && a.value != JNull then a else b
  }

  /** JavaScript `String(v)`: arrays join their elements' strings with ','
      (with `null` elements as ''), plain objects print `[object Object]`. */
  function JsString(v: Json): string
    decreases v, 1, 0
  {
    match v
    case JNull => "null"
    case JBool(b) => if b then "true" else "false"
    case JInt(i) => IntToString(i)
    case JStr(s) => s
    case JList(_) => JsJoin(v, 0)
    case JObj(_) => "[object Object]"
  }

  function JsJoin(v: Json, i: nat): string
    requires v.JList? && i <= |v.items|
    decreases v, 0, |v.items| - i
  {
    if i == |v.items| then ""
    else
      var e := v.items[i];
      var s := if e == JNull then "" else JsString(e);
      if i + 1 == |v.items| then s else s + "," + JsJoin(v, i + 1)
  }

  /** `String(x)` where `x` may be `undefined`. */
  function JsStringOpt(v: Option<Json>): string {
    match v
    case Some(x) => JsString(x)
    case None => "undefined"
  }
}

=== FILE: web.dfy ===
/** Account creation, as the web application's `/users/new` view and the
    administrative `create_user.py` script validate it, and the key check of
    the edital routes. The user database is a parameter: the usernames and
    e-mails already registered. */
module Web {
  import opened Opt
  import opened Text
  import opened Lists
  import opened Values
  import opened Keys
  import Items

  // ---------------------------------------------------------------------------
  // Password policy
  // ---------------------------------------------------------------------------

  const MinPasswordLength: nat := 6

  const MsgMismatch: string := "As senhas não conferem."
  const MsgShort: string := "A senha deve ter no mínimo 6 caracteres."
  const MsgUpper: string := "A senha deve conter pelo menos uma letra maiúscula."
  const MsgLower: string := "A senha deve conter pelo menos uma letra minúscula."
  const MsgDigit: string := "A senha deve conter pelo menos um número."
  const MsgSpecial: string := "A senha deve conter pelo menos um caractere especial."

  /** The class `[^A-Za-z0-9]`. */
  predicate IsSpecial(c: char) { !IsAsciiAlnum(c) }

  /** The policy both validators enforce: at least six characters, among
      them an upper-case letter, a lower-case letter, a digit and a
      character that is none of these. */
  predicate StrongPassword(p: string) {
    && |p| >= MinPasswordLength
    && SomeChar(p, IsAsciiUpper)
    && SomeChar(p, IsAsciiLower)
    && SomeChar(p, IsAsciiDigit)
    && SomeChar(p, IsSpecial)
  }

  /** `validate_password`: the message of the first rule the password
      breaks, in the order length, upper case, lower case, digit, special
      character; `None` for a password that keeps them all. */
  function ValidatePassword(p: string): (err: Option<string>)
    ensures err.None? <==> StrongPassword(p)
    ensures err == Some(MsgShort) <==> |p| < MinPasswordLength
    ensures err == Some(MsgUpper) <==> |p| >= MinPasswordLength && !SomeChar(p, IsAsciiUpper)
    ensures err == Some(MsgLower) <==>
      |p| >= MinPasswordLength && SomeChar(p, IsAsciiUpper) && !SomeChar(p, IsAsciiLower)
    ensures err == Some(MsgDigit) <==>
      |p| >= MinPasswordLength && SomeChar(p, IsAsciiUpper) && SomeChar(p, IsAsciiLower) && !SomeChar(p, IsAsciiDigit)
    ensures err == Some(MsgSpecial) <==>
      |p| >= MinPasswordLength && SomeChar(p, IsAsciiUpper) && SomeChar(p, IsAsciiLower) && SomeChar(p, IsAsciiDigit)
      && !SomeChar(p, IsSpecial)
  {
    if |p| < MinPasswordLength then Some(MsgShort)
    else if !SomeChar(p, IsAsciiUpper) then Some(MsgUpper)
    else if !SomeChar(p, IsAsciiLower) then Some(MsgLower)
    else if !SomeChar(p, IsAsciiDigit) then Some(MsgDigit)
    else if !SomeChar(p, IsSpecial) then Some(MsgSpecial)
    else None
  }

  /** `validate_password_policy`: a password that differs from its
      confirmation is refused first; otherwise the policy decides. */
  function ValidatePasswordPolicy(p: string, confirm: string): (err: Option<string>)
    ensures p != confirm ==> err == Some(MsgMismatch)
    ensures p == confirm ==> err == ValidatePassword(p)
    ensures err.None? <==> p == confirm && StrongPassword(p)
  {
    if p != confirm then Some(MsgMismatch) else ValidatePassword(p)
  }

  /** Every refusal of the policy carries one of its six messages, so a
      refusal is never mistaken for acceptance (`if policy_error:`). */
  lemma PolicyMessages(p: string, confirm: string)
    ensures var err := ValidatePasswordPolicy(p, confirm);
      err.Some? ==> err.value in {MsgMismatch, MsgShort, MsgUpper, MsgLower, MsgDigit, MsgSpecial} && |err.value| > 0
  {
  }

  /** The password that "SenhaForte123!" exemplifies is accepted; dropping
      its special character is refused with the last message. */
  lemma PasswordExamples()
    ensures ValidatePassword("SenhaForte123!") == None
    ensures ValidatePassword("SenhaForte123") == Some(MsgSpecial)
    ensures ValidatePassword("Ab1!") == Some(MsgShort)
  {
    var p := "SenhaForte123!";
    assert IsAsciiUpper(p[0]) && IsAsciiLower(p[1]) && IsAsciiDigit(p[10]) && IsSpecial(p[13]);
    var q := "SenhaForte123";
    assert IsAsciiUpper(q[0]) && IsAsciiLower(q[1]) && IsAsciiDigit(q[10]);
    assert forall i :: 0 <= i < |q| ==> !IsSpecial(q[i]);
  }

  // ---------------------------------------------------------------------------
  // E-mail pattern ^[a-zA-Z0-9._%+-]+@[a-zA-Z0-9.-]+\.[a-zA-Z]{2,}$
  // ---------------------------------------------------------------------------

  /** The class `[a-zA-Z0-9._%+-]` of the local part. */
  predicate LocalChar(c: char) {
    IsAsciiAlnum(c) || c == '.' || c == '_' || c == '%' || c == '+' || c == '-'
  }

  /** The class `[a-zA-Z0-9.-]` of the domain. */
  predicate DomainChar(c: char) {
    IsAsciiAlnum(c) || c == '.' || c == '-'
  }

  /** `s` reads local part, '@' at `at`, domain, '.' at `dot`, and at least
      two letters to the end. */
  predicate EmailSplitAt(s: string, at: int, dot: int) {
    && 0 < at && at + 1 < dot && dot + 3 <= |s|
    && s[at] == '@' && s[dot] == '.'
    && AllChars(s[..at], LocalChar)
    && AllChars(s[at + 1..dot], DomainChar)
    && AllChars(s[dot + 1..], IsAsciiLetter)
  }

  /** The whole of `s` matches the pattern without its anchors: there is a
      way to cut it into the pattern's pieces. */
  ghost predicate EmailShape(s: string) {
    exists at, dot :: EmailSplitAt(s, at, dot)
  }

  /** What `re.match` with the trailing `$` accepts: Python's `$` also
      matches just before a final newline. */
  ghost predicate EmailPattern(s: string) {
    EmailShape(s) || (|s| > 0 && s[|s| - 1] == '\n' && EmailShape(s[..|s| - 1]))
  }

  /** The cut is forced: the '@' is the first one and the '.' before the
      top-level domain is the last one, since no other piece admits '@' and
      the top-level domain admits no '.'. */
  function MatchesEmail(s: string): bool {
    match (FirstIndex(s, '@'), LastIndex(s, '.'))
    case (Some(at), Some(dot)) => EmailSplitAt(s, at, dot)
    case _ => false
  }

  lemma EmailCutIsForced(s: string, at: int, dot: int)
    requires EmailSplitAt(s, at, dot)
    ensures FirstIndex(s, '@') == Some(at as nat)
    ensures LastIndex(s, '.') == Some(dot as nat)
  {
    forall j | 0 <= j < at ensures s[j] != '@' {
      assert LocalChar(s[..at][j]);
    }
    forall j | dot < j < |s| ensures s[j] != '.' {
      assert IsAsciiLetter(s[dot + 1..][j - dot - 1]);
    }
  }

  /** The decision procedure recognises exactly the strings of the pattern. */
  lemma MatchesEmailIsShape(s: string)
    ensures MatchesEmail(s) <==> EmailShape(s)
  {
    if EmailShape(s) {
      var at, dot :| EmailSplitAt(s, at, dot);
      EmailCutIsForced(s, at, dot);
    }
  }

  /** `validate_email` (and the view's `re.match`). */
  function ValidateEmail(s: string): (ok: bool)
    ensures ok <==> EmailPattern(s)
  {
    MatchesEmailIsShape(s);
    if |s| > 0 && s[|s| - 1] == '\n' then
      MatchesEmailIsShape(s[..|s| - 1]);
      MatchesEmail(s) || MatchesEmail(s[..|s| - 1])
    else MatchesEmail(s)
  }

  /** An accepted address holds exactly one '@'. */
  lemma EmailOneAt(s: string)
    requires EmailShape(s)
    ensures exists at :: 0 <= at < |s| && s[at] == '@' && forall j :: 0 <= j < |s| && s[j] == '@' ==> j == at
  {
    var at, dot :| EmailSplitAt(s, at, dot);
    forall j | 0 <= j < |s| && j != at ensures s[j] != '@' {
      if j < at {
        assert LocalChar(s[..at][j]);
      } else if j < dot {
        assert DomainChar(s[at + 1..dot][j - at - 1]);
      } else if j > dot {
        assert IsAsciiLetter(s[dot + 1..][j - dot - 1]);
      }
    }
  }

  /** The e-mail as both entry points read it: stripped and lower-cased. */
  function NormalizeEmail(raw: string): string {
    ToLower(Strip(raw))
  }

  /** After stripping, the newline allowance of `$` no longer matters. */
  lemma NormalizedEmailPattern(raw: string)
    ensures ValidateEmail(NormalizeEmail(raw)) <==> EmailShape(NormalizeEmail(raw))
  {
    var t := Strip(raw);
    var n := NormalizeEmail(raw);
    if |n| > 0 {
      assert n[|n| - 1] == LowerChar(t[|t| - 1]);
      assert !IsSpace(t[|t| - 1]);
      assert n[|n| - 1] != '\n';
    }
  }

  /** The address of the script's usage example is accepted. */
  lemma EmailAccepted()
    ensures ValidateEmail("joao@email.com")
  {
    var s := "joao@email.com";
    assert s[..4] == "joao" && s[5..10] == "email" && s[11..] == "com";
    assert AllChars("joao", LocalChar);
    assert AllChars("email", DomainChar);
    assert AllChars("com", IsAsciiLetter);
    assert EmailSplitAt(s, 4, 10);
  }

  /** A one-letter top-level domain is refused. */
  lemma EmailShortTld()
    ensures !ValidateEmail("joao@email.c")
  {
    var t := "joao@email.c";
  }

  // ---------------------------------------------------------------------------
  // Creating an account
  // ---------------------------------------------------------------------------

  /** The registered accounts the duplicate checks consult. */
  datatype Accounts = Accounts(usernames: set<string>, emails: set<string>)

  datatype NewUser = NewUser(name: string, username: string, email: string, password: string)

  /** The acceptance condition the view and the script share, on the
      normalised fields. */
  ghost predicate Admissible(u: NewUser, accounts: Accounts) {
    && u.name != "" && u.username != "" && u.email != ""
    && EmailPattern(u.email)
    && StrongPassword(u.password)
    && u.username !in accounts.usernames
    && u.email !in accounts.emails
  }

  /** The submitted form: field name to text; a missing field reads as "". */
  type Form = map<string, string>

  function Field(data: Form, k: string): string {
    if k in data then data[k] else ""
  }

  /** `confirm_password`, or the `confirm` field when that is empty. */
  function Confirmation(data: Form): string {
    var c := Field(data, "confirm_password");
    if c != "" then c else Field(data, "confirm")
  }

  function FormUser(data: Form): NewUser {
    NewUser(Strip(Field(data, "name")), Strip(Field(data, "username")),
            NormalizeEmail(Field(data, "email")), Field(data, "password"))
  }

  const MsgNoName: string := "Preencha o nome."
  const MsgNoUsername: string := "Preencha o usuário."
  const MsgNoEmail: string := "Preencha o email."
  const MsgNoPassword: string := "Preencha a senha."
  const MsgBadEmail: string := "Email inválido."
  const MsgUserTaken: string := "Usuário já existe."
  const MsgEmailTaken: string := "Email já cadastrado."

  /** The view's answer: a refusal with its HTTP status and message, or the
      account to create. */
  datatype ViewResult = Refused(status: nat, message: string) | Created(user: NewUser)

  /** The form-level conditions, checked before the database is consulted. */
  ghost predicate ValidForm(u: NewUser, confirm: string) {
    && u.name != "" && u.username != "" && u.email != ""
    && EmailPattern(u.email)
    && u.password == confirm && StrongPassword(u.password)
  }

  /** `create_user_view` on a POST: required fields, then the e-mail
      pattern, then the password policy (all 400), then the duplicate checks
      (409). */
  function CreateUserView(data: Form, accounts: Accounts): (r: ViewResult)
    ensures r.Created? <==> Admissible(FormUser(data), accounts) && FormUser(data).password == Confirmation(data)
    ensures r.Created? ==> r.user == FormUser(data)
    ensures r.Refused? ==> r.status == 400 || r.status == 409
    ensures r.Refused? && r.status == 400 <==> !ValidForm(FormUser(data), Confirmation(data))
    ensures r.Refused? && r.status == 409 ==>
      FormUser(data).username in accounts.usernames || FormUser(data).email in accounts.emails
    ensures Strip(Field(data, "name")) == "" ==> r == Refused(400, MsgNoName)
  {
    var u := FormUser(data);
    var policy := ValidatePasswordPolicy(u.password, Confirmation(data));
    if u.name == "" then Refused(400, MsgNoName)
    else if u.username == "" then Refused(400, MsgNoUsername)
    else if u.email == "" then Refused(400, MsgNoEmail)
    else if u.password == "" then Refused(400, MsgNoPassword)
    else if !ValidateEmail(u.email) then Refused(400, MsgBadEmail)
    else if policy.Some? then Refused(400, policy.value)
    else if u.username in accounts.usernames then Refused(409, MsgUserTaken)
    else if u.email in accounts.emails then Refused(409, MsgEmailTaken)
    else Created(u)
  }

  /** The address is checked before the password: a malformed address is
      reported even when the password is weak too. */
  lemma EmailBeforePassword(data: Form, accounts: Accounts)
    requires var u := FormUser(data); u.name != "" && u.username != "" && u.email != "" && u.password != ""
    requires !EmailPattern(FormUser(data).email)
    ensures CreateUserView(data, accounts) == Refused(400, MsgBadEmail)
  {
  }

  /** The result of `create_user.py`: the usage text (too few arguments), an
      error message (exit status 1), or the account to create. */
  datatype CliResult = Usage | CliError(message: string) | CliCreated(user: NewUser)

  function ArgvUser(argv: seq<string>): NewUser
    requires |argv| >= 5
  {
    NewUser(Strip(argv[1]), Strip(argv[2]), NormalizeEmail(argv[3]), argv[4])
  }

  /** `main` of `create_user.py` over `sys.argv`. */
  function CreateUserCli(argv: seq<string>, accounts: Accounts): (r: CliResult)
    ensures r == Usage <==> |argv| < 5
    ensures r.CliCreated? <==> |argv| >= 5 && Admissible(ArgvUser(argv), accounts)
    ensures r.CliCreated? ==> r.user == ArgvUser(argv)
  {
    if |argv| < 5 then Usage
    else
      var u := ArgvUser(argv);
      var policy := ValidatePassword(u.password);
      if u.name == "" then CliError("Erro: Nome não pode ser vazio.")
      else if u.username == "" then CliError("Erro: Username não pode ser vazio.")
      else if u.email == "" then CliError("Erro: Email não pode ser vazio.")
      else if !ValidateEmail(u.email) then CliError("Erro: Email inválido.")
      else if policy.Some? then CliError("Erro: " + policy.value)
      else if u.username in accounts.usernames then CliError("Erro: Usuário '" + u.username + "' já existe.")
      else if u.email in accounts.emails then CliError("Erro: Email '" + u.email + "' já cadastrado.")
      else CliCreated(u)
  }

  /** The script and the view accept the same accounts: the script's
      arguments, submitted as a form with the password confirmed, create the
      same user, and either both refuse. */
  lemma CliAgreesWithView(argv: seq<string>, accounts: Accounts)
    requires |argv| >= 5
    ensures var data := map["name" := argv[1], "username" := argv[2], "email" := argv[3],
                            "password" := argv[4], "confirm_password" := argv[4]];
      && (CreateUserCli(argv, accounts).CliCreated? <==> CreateUserView(data, accounts).Created?)
      && (CreateUserView(data, accounts).Created? ==> CreateUserView(data, accounts).user == CreateUserCli(argv, accounts).user)
  {
    var data := map["name" := argv[1], "username" := argv[2], "email" := argv[3],
                    "password" := argv[4], "confirm_password" := argv[4]];
    assert Field(data, "name") == argv[1] && Field(data, "username") == argv[2];
    assert Field(data, "email") == argv[3] && Field(data, "password") == argv[4];
    assert Field(data, "confirm_password") == argv[4];
    assert FormUser(data) == ArgvUser(argv);
    assert Confirmation(data) == argv[4];
    var u := ArgvUser(argv);
    assert CreateUserView(data, accounts).Created? <==> Admissible(u, accounts);
    assert CreateUserCli(argv, accounts).CliCreated? <==> Admissible(u, accounts);
  }

  // ---------------------------------------------------------------------------
  // Edital routes
  // ---------------------------------------------------------------------------

  /** `edital_key.split("_")` when it has exactly three parts. */
  function RouteParts(key: string): (parts: Option<(string, string, string)>)
    ensures parts.Some? <==> CountChar(key, '_') == 2
    ensures parts.Some? ==> Key3(parts.value.0, parts.value.1, parts.value.2) == key
  {
    var ps := Split(key, '_');
    if |ps| == 3 then
      JoinSplit(key, '_');
      assert ps[1..][1..] == [ps[2]];
      assert JoinWith(ps[1..], '_') == ps[1] + ['_'] + ps[2];
      assert JoinWith(ps, '_') == ps[0] + ['_'] + (ps[1] + ['_'] + ps[2]);
      Some((ps[0], ps[1], ps[2]))
    else None
  }

  /** A key built from three parts without '_' passes the route check and
      gives its parts back. */
  lemma RoutePartsOfKey(a: string, b: string, c: string)
    requires '_' !in a && '_' !in b && '_' !in c
    ensures RouteParts(Key3(a, b, c)) == Some((a, b, c))
  {
    Key3Split(a, b, c);
  }

  /** An edital route's answer. */
  datatype Reply = NotFound | Detail(edital: Json) | ItemList(total: nat, data: seq<Json>)

  /** `api_edital_detail`: 404 unless the key has three parts and a stored
      edital with that key is found and is not empty; `None` where the
      lookup raises. */
  function EditalDetail(editais: seq<Json>, key: string): (r: Option<Reply>)
    ensures r.Some? && r.value.Detail? ==>
      && CountChar(key, '_') == 2
      && r.value.edital in editais
      && RecordKey(Edital, r.value.edital) == Some(key)
      && Truthy(r.value.edital)
    ensures CountChar(key, '_') != 2 ==> r == Some(NotFound)
  {
    if RouteParts(key).None? then Some(NotFound)
    else
      var found :- FindByKey(Edital, editais, key);
      if found.Some? && Truthy(found.value) then Some(Detail(found.value)) else Some(NotFound)
  }

  /** Every stored, non-empty edital whose key parts hold no '_' is served
      by the detail route under its own key, provided it is the first with
      that key and the keys before it can be computed. */
  lemma DetailServesStored(editais: seq<Json>, i: nat)
    requires i < |editais| && RecordKey(Edital, editais[i]).Some? && Truthy(editais[i])
    requires var r := editais[i].fields;
      && '_' !in Str(CnpjPart(r).value)
      && '_' !in Str(GetOr(r, YearField(Edital), JStr("")))
      && '_' !in Str(GetOr(r, NumberField(Edital), JStr("")))
    requires forall j :: 0 <= j < i ==>
      RecordKey(Edital, editais[j]).Some? && RecordKey(Edital, editais[j]) != RecordKey(Edital, editais[i])
    ensures EditalDetail(editais, RecordKey(Edital, editais[i]).value) == Some(Detail(editais[i]))
  {
    var key := RecordKey(Edital, editais[i]).value;
    var r := editais[i].fields;
    RoutePartsOfKey(Str(CnpjPart(r).value), Str(GetOr(r, YearField(Edital), JStr(""))),
                    Str(GetOr(r, NumberField(Edital), JStr(""))));
    FindByKeyFirst(Edital, editais, key, i);
  }

  /** `api_edital_itens`: 404 unless the key has three parts; otherwise the
      stored items of the edital those parts name, with their number. */
  function EditalItens(items: seq<Json>, key: string): (r: Option<Reply>)
    ensures CountChar(key, '_') != 2 ==> r == Some(NotFound)
    ensures r.Some? && r.value.ItemList? ==> r.value.total == |r.value.data|
    ensures r.Some? && r.value.ItemList? ==>
      var (c, a, n) := RouteParts(key).value;
      forall x :: x in r.value.data <==> x in items && Items.OfEdital(x, JStr(c), JStr(a), JStr(n))
    ensures CountChar(key, '_') == 2 ==>
      var (c, a, n) := RouteParts(key).value;
      var found := Items.ItemsByEdital(items, JStr(c), JStr(a), JStr(n));
      && (r.None? <==> found.None?)
      && (r.Some? ==> r.value == ItemList(|found.value|, found.value))
  {
    match RouteParts(key)
    case None => Some(NotFound)
    case Some((c, a, n)) =>
      var found :- Items.ItemsByEdital(items, JStr(c), JStr(a), JStr(n));
      forall x ensures x in found <==> x in items && Items.OfEdital(x, JStr(c), JStr(a), JStr(n)) {
        Items.ItemsByEditalKeeps(items, JStr(c), JStr(a), JStr(n), x);
      }
      Some(ItemList(|found|, found))
  }
}
